=== FILE: README.md ===
# libxb in Dafny

A model of the core of libxb, a library that reads and writes the XB
archives of ClapHanz games (Minna no Golf / Everybody's Golf), with proofs
about it. The model covers these parts:

- **Byte streams** (`Streams`). This is the `BufferStream` of
  `src/libxb/streams.py`: a growable byte buffer with a cursor.
  - Fixed-width integers in either byte order.
  - NUL-terminated strings and padding.
  - Alignment of the cursor.
- **Alignment** (`Utility`, `Util`, `Alignables`).
  - The two `align` helpers. `utility.py` rounds up to the next multiple.
  - `util.py` always adds between 1 and `alignment`.
  - How each helper treats `int`, `bytes`, `bytearray` and streams.
- **Codecs** (`Lzs`, `Huffman`, `Deflate`). These are the three ClapHanz
  codecs of `compress.py`.
  - The LZS decoder handles literals and short and long back-references.
  - The LZS encoder emits literal chunks only.
  - The Huffman decoder first rebuilds its 1024-slot table.
  - Deflate is Huffman, then LZS.
  - Both Huffman and Deflate compression are stubs that raise.
- **Archive format** (`XbFormat`, `XbRead`, `XbWrite`, `XbRoundTrip`). This
  is the XB archive of `archive.py`.
  - The compression kinds, the FST (file-system table) entry with its
    packed offset word, and the string-table hash.
  - The `XBFile` record and the path and default logic of `add`.
  - The reader `__read` and the writer `__write`.
  - A proof that reading back what the (corrected) writer produces gives
    the files again.
- **Packaged archive** (`LibxbArchive`). This is `XBArchive` of
  `src/libxb/archive.py`.
  - Its compression numbering and the `XBFile` and `FileSystemEntry`
    checks.
  - The mode handling of `open` and `close`.
  - The validation in `add` and the `_on_add` hook.
- **Adapters** (`Adapter`). These are the per-game adapters of
  `src/libxb/adapter.py`.
  - MNGP and MNG5 add an endianness token to the open mode.
  - Their path transforms rewrite a file object in place.
  - The MNG3, MNG4 and MNG6 constructors always raise.
- **Helpers** (`Common`, `Bits`, `Paths`).
  - `Common` holds the Python exceptions as values.
  - `Bits` holds Python's `&`, `|`, `^` and shifts on non-negative
    integers.
  - `Paths` holds `str.split`/`str.join`/`str.replace` on strings.

Some code works by changing state in place:

- the stream and its cursor;
- the output array of a decoder;
- the Huffman table;
- the archive object and its file list;
- the file objects the adapters rewrite.

That code is written as classes, arrays and methods with loops. Each such
method is proved equal to a function on values, and the properties are
proved about those functions. Exceptions are `Err` values of `Result` and
`Fail` values of `Outcome`, one constructor per exception class.

## Model

Members without a row are helpers. `Bits.And`, `Bits.Or`, `Bits.Xor`, `Bits.Shl` and `Bits.Shr` stand for Python's `&`, `|`, `^`, `<<` and `>>` on non-negative integers, and `XbFormat.HashStep`, `XbFormat.HashFrom`, `XbFormat.RotXor` and `Huffman.Rev` are reference definitions; none of them is a function of the source, and the rows below relate the source's operations to them.

| member | source | states |
|---|---|---|
| Streams.ParseEndian | src/libxb/streams.py:26-38 | Exactly `"<"` (little-endian) and `">"` (big-endian) are accepted; any other endianness string is `ArgumentError`. |
| Streams.LeBytes | src/libxb/streams.py:365-381 | Little-endian encoding gives exactly `size` bytes; `LeValue` reads them back by `Streams.LeRoundTrip`. |
| Streams.BeBytes | src/libxb/streams.py:365-381 | Big-endian encoding gives exactly `size` bytes; `BeValue` reads them back by `Streams.BeRoundTrip`. |
| Streams.BytesToInt | src/libxb/streams.py:383-398 | The decoded value always fits the width of the bytes read, unsigned or as two's complement. |
| Streams.IntToBytes | src/libxb/streams.py:365-381 | Encoding succeeds exactly when the value fits the width (unsigned, or two's complement when signed); otherwise `OverflowError`. The result has exactly `size` bytes. |
| Streams.LeRoundTrip | src/libxb/streams.py:365-398 | Little-endian bytes of a value below 256^size read back as that value. |
| Streams.BeRoundTrip | src/libxb/streams.py:365-398 | Big-endian bytes of a value below 256^size read back as that value. |
| Streams.IntRoundTrip | src/libxb/streams.py:365-398 | `__bytes2int` inverts `__int2bytes` for every value that fits, in either byte order, signed or unsigned. |
| Streams.BeIsReversedLe | src/libxb/streams.py:365-381 | The big-endian encoding is the little-endian encoding reversed. |
| Streams.ReadSpec | src/libxb/streams.py:664-695 | A read fails with `EndOfFile` exactly when the cursor is at or past the end. Otherwise, for a size of -1 or more, it returns the bytes from the cursor up to `size` bytes or the end (all of them for -1) and moves the cursor past them. A size below -1 returns nothing and moves the cursor back by that many bytes, unless the end comes first. |
| Streams.ReadBackwards | src/libxb/streams.py:683-693 | A size below -1 that stays inside the buffer reads no bytes and leaves the cursor strictly before where it was. |
| Streams.ReadIntSpec | src/libxb/streams.py:129-223 | The integer readers fail exactly at end of buffer; an unsigned result lies below 256^size. |
| Streams.ReadU8 | src/libxb/streams.py:145-151 | `EndOfFile` exactly at the end; otherwise the byte under the cursor, and the cursor moves by one. |
| Streams.ReadU16 | src/libxb/streams.py:177-183 | `EndOfFile` exactly at the end; otherwise a value below 2^16, consuming one or two bytes (a short read at the end still decodes). |
| Streams.ReadU32 | src/libxb/streams.py:209-215 | `EndOfFile` exactly at the end; otherwise a value below 2^32, consuming one to four bytes. |
| Streams.OneByte | src/libxb/streams.py:153-159 | `write_u8` of a byte value emits that single byte, in either byte order. |
| Streams.U32Fits | src/libxb/streams.py:217-223 | `write_u32` accepts exactly the values 0 ≤ v < 2^32. |
| Streams.ReadU32OfWritten | src/libxb/streams.py:209-223 | A word written with `write_u32` reads back with `read_u32` at the same place, whatever precedes and follows it, and the cursor ends four bytes later. |
| Streams.WriteSpec | src/libxb/streams.py:698-712 | The cursor moves by the size. With the cursor inside the buffer (or at its end), the write overwrites from the cursor: bytes before the cursor and beyond the written range are kept, and the length becomes max(old length, cursor + size). With the cursor past the end, the slice assignment appends: the new buffer is the old one followed by the data, so the length is old length + size. |
| Streams.WriteSpecConcat | src/libxb/streams.py:698-712 | Two consecutive writes equal one write of the concatenated data. |
| Streams.Utf8 | src/libxb/streams.py:299-302 | A character encodes to 1 to 4 UTF-8 bytes. Exactly the ASCII characters take one byte, equal to their code, and only NUL encodes to a zero byte. |
| Streams.Utf8Encode | src/libxb/streams.py:299-302 | A string encodes to at least one byte per character. |
| Streams.Utf8EncodeAscii | src/libxb/streams.py:299-302 | An ASCII string encodes to its character codes, byte for byte. |
| Streams.Utf8EncodeNoNul | src/libxb/streams.py:299-302 | A string without NUL encodes to bytes without a zero. |
| Streams.PySliceTo | src/libxb/streams.py:294-297 | Python's `s[:e]`: a prefix whose length is `e` capped at `len(s)` for `e ≥ 0`, and `len(s) + e` floored at 0 for a negative `e`. |
| Streams.TruncateForWrite | src/libxb/streams.py:294-297 | The characters `write_string` keeps, as written: always a prefix of the string. A negative `maxlen` keeps all. A `maxlen` ≥ 1 with a terminator keeps `maxlen - 1` characters; without a terminator it keeps `maxlen`. |
| Streams.StringBytes | src/libxb/streams.py:299-302 | With a terminator the emitted bytes end in 0. For an ASCII string the output has one byte per kept character, plus one for the terminator. |
| Streams.StringBytesSingleNul | src/libxb/streams.py:283-302 | For a string without NUL and any `maxlen`, the terminated output is the encoding of the kept characters plus one 0, and that 0 is the only zero byte. |
| Streams.TruncateZeroMaxlenKeepsAllButLast | src/libxb/streams.py:294-297 | As written, `maxlen = 0` with a terminator keeps all but the last character ("abc" keeps "ab") instead of none. |
| Streams.TruncateCapped | src/libxb/streams.py:294-297 | The intended truncation: a prefix of `max(maxlen - terminator, 0)` characters when `maxlen ≥ 0`, and everything otherwise. |
| Streams.TruncateCappedRespectsMaxlen | src/libxb/streams.py:294-297 | When `maxlen` can hold the terminator, the corrected truncation plus its terminator fits in `maxlen` and agrees with the code as written. |
| Streams.DecodeByte | src/libxb/streams.py:267-281 | A byte decodes to the character of that code exactly when it is ASCII; otherwise `UnicodeDecodeError`. |
| Streams.ReadStringSpec | src/libxb/streams.py:257-281 | `read_string` ends at or after its start and within the buffer; its only failure is `UnicodeDecodeError`. |
| Streams.AsciiString | src/libxb/streams.py:267-281 | The string read from printable bytes has one character per byte, with that byte's code. |
| Streams.ReadStringPrefix | src/libxb/streams.py:267-281 | Reading continues through any run of printable bytes that `maxlen` allows: the result is that run followed by what is read after it. |
| Streams.ReadStringUntilNul | src/libxb/streams.py:257-281 | Without `maxlen`, the result is the printable bytes up to the first 0, and the cursor ends just past the 0. |
| Streams.ReadStringStopsAtMaxlen | src/libxb/streams.py:257-281 | With `maxlen`, reading stops after `maxlen` printable characters without needing a terminator. |
| Streams.StringRoundTrip | src/libxb/streams.py:257-302 | For an ASCII string and any `maxlen`, `write_string` with a terminator then `read_string` gives back the characters the writer kept, with the cursor just past the terminator, whatever surrounds the bytes. |
| Streams.StringRoundTripUnterminated | src/libxb/streams.py:257-302 | For an ASCII string of at least `maxlen` characters, writing it without a terminator and reading `maxlen` bytes back gives its first `maxlen` characters, with the cursor just past them. |
| Streams.BufferStream.constructor | src/libxb/streams.py:647-662 | A new stream is open, holds the given bytes and has its cursor at 0. |
| Streams.BufferStream.Open | src/libxb/streams.py:802-818 | Reopening replaces the buffer and the endianness and resets the cursor. |
| Streams.BufferStream.Close | src/libxb/streams.py:821-824 | Closing drops the buffer and resets the cursor. |
| Streams.BufferStream.Read | src/libxb/streams.py:664-695 | A closed stream fails with `OperationError`. Otherwise the result and the new cursor are those of `ReadSpec`, for every size including those below -1, and the buffer is unchanged. |
| Streams.BufferStream.Write | src/libxb/streams.py:698-712 | A closed stream fails. Otherwise the buffer and cursor become those of `WriteSpec`. |
| Streams.BufferStream.Eof | src/libxb/streams.py:715-727 | End of file means the cursor is at or past the end; a closed stream fails. |
| Streams.SeekTarget | src/libxb/streams.py:741-745 | The target of `BEGIN` is the offset itself; no origin yields a target below the offset. |
| Streams.BufferStream.Seek | src/libxb/streams.py:730-747 | The cursor moves to the target for `BEGIN`, `CURRENT` or `END`; the buffer is untouched; a closed stream fails. |
| Streams.BufferStream.Tell | src/libxb/streams.py:750-762 | Returns the cursor, or `OperationError` when closed. |
| Streams.BufferStream.Length | src/libxb/streams.py:791-800 | Returns the buffer length, or `OperationError` when closed. |
| Streams.BufferStream.Contents | src/libxb/streams.py:827-839 | `result()` returns the buffer, or `OperationError` when closed. |
| Streams.BufferStream.WritePadding | src/libxb/streams.py:351-363 | A negative size is `ArgumentError` before anything else. Otherwise `size` zero bytes are written at the cursor. |
| Streams.BufferStream.Align | src/libxb/streams.py:765-788 | A negative alignment is `ArgumentError`, a closed stream `OperationError`, and 0 `ZeroDivisionError`; each leaves the stream alone. Otherwise the cursor moves to the least multiple of the alignment at or after it. A cursor inside the buffer leaves the buffer unchanged. A cursor at or past the end appends as many zeros as the cursor moved, so the cursor can stay beyond the new end. |
| Streams.BufferStream.ReadInt | src/libxb/streams.py:129-223 | The `read_s8` … `read_u32` family: the value and cursor of `ReadIntSpec`, with the buffer unchanged. |
| Streams.BufferStream.WriteInt | src/libxb/streams.py:129-223 | The `write_s8` … `write_u32` family. A value that does not fit is `OverflowError` and leaves the stream alone. Otherwise its bytes are written at the cursor. |
| Streams.BufferStream.ReadString | src/libxb/streams.py:257-281 | The string of `ReadStringSpec` from the cursor, with the cursor moved past what was consumed. |
| Streams.BufferStream.WriteString | src/libxb/streams.py:283-302 | The bytes of `StringBytes`, as written, are written at the cursor. |
| Utility.PyMod | utility.py:19-21 | Python's `%`: equal to the mathematical remainder for a positive modulus, and in (m, 0] for a negative one. |
| Utility.Remain | utility.py:19-21 | The padding amount lies in [0, alignment) and reaches a multiple; it is 0 for an aligned value. |
| Utility.AlignInt | utility.py:19-21 | An alignment of 0 is `ZeroDivisionError`. For a positive alignment the result is a multiple in [thing, thing + alignment). |
| Utility.AlignIntIsLeast | utility.py:19-21 | No smaller multiple of the alignment is ≥ the input: the result is the least one. |
| Utility.AlignIntIdempotent | utility.py:19-21 | Aligning an aligned integer changes nothing. |
| Utility.AlignBytes | utility.py:23-26 | The buffer keeps its bytes as a prefix and gains zero bytes. For a positive alignment its length becomes a multiple, having grown by less than the alignment. |
| Utility.AlignBytesIdempotent | utility.py:23-26 | A buffer whose length is already a multiple comes back unchanged. |
| Alignables.UtilityAlign | utility.py:6-32 | Dispatch by type. An `int` or `bytes` gives a new aligned value. A `bytearray` is padded in place and returned. A stream is aligned by its own `align`: a negative alignment is `ArgumentError`, a closed stream `OperationError`, 0 `ZeroDivisionError`, each leaving the stream unchanged. Otherwise the cursor moves to the next multiple of the alignment, less than one alignment ahead. The buffer is unchanged when the cursor was inside it, and grows by zeros up to the new cursor when the cursor was at or past its end. Anything else is `TypeError`. |
| Util.Gap | util.py:20-22 | The amount `util.align` adds lies in (0, alignment] and reaches a multiple: it is never zero. |
| Util.AlignInt | util.py:20-22 | The result is a multiple strictly greater than the input and at most `alignment` above it. |
| Util.AlignBuffer | util.py:16-19 | The buffer keeps its bytes and gains 1 to `alignment` zero bytes, ending at a multiple. |
| Util.AlignIntNotIdempotent | util.py:20-22 | Aligning an integer twice adds a further full alignment. |
| Util.AlignBufferNotIdempotent | util.py:16-19 | Aligning a buffer twice adds a further full alignment of zeros. |
| Util.AlignIntVersusUtility | util.py:20-22 | `util.align` and `utility.align` agree on unaligned integers and differ by exactly one alignment on aligned ones. |
| Alignables.UtilAlign | util.py:4-24 | Buffers are checked for first, then integers. A `bytearray` is padded in place. A stream or any other object is `TypeError`, and the stream is left alone. |
| Lzs.UnitOf | compress.py:116-136 | The two low bits of the control byte pick the unit: `00` is a literal, an odd value a short run, `10` a long run. |
| Lzs.LiteralLength | compress.py:117 | A literal copies `code >> 2` + 1 bytes, between 1 and 64. |
| Lzs.ShortRunFields | compress.py:129-133 | A short run has length 3 to 10 and distance below 4096, read from the control byte and one more byte. |
| Lzs.ShortRunLength | compress.py:130-132 | The source's mask-and-shift gives the length bits `(code >> 1) & 7`. |
| Lzs.ShortRunDistance | compress.py:130-133 | The source's `value >> 4` is `b0 * 16 + code >> 4`. |
| Lzs.LongRunFields | compress.py:136-141 | A long run has length 3 to 1026 and distance below 4096, read from the control byte and two more bytes. |
| Lzs.LongRunLength | compress.py:138-140 | The source's `(value & 0xFFC) >> 2` is the 10 length bits of the low 16 bits. |
| Lzs.LongRunDistance | compress.py:138-141 | The source's `value >> 12` is `b1 * 16 + b0 >> 4`. |
| Lzs.LiteralCopy | compress.py:118-121 | The copy succeeds exactly when both the input and the output have room. Running out of input is `Truncated`; running out of output first is `Malformed` (the `IndexError`). On success exactly the `count` slots from the output index take the next input bytes. |
| Lzs.RunCopy | compress.py:143-148 | The copy succeeds exactly when the written range fits and the source index stays within Python's negative-index range. It fails with `Malformed` otherwise. On success only the written range changes. |
| Lzs.RunHeader | compress.py:128-141 | Reading a run header fails with `Truncated` exactly when its extra bytes are missing. It yields the length and distance bounds above. |
| Lzs.Step | compress.py:110-148 | One unit advances both positions and leaves the output before the index untouched; its errors are `Truncated` and `Malformed` only. |
| Lzs.DecodeFrom | compress.py:112-148 | The decoder loop keeps the output length and the already-written prefix. |
| Lzs.Decoded | compress.py:108-152 | The body decoder produces exactly `decomp_size` bytes or one of the two decompression errors; a size of 0 decodes to nothing. |
| Lzs.Decompressed | compress.py:86-154 | An input with nothing left at `pos` is `EndOfFile`. A success has the length of the header's decompressed size, which is nonzero. |
| Lzs.LiteralUnit | compress.py:116-121 | A literal unit with room copies its bytes verbatim to the output index and leaves the rest of the output alone. |
| Lzs.RunRepeats | compress.py:143-148 | A back-reference copies forward byte by byte, so every written byte equals the byte `distance` places before it, also when the run overlaps itself. |
| Lzs.RunAtDistanceZero | compress.py:143-148 | A run at distance 0 leaves the output unchanged. |
| Lzs.DecodeRepeatsABC | compress.py:108-152 | "ABC" followed by a short run of length 3 at distance 3 decodes to "ABCABC". |
| Lzs.DecodeOverlappingRun | compress.py:108-152 | "A" followed by a run of 3 at distance 1 decodes to "AAAA". |
| Lzs.DecodeErrors | compress.py:149-152 | A literal longer than the output is malformed, and input ending inside a literal or a run header is truncated. |
| Lzs.CopyLiteral | compress.py:118-121 | The in-place literal loop on the output array does what `LiteralCopy` says. |
| Lzs.CopyRun | compress.py:143-148 | The in-place run loop, with Python's reading of a negative index, does what `RunCopy` says. |
| Lzs.DecodeUnit | compress.py:110-148 | One pass of the loop on the output array is `Step`. |
| Lzs.Decode | compress.py:108-152 | The loop over a zero-filled output array yields exactly `Decoded`. |
| Lzs.Decompress | compress.py:86-154 | The header checks (`decomp_size == 0` is `ArgumentError`, `compress_size == 0` is "not compressed"), then the loop: exactly `Decompressed`. |
| Lzs.LiteralCode | compress.py:72 | The control byte of a literal chunk has low bits `LITERAL`. |
| Lzs.LiteralCodeIsShiftOr | compress.py:72 | The arithmetic form is the source's `(n - 1) << 2 \| LITERAL`. |
| Lzs.LiteralCodeDecodes | compress.py:72-117 | The decoder reads the control byte of an n-byte chunk back as a literal of n bytes. |
| Lzs.Chunks | compress.py:70-74 | The chunk stream is empty exactly for empty data and at most twice as long. |
| Lzs.ChunksDecode | compress.py:70-121 | The decoder loop, started on the chunk stream, appends exactly the data. |
| Lzs.ChunksRoundTrip | compress.py:70-152 | The chunks of any data, followed by anything, decode to that data. |
| Lzs.HeaderOverwritten | compress.py:76-79 | As written, the two header words are written at offset 0 over the first 8 bytes of the chunks. They overflow exactly when a size does not fit 32 bits. The remaining chunk bytes follow unchanged. |
| Lzs.WriteChunk | compress.py:72-74 | One pass appends the control byte and the chunk at the end of the output stream. |
| Lzs.ReadChunk | compress.py:71-74 | Reading up to 64 bytes and writing them as a chunk keeps "output so far + chunks of the rest" constant. |
| Lzs.WriteChunks | compress.py:70-74 | The loop leaves the chunks of every unread input byte in the output and the input cursor at the end. |
| Lzs.Compress | compress.py:57-82 | `compress` as written. A closed source stream is `OperationError`, from its `eof()`. Otherwise the source is read to its end and the output stream holds `HeaderOverwritten` of the chunks of the unread bytes, with the cursor at 0; the only other failure is `OverflowError`, for an input whose size does not fit the 32-bit header. |
| Lzs.CompressAsWrittenLosesData | compress.py:76-79 | Compressing "ABC" leaves only the two header words: the chunk stream is gone. |
| Lzs.HeaderOnlyIsTruncated | compress.py:86-152 | That output does not decompress (`Truncated`). |
| Lzs.CompressedWithHeader | compress.py:58-60 | The intended output: the two size words, then the chunks intact. |
| Lzs.CompressedHeader | compress.py:58-101 | The decoder reads the data length and the compressed length back from the intended header. |
| Lzs.CompressRoundTrip | compress.py:57-154 | Decompressing the intended output gives every non-empty input back. Empty input fails with `ArgumentError`, as `decompress` rejects a zero size. |
| Huffman.TableSizeIsPow2 | compress.py:161-162 | The table has 2^10 slots, one per 10-bit code. |
| Huffman.EmptyTable | compress.py:273 | A fresh table has 1024 empty slots. |
| Huffman.IndexLoopIsRev | compress.py:290-294 | The index loop shifts the bits of the code in reversed. |
| Huffman.RevBound | compress.py:290-294 | A reversed k-bit code is below 2^k. |
| Huffman.RevBit | compress.py:290-294 | Bit i of the reversal is bit k-1-i of the code. |
| Huffman.CodeIndex | compress.py:290-294 | The slot index of a code of length L is the code with its L bits reversed, and lies below 2^L. |
| Huffman.CodeIndexReversesCode | compress.py:290-294 | The table index of a code of length L is below 2^L, and its bits are the code's bits in reverse order. |
| Huffman.Fill | compress.py:298-300 | The fill loop keeps the table size. |
| Huffman.FillSlots | compress.py:298-300 | The duplication loop writes the symbol into exactly the slots `index + k * 2^length`, and no other slot changes. |
| Huffman.FillCode | compress.py:290-300 | After filling a code, exactly the slots whose low `length` bits are the reversed code hold the symbol. |
| Huffman.FillKeepsLengths | compress.py:298-300 | Filling with a length in 1..max keeps every code length within 1..max. |
| Huffman.ReadCodeByte | compress.py:288-289 | Reading a symbol byte fails with `Truncated` exactly at end of input. |
| Huffman.BuildCodes | compress.py:287-303 | The codes of one length keep the table size, advance the code counter by `count`, and fail only with `Truncated`. |
| Huffman.BuildCodesReads | compress.py:287-303 | The codes of one length consume exactly `count` bytes and fail with `Truncated` exactly when the input runs out. The code counter advances by `count` when the length is at most 10. |
| Huffman.BuildLengths | compress.py:283-306 | The per-length loop keeps the table size, does not move backwards, fails only with `Truncated`, and fails with it when a length is left to read and the input is exhausted. |
| Huffman.NextLength | compress.py:305-306 | A failure of the codes of one length is passed on; a success keeps the table size and does not move backwards; the length byte read after them can only fail with `Truncated`. |
| Huffman.BuildLengthsShape | compress.py:283-306 | The per-length loop keeps the table size, does not move backwards, and fails only with `Truncated`. |
| Huffman.BuildCodesLengths | compress.py:287-303 | Every filled slot carries a length within the bound. |
| Huffman.BuildLengthsLengths | compress.py:283-306 | The same holds across all lengths. |
| Huffman.RebuiltTable | compress.py:259-317 | A rebuilt table has 1024 slots, and the code stream starts at an even position after the maximum-length byte. |
| Huffman.RebuiltTableShape | compress.py:259-317 | The rebuilt table has 1024 slots, each empty or with a length between 1 and the maximum-length byte. The code stream starts at an even position past that byte. A zero maximum-length byte is exactly the bad-code error; with a nonzero one the only failure is `Truncated`; an input that ends before that byte is the table error. |
| Huffman.Refill | compress.py:223-225 | A refill adds 16 bits and consumes one or two bytes; it fails with `Truncated` exactly at end of input. |
| Huffman.RefillKeepsBits | compress.py:223-225 | The new word goes above the buffered bits: the buffered bits are kept and the total stays below 2^(bits + 16). |
| Huffman.Fetch | compress.py:223-242 | After a fetch at least the needed bits (up to 16) are buffered, and the position does not go back. |
| Huffman.FetchKeepsBits | compress.py:223-242 | The bit buffer stays below 2^(bit count). |
| Huffman.Step | compress.py:221-249 | One trip round the decode loop does not move the input backwards and fails only with `Truncated` or the empty-slot `AttributeError`. What it emits and consumes is stated by `StepConsumes` and `StepDecodesCode`. |
| Huffman.Escape | compress.py:240-249 | The escape path does not move the input backwards and fails only with `Truncated`. The byte it emits and the bits it consumes are stated by `EscapeLiteral`. |
| Huffman.StepKeepsBits | compress.py:221-249 | Decoding one symbol keeps the bit buffer below 2^(bit count). |
| Huffman.EscapeKeepsBits | compress.py:240-249 | The escape path keeps the bit buffer below 2^(bit count). |
| Huffman.StepConsumes | compress.py:221-249 | After the refill, the low 10 bits of the buffer select the slot. An empty slot is `AttributeError`. A symbol of length L ≤ 10 is emitted, L bits are dropped from the buffer and the count, and the input position is that of the refill. A longer entry drops 10 bits and hands over to `Escape`. A failed refill is `Truncated`. |
| Huffman.EscapeLiteral | compress.py:240-249 | After refilling to at least 16 bits, the escape emits the low byte of the buffer (its value mod 256) and consumes exactly 8 bits. A refill that reads a word ORs it in above the bits already held. A failed refill is `Truncated`. |
| Huffman.FillMapsCode | compress.py:296-300 | Filling the table for a code of length L sets every slot whose low L bits are the reversed code to that code's symbol and length. |
| Huffman.StepDecodesCode | compress.py:221-237 | In a table that maps a code, when the low bits of the refilled buffer are that code (reversed), one step emits the code's symbol, drops exactly its length in bits, and leaves the input position where the refill left it. |
| Huffman.DecodeSymbols | compress.py:221-249 | The symbol loop produces exactly `decomp_size` bytes, extending what was decoded so far; its errors are `Truncated` and `AttributeError`. |
| Huffman.Decoded | compress.py:209-256 | The core decoder yields exactly `decomp_size` bytes. Its failures are decompression errors or the empty-slot `AttributeError`, never "malformed". |
| Huffman.Decompressed | compress.py:187-256 | An input with nothing left at `pos` is `EndOfFile`, and a success is never empty. |
| Huffman.DecompressedShape | compress.py:187-256 | An input with nothing left at `pos` is `EndOfFile`. A success has the header's nonzero decompressed size. The `except IndexError` arm is dead, so "malformed" never occurs. |
| Huffman.TwoCodeTable | compress.py:259-317 | Two 1-bit codes for 'A' and 'B' fill the even and the odd slots respectively. |
| Huffman.TwoCodeStream | compress.py:215-249 | With that table, the stream word 0b10 decodes to "AB". |
| Huffman.Compress | compress.py:171-183 | Huffman compression always raises `NotImplementedError`. |
| Huffman.ComputeIndex | compress.py:290-294 | The index loop computes the reversed code. |
| Huffman.FillTable | compress.py:298-300 | The in-place duplication loop on the table array is `Fill`. |
| Huffman.ReadCodes | compress.py:284-303 | The in-place loop over one length's codes is `BuildCodes`. |
| Huffman.RebuildTable | compress.py:259-317 | `_rebuild_huffman_table`, with the caller's `except` around it: a fresh array holding `RebuiltTable`. |
| Huffman.Refresh | compress.py:223-242 | The refill test and read are `Fetch`. |
| Huffman.DecodeOne | compress.py:222-249 | The body of the decode loop is `Step`. |
| Huffman.DecodeStream | compress.py:215-249 | The decode loop is `DecodeSymbols` from an empty bit buffer. |
| Huffman.Decompress | compress.py:187-256 | `decompress` is `Decompressed`. |
| Huffman.Decode | compress.py:209-256 | The decoder behind the header is `Decoded`. |
| Deflate.Decompressed | compress.py:339-351 | A failure of the Huffman stage is the Deflate failure, and a success is never empty. |
| Deflate.DecompressedStages | compress.py:339-351 | A Huffman failure is the Deflate failure. An input with nothing left at `pos` is `EndOfFile`. A success has the size in the LZS header that the Huffman stage produced. |
| Deflate.DecompressedLzsPayload | compress.py:339-351 | When the Huffman stage yields the (intended) LZS encoding of some data, Deflate decompression gives that data. |
| Deflate.Compress | compress.py:322-336 | The LZS stage consumes the input, then the Huffman stage raises: Deflate compression never succeeds (`NotImplementedError`, or `OverflowError` from LZS). |
| XbFormat.Code | archive.py:12-18 | Each compression kind has a number below 4. |
| XbFormat.CompressionOf | archive.py:40-42 | A number names a compression kind exactly when it is 0 to 3; otherwise `ArgumentError`. |
| XbFormat.CompressionRoundTrip | archive.py:12-42 | Every kind is recovered from its number. |
| XbFormat.NewFstEntry | archive.py:28-48 | An FST entry is built exactly when the compression is valid and the offset is 4-byte aligned; otherwise `ArgumentError`. |
| XbFormat.PackWord | archive.py:420 | An offset whose quarter fits 28 bits packs as the compression number in the top 4 bits over the quarter of the offset. |
| XbFormat.UnpackWord | archive.py:246-250 | A word unpacks to its top 4 bits as the compression number and its low 28 bits, times 4, as the offset. |
| XbFormat.UnpackPack | archive.py:246-250 | Packing an aligned offset and a compression number into one word fits 32 bits and unpacks to the same pair. |
| XbFormat.PackUnpack | archive.py:246-250 | Every 32-bit word unpacks to an aligned offset and a 4-bit number that pack back to it. |
| XbFormat.HashStepRotates | archive.py:57-68 | One hash round is an 8-bit rotate left followed by XOR with the character. |
| XbFormat.HashFromBound | archive.py:57-68 | The hash of a string of 8-bit characters stays below 256. |
| XbFormat.Hash | archive.py:57-68 | For a path of byte-sized characters the 8-bit hash is the 8-bit rotate-left-by-one then xor of each character, starting from 0; the result is one byte. |
| XbFormat.HashExamples | archive.py:57-68 | The hash of "" is 0 and of "abc" is 0x22. |
| XbFormat.NewFile | archive.py:452-476 | An `XBFile` needs data (empty data is `ArgumentError`). Its data and compression are kept and every `/` in its path becomes `\`. |
| XbFormat.StripPrefix | archive.py:339 | Cutting a stored path after its last `..\` gives a suffix of it, and a path without `..\` comes back unchanged. |
| XbFormat.StripAddedPrefix | archive.py:339 | For a path without `..\`, cutting removes exactly the `..\` that `add` puts in front. |
| XbFormat.StoredPath | archive.py:186-189 | Without an explicit archive path, the stored path of a path without `..\` cuts back to that path. |
| XbFormat.AddCompression | archive.py:172-177 | An invalid nonzero number is `ArgumentError`. None or 0 (falsy) means LZ. Any other valid number is kept. |
| XbFormat.AddedFile | archive.py:172-190 | `add`, with the file's content as a parameter. An invalid compression is `ArgumentError`; a missing file is `ArchiveError`; an empty file is `EndOfFile`, the `EOFError` of the stream's `read`, which `add` does not catch. Otherwise the file has the data, the chosen compression, and the normalised stored path. |
| XbFormat.AddHuffmanLzGivesLz | archive.py:12-177 | `HUFFMAN_LZ` is number 0, which is falsy, so `add` replaces it with LZ. |
| XbFormat.AddedPathReadBack | archive.py:185-339 | The reader's cut at the last `..\` recovers the local path `add` stored behind its prefix. |
| XbRead.Guarded | archive.py:314-335 | A decompression error becomes `BadArchiveError`; anything else passes through. |
| XbRead.EofIsBad | archive.py:289-290 | `EOFError` becomes `BadArchiveError`; anything else passes through. |
| XbRead.FstRecord | archive.py:242-257 | An FST record reads 8 bytes (fewer at the end). Its length and offset point inside the archive and the offset is aligned. Its errors are end of file, broken table and invalid compression. |
| XbRead.ReadFst | archive.py:240-257 | `count` valid records are read, using at most 8 bytes each. |
| XbRead.ParseNames | archive.py:277-288 | Every name read from the string table is shorter than 256; the failures are a broken table and undecodable bytes. |
| XbRead.Unpacked | archive.py:314-335 | LZ and Huffman payloads decode to exactly the size recorded in front of them. |
| XbRead.Payload | archive.py:300-335 | An uncompressed entry inside the archive yields its bytes, cut at the end of the archive. No decompression error escapes the reader. |
| XbRead.Restored | archive.py:339-341 | A restored path has no `/`. |
| XbRead.ReadFile | archive.py:299-342 | A read file has the restored name and the entry's compression, and its data is the entry's non-empty payload. |
| XbRead.ReadFiles | archive.py:299-342 | One file per FST entry, in order, each as `ReadFile` gives it. |
| XbRead.SignatureChecked | archive.py:221-233 | An empty file is `EndOfFile`; any other file not starting with the signature is `NotAnArchiveError`, before anything else is parsed. |
| XbRead.Archive | archive.py:221-342 | An empty buffer is `EndOfFile`; a successful read is longer than 4 bytes and starts with the signature. |
| XbRead.ArchiveShape | archive.py:221-342 | A successful read starts with the signature and yields as many files as the header announces, each with data and a path without `/`. |
| XbRead.ReadFstEntry | archive.py:242-257 | One record read through a stream is `FstRecord`. |
| XbRead.FstAccIsReadFst | archive.py:240-257 | The accumulating loop equals the recursive definition. |
| XbRead.ReadFstFrom | archive.py:240-257 | The stream loop over the FST is `ReadFst`. |
| XbRead.NamesMismatch | archive.py:283-286 | A length or hash byte that does not match its string is `BadArchiveError`. |
| XbRead.NamesStep | archive.py:277-288 | A record whose length and hash match adds its string and continues after it. |
| XbRead.ParseTable | archive.py:276-292 | The string-table loop is `ParseNames`. |
| XbRead.Unpack | archive.py:314-335 | The codec calls are `Unpacked`. |
| XbRead.ReadPayload | archive.py:300-335 | The seek and the codec calls are `Payload`. |
| XbRead.ReadFilesFrom | archive.py:299-342 | The files loop is `ReadFiles`. |
| XbRead.Read | archive.py:221-342 | `__read` as a whole is `Archive`. |
| XbWrite.NameRecord | archive.py:351-356 | A string-table record is the length byte, the hash and the NUL-terminated string. Only a path of 256 characters or more fails (`OverflowError`). |
| XbWrite.NameTable | archive.py:350-356 | The table is built exactly when every path is shorter than 256. |
| XbWrite.Writable | archive.py:384-400 | A file can be packed exactly when its compression is `NONE` or `LZ`. |
| XbWrite.Packed | archive.py:384-400 | The payload exists exactly for `NONE` and `LZ` (the Huffman kinds are `NotImplementedError`); it is empty exactly when the data is. |
| XbWrite.Aligned | archive.py:403 | A padded payload keeps its bytes, gains zeros and ends at a multiple of 4. An unpadded payload is left as it was. |
| XbWrite.SizeWords | archive.py:405-407 | The two size words are 8 bytes and need both sizes to fit 32 bits. |
| XbWrite.FstRecordBytes | archive.py:412-421 | An FST record is 8 bytes. It fails with `ArchiveError` exactly when the quarter offset does not fit below the 28-bit field after the payload size, otherwise with `OverflowError` exactly when the length needs more than 32 bits, otherwise with the assertion exactly when the offset is unaligned. |
| XbWrite.FileRecord | archive.py:381-428 | One file's pass needs a writable kind and an aligned offset. It emits the size words (compressed kinds only), the payload and one 8-byte FST record, and advances the offset by what it emitted. |
| XbWrite.FileSection | archive.py:378-431 | The file loop emits one 8-byte FST record per file; every file must be writable. |
| XbWrite.HeaderWords | archive.py:436-445 | The header words exist exactly when the count and both table sizes fit 32 bits. |
| XbWrite.TableData | archive.py:358-367 | The stored string table is its chunk stream, padded to a multiple of 4. |
| XbWrite.FirstOffset | archive.py:371-376 | The first file starts after the header, the FST, the table sizes and the table, at an aligned offset. |
| XbWrite.WrittenAs | archive.py:344-449 | `__write` as it stands: the sections in order. Its failures are the kinds listed. |
| XbWrite.Written | archive.py:344-449 | The intended writer, with every payload padded: the same failure kinds. |
| XbWrite.RecordSize | archive.py:405-428 | With padding, each file occupies a positive multiple of 4 bytes. |
| XbWrite.Layout | archive.py:412-428 | The FST entries the intended writer produces carry each file's data length and compression. |
| XbWrite.PaddedStep | archive.py:403-428 | With padding, each pass moves an aligned offset to another aligned offset, by the record size. |
| XbWrite.PaddedSectionNeverAsserts | archive.py:403-419 | With every payload padded, the assertion of line 419 never fires. |
| XbWrite.WrittenNeverAsserts | archive.py:403-419 | The intended writer never fails the assertion. |
| XbWrite.UnalignedOffsetAsserts | archive.py:419 | Any record at an unaligned offset that passes the capacity check fails the assertion. |
| XbWrite.BytesPayloadMisaligns | archive.py:403-419 | As written: an unpadded 1-byte `bytes` payload misaligns the next file's offset, and writing fails the assertion. |
| XbWrite.FirstOffsetOfTwo | archive.py:358-376 | Two one-character paths put the first file at offset 44. |
| XbWrite.AppendBytes | src/libxb/streams.py:698-712 | Writing bytes at the end of a stream appends them and moves the cursor past them. |
| XbWrite.AppendUInt | src/libxb/streams.py:217-223 | Appending a word to a stream at its end adds exactly its bytes, or fails with `OverflowError` and leaves the stream alone. |
| XbWrite.WriteName | archive.py:352-356 | One string-table pass appends `NameRecord`. |
| XbWrite.WriteNames | archive.py:350-356 | The string-table loop yields `NameTable`. |
| XbWrite.PackPayload | archive.py:384-400 | The `match` on the compression yields `Packed`. |
| XbWrite.WriteRecord | archive.py:381-428 | One pass on the two streams appends the two halves of `FileRecord` and returns its next offset. |
| XbWrite.WritePayload | archive.py:405-409 | It appends the size words (compressed kinds only), then the payload. |
| XbWrite.WriteFstRecord | archive.py:412-421 | It appends `FstRecordBytes`, or fails with its error. |
| XbWrite.FileRecordParts | archive.py:381-428 | A successful pass is exactly the size words plus the padded payload on the data side, and the packed record on the FST side. |
| XbWrite.WriteSections | archive.py:378-431 | The loop over the files, on two streams, yields `FileSection`. |
| XbWrite.PackTable | archive.py:358-367 | The string table is chunked and padded; its compressed size is the chunk stream's length. |
| XbWrite.WriteSectionsOut | archive.py:436-449 | The output is the signature, the count, the FST, the two table sizes, the table and the file data, in that order. |
| XbWrite.Write | archive.py:344-449 | `__write` on streams yields `WrittenAs`. |
| XbRoundTrip.Reopened | archive.py:339-341 | What the reader makes of each file: the path cut at the last `..\` with `\` kept, and the same data and compression. |
| XbRoundTrip.ChunksLonger | compress.py:70-74 | A chunk stream is at least as long as its data, and longer for non-empty data. |
| XbRoundTrip.FstRecordReadBack | archive.py:242-257 | An FST record written for an aligned offset reads back as the same entry. |
| XbRoundTrip.FstReadBack | archive.py:240-257 | The FST the intended writer emits reads back as its layout, entry by entry. |
| XbRoundTrip.StringAt | src/libxb/streams.py:257-302 | An ASCII path written with its terminator reads back. |
| XbRoundTrip.NamesReadBack | archive.py:276-292 | The string table written for a list of ASCII paths parses back to those paths, lengths and hashes matching. |
| XbRoundTrip.LzRecordReadBack | archive.py:314-335 | An LZ record reads back as its data. |
| XbRoundTrip.RawRecordReadBack | archive.py:300-305 | An uncompressed record reads back as its data, without its padding. |
| XbRoundTrip.FileReadBack | archive.py:299-342 | Each written file's record reads back as that file, its path restored. |
| XbRoundTrip.FilesReadBack | archive.py:299-342 | The whole file section reads back as every file, in order. |
| XbRoundTrip.HeaderReadBack | archive.py:221-275 | The count, the table sizes and the table read back as written. |
| XbRoundTrip.TableAt | archive.py:264-275 | The padded table decodes to the table. |
| XbRoundTrip.ImageReadBack | archive.py:221-342 | An image laid out by the intended writer reads as the reopened files. |
| XbRoundTrip.ReadWritten | archive.py:221-449 | Reading what the intended writer writes gives every file back: the same data and compression, and the path as `XBFile` restores it. The files need non-empty data and ASCII paths. |
| XbRoundTrip.ReadWrittenExact | archive.py:221-449 | For paths with no `..\` and no `/`, the round trip gives exactly the files written. |
| LibxbArchive.Value | src/libxb/archive.py:18-24 | Each compression kind is numbered 1 to 4. |
| LibxbArchive.Member | src/libxb/archive.py:18-24 | `compression in XBCompression` holds exactly for 1 to 4, and the member has that number. |
| LibxbArchive.MemberOfValue | src/libxb/archive.py:18-24 | Every kind is recovered from its number. |
| LibxbArchive.NumberingAgainstOlder | src/libxb/archive.py:18-24 | The packaged numbering differs from archive.py's: only LZ keeps a number, and the older numbers denote other kinds. |
| LibxbArchive.XbFile.constructor | src/libxb/archive.py:30-48 | A new `XBFile` holds its path, data and compression as given (it needs data). |
| LibxbArchive.NewFile | src/libxb/archive.py:30-48 | Constructing with empty data is `ArgumentError`; otherwise a fresh object with the given fields. |
| LibxbArchive.NewEntry | src/libxb/archive.py:56-79 | A `FileSystemEntry` is built exactly when the compression is a member and the offset is aligned; otherwise `ArgumentError`. |
| LibxbArchive.StringHash | src/libxb/archive.py:92-103 | The loop computes the same hash as archive.py's `StringTableEntry.hash`. |
| LibxbArchive.StreamMode | src/libxb/streams.py:617-640 | The mode string must split at `:` into exactly two tokens, with an access token among r, w, x, rb, wb, xb. A missing access token is `IndexError`; anything else wrong is `ArgumentError` (`open` turns the `ValueError` into it). The OS mode is the binary form. |
| LibxbArchive.FileOpenError | src/libxb/archive.py:170-173 | Reading a missing archive is `ArchiveNotFoundError`, and exclusive creation of an existing one is `ArchiveExistsError`. |
| LibxbArchive.Opened | src/libxb/archive.py:152-176 | Opening fails with the stream's mode error or the file error. Otherwise it keeps the access token as given and the endianness token. |
| LibxbArchive.BinaryTokenSkipsContent | src/libxb/archive.py:176-189 | "r", "w", "x" and "rb", "wb", "xb" open alike. Only the plain letters read on open ("r") or write on close ("w", "x"). |
| LibxbArchive.EndianUnchecked | src/libxb/streams.py:35-36 | "w:?" opens, although no stream accepts the endianness "?". |
| LibxbArchive.Archive.constructor | src/libxb/archive.py:105-125 | A new archive is closed and holds no files. |
| LibxbArchive.ReadsOnOpen | src/libxb/archive.py:179 | The stored files are read on open only for an access token without `b`, and such an access never writes them on close. |
| LibxbArchive.WritesOnClose | src/libxb/archive.py:185 | The files are written on close only for an access token without `b`. |
| LibxbArchive.Archive.Open | src/libxb/archive.py:152-180 | A bad mode or file state fails and changes nothing. Otherwise the archive is open with the access and endianness tokens. In plain "r" mode the stored files (or `_read`'s error) are appended. |
| LibxbArchive.Archive.Close | src/libxb/archive.py:182-189 | In "w" or "x" mode a failing `_write` fails the close and leaves the archive open. Otherwise the archive ends closed, and closing a closed archive is `AttributeError`. |
| LibxbArchive.ArchivePath | src/libxb/archive.py:233 | The archive path is the explicit one or the local path, and is empty exactly when both are. |
| LibxbArchive.AddedFields | src/libxb/archive.py:191-239 | An invalid compression is `ArgumentError`; a missing file is `ArchiveError`; empty data is `ArgumentError`. Otherwise the fields of the new file, its path as given or the local path. |
| LibxbArchive.Archive.Add | src/libxb/archive.py:191-239 | A failing validation leaves the files alone. A file the `_on_add` hook rejects is skipped. An accepted file is appended as a fresh object with the fields of `AddedFields`, and the earlier files are kept. |
| LibxbArchive.AddAgainstOlder | src/libxb/archive.py:191-239 | The packaged `add` stores a local path as given, with no-compression accepted; archive.py's `add` prefixes `..\` and picks LZ. |
| Adapter.BaseOpenMode | src/libxb/adapter.py:11-158 | MNGP appends `:<` and MNG5 appends `:>` to the caller's mode. MNG3, MNG4 and MNG6 raise `NotImplementedError`. |
| Adapter.AdapterEndianness | src/libxb/adapter.py:53-124 | With a plain access letter, MNGP opens little-endian and MNG5 big-endian, failing exactly as the base open would. |
| Adapter.AdapterRejectsEndianInMode | src/libxb/adapter.py:53-124 | A mode that already names an endianness gets a second `:`, and opening fails with `ArgumentError`. |
| Adapter.InPath | src/libxb/adapter.py:72-88 | The incoming path has every `/` replaced by `\`, and with `create_outside` it is put behind `.\`. |
| Adapter.OutPath | src/libxb/adapter.py:91-103 | A path with no `..\` in it is returned as it is. |
| Adapter.OutRemovesParent | src/libxb/adapter.py:91-103 | `_transform_out` removes the `..\` prefix of a local path. |
| Adapter.OutKeepsOutside | src/libxb/adapter.py:72-103 | `_transform_out` does not undo `_transform_in`: the `.\` stays. |
| Adapter.ParentInPath | src/libxb/adapter.py:59 | The intended `_transform_in`: slashes become `\` and, with `create_outside`, the path is put behind `..\`; for a path without `..\`, `OutPath` gives back exactly the normalised path. |
| Adapter.OutIsNotIdempotent | src/libxb/adapter.py:91-103 | The removal is one left-to-right pass: `...\.\` gives `..\`, which a second pass removes. |
| Adapter.MngpArchive.constructor | src/libxb/adapter.py:53-69 | The adapter keeps its `create_outside` flag. |
| Adapter.MngpArchive.TransformIn | src/libxb/adapter.py:72-88 | The file object's path is rewritten in place by `InPath`; data and compression are untouched, and the same object is returned. |
| Adapter.MngpArchive.TransformOut | src/libxb/adapter.py:91-103 | The path is rewritten in place to `OutPath` of the old path: the occurrences of `..\` found by one left-to-right `str.replace` pass are removed (a `..\` that the removal brings together stays, see `Adapter.OutIsNotIdempotent`); nothing else changes. |
| Adapter.Mng5TransformIn | src/libxb/adapter.py:127-139 | MNG5 only normalises the slashes, in place. |
| Paths.Split | src/libxb/archive.py:176 | A split always yields at least one piece. |
| Paths.JoinSplit | src/libxb/adapter.py:102 | `sep.join(s.split(sep))` is `s`. |
| Paths.Replace | src/libxb/adapter.py:82 | Replacing a one-character target by a one-character replacement substitutes it at every position; a string without the target is returned unchanged. |
| Paths.LastPiece | archive.py:339 | The last piece of a split is a suffix of the string, and is the whole string when the separator does not occur. |
| Paths.SplitPair | src/libxb/streams.py:628-633 | A string `a:b` with no other `:` splits into exactly `[a, b]`. |

## Left out

- `FileStream`: only its open-mode check is modelled. Opening, reading and writing OS files are I/O; a file's existence is the `present` parameter and its content the `data` or `stored` parameter.
- Floating point (`read_f32`/`write_f32`/`read_f64`/`write_f64`) and the UTF-16 string functions (`read_wstring`/`write_wstring`) are not used by the archive code and are left out.
- `read_string` decodes byte by byte here: non-ASCII bytes are `UnicodeDecodeError`. Multi-byte UTF-8 sequences in names are not modelled.
- `Streams.BufferStream.Seek`: requires a target ≥ 0. Python's slice semantics for a negative cursor are not modelled.
- `Streams.ReadSpec`: requires that a read with a size below -1 does not take the cursor below 0 (`CursorStays`). Python's slice semantics for a negative cursor are not modelled, as for `Seek`.
- `Streams.BufferStream.constructor`: takes a parsed endianness; the check of the endianness string is `Streams.ParseEndian`.
- `Streams.BufferStream.Open`: takes a parsed endianness. `open()` stores the endianness string without checking it, so a bad string fails only later, with `KeyError`, at the first integer read or write; that deferred `KeyError` is not modelled.
- `XbFormat.AddedFile`: archive.py imports its `FileStream` from a `.stream` module that is not part of this model; the `EOFError` for an empty file is the one the `FileStream.read` of src/libxb/streams.py raises when its one-byte peek finds nothing.
- Directory walking in `add` (`os.walk`, `recursive`), `extract`/`extract_all` and the `_on_extract` hook are filesystem I/O and are left out. `add` is modelled for one file, with its content passed in.
- `_read` and `_write` of the packaged `XBArchive` raise `NotImplementedError` in the base class. `Open` and `Close` take their outcome as a parameter (`stored`, `written`).
- The `_on_add` hook is a parameter of `Add`. The base hook accepts every file, and the adapters' transforms are not called by the base `XBArchive`, so they are modelled as standalone methods.
- The MNG5 transform is a module-level method (`Adapter.Mng5TransformIn`) rather than a class, since MNG5 has no state of its own.
- Context-manager entry and exit, `__iter__`, properties, `presets.py` and `__init__.py` hold no logic beyond the calls modelled.
- `Huffman.Compress` and `Deflate.Compress`: the Huffman encoder does not exist in the source (it raises), so neither compressor can succeed.
- `XbWrite.Packed`: for `LZ` the payload is the literal chunk stream without a header, which is what archive.py's use of `ClapHanzLZ.compress` expects (it writes the two size words itself). The `compress` of compress.py writes its own header over that stream (see Findings). The two files come from different revisions of the codec.
- `XbRead.Payload`: the Huffman and Deflate payload paths use the decoders above. Their round trip is not proved, because there is no encoder to write them.
- `XbRoundTrip.ReadWritten`: requires ASCII paths and non-empty data. The writer accepts other paths, but the reader decodes names byte by byte, and `XBFile` refuses empty data.

## Findings

| source | as written | input that shows it | evidently intended | confidence | as-written member | corrected member |
|---|---|---|---|---|---|---|
| compress.py:76-79 | `compress` seeks to 0 and writes the two header words over the first 8 bytes of the chunk stream | "ABC": the output is the 8 header bytes; the chunk bytes are gone and decompressing fails as truncated | the header is a prefix in front of the chunks (docstring, compress.py:58-59) | high, not executed | Lzs.CompressAsWrittenLosesData | Lzs.CompressRoundTrip |
| archive.py:403 | `align(compress_data, 4)` discards its result, so a `bytes` payload is not padded and the next file's offset is unaligned | two uncompressed files with 1-byte `bytes` data: the second record fails the assertion of archive.py:419 | `compress_data = align(compress_data, 4)`, as archive.py:367 does for the table | high, not executed | XbWrite.BytesPayloadMisaligns | XbRoundTrip.ReadWritten |
| src/libxb/streams.py:294-297 | `string[:maxlen - 1]` with `maxlen = 0` and a terminator slices `[:-1]` | `write_string("abc", 0, True)` keeps "ab" and writes 3 bytes where at most 0 fit | keep no characters when `maxlen` cannot hold the terminator | medium, not executed | Streams.TruncateZeroMaxlenKeepsAllButLast | Streams.TruncateCapped |
| src/libxb/adapter.py:85-86 | `_transform_in` puts `.\` in front of the path with `create_outside`, while `_transform_out` removes `..\` | `a/b` with `create_outside`: added as `.\a\b`, extracted as `.\a\b` instead of `a\b` | the `..\` prefix the `create_outside` docstring names (src/libxb/adapter.py:59, "../" prefix), which `_transform_out` removes | medium, not executed | Adapter.OutKeepsOutside | Adapter.ParentInPath |

In the model, `XbRoundTrip` proves the round trip for the corrected writer
`XbWrite.Written`. `XbWrite.Write` models `__write` as written, with the
padding of each payload as a parameter. `Streams.BufferStream.WriteString`
models `write_string` as written, because no caller in the archive code
passes `maxlen`.

`Adapter.MngpArchive.TransformIn` models `_transform_in` as written, with the
`.\` prefix, because that is what archives built by this code contain;
`Adapter.ParentInPath` is the corrected path, proved to be undone by
`_transform_out`.

=== FILE: adapter.dfy ===
/** The per-game adapters of src/libxb/adapter.py: the open-mode string
    each constructor hands to `XBArchive`, and the path transforms the
    MNGP and MNG5 adapters apply to a file object in place. */
module Adapter {
  import opened Common
  import Paths
  import Streams
  import LibxbArchive

  /** The games with an adapter class. */
  datatype Game = Mng3 | Mng4 | Mngp | Mng5 | Mng6

  /** What each constructor does with the caller's mode: MNGP and MNG5 add
      their endianness token (src/libxb/adapter.py:68, 124); MNG3, MNG4 and
      MNG6 raise before anything is opened (src/libxb/adapter.py:24, 45, 158). */
  function BaseOpenMode(game: Game, openMode: string): (r: Result<string>)
    ensures r.Err? <==> game in {Mng3, Mng4, Mng6}
    ensures r.Err? ==> r.error == NotImplementedError
    ensures r.Ok? ==> |r.value| == |openMode| + 2 && r.value[..|openMode|] == openMode
                      && r.value[|openMode|] == ':'
  {
    match game
    case Mngp => Ok(openMode + ":<")
    case Mng5 => Ok(openMode + ":>")
    case _ => Err(NotImplementedError)
  }

  /** For a plain access letter, MNGP archives open little-endian and MNG5
      archives big-endian, with the caller's letter as the access token. */
  lemma AdapterEndianness(game: Game, access: char, present: bool)
    requires game in {Mngp, Mng5} && access in {'r', 'w', 'x'}
    ensures var r := LibxbArchive.Opened(BaseOpenMode(game, [access]).value, present);
            r.Ok? <==> LibxbArchive.FileOpenError([access, 'b'], present).None?
    ensures var r := LibxbArchive.Opened(BaseOpenMode(game, [access]).value, present);
            r.Ok? ==> r.value.0 == [access]
                      && Streams.ParseEndian(r.value.1) == Ok(if game == Mngp then Streams.Little else Streams.Big)
  {
    var token := if game == Mngp then "<" else ">";
    Paths.SplitPair([access], token, ':');
    assert BaseOpenMode(game, [access]).value == [access] + [':'] + token;
    assert [access] + "b" == [access, 'b'];
  }

  /** A mode that already holds a `:` gets a second one from the adapter,
      and the stream rejects the three tokens. */
  lemma AdapterRejectsEndianInMode(game: Game, access: string, endian: string)
    requires game in {Mngp, Mng5} && Paths.Lacks(access, ':') && Paths.Lacks(endian, ':')
    ensures LibxbArchive.Opened(BaseOpenMode(game, access + ":" + endian).value, true) == Err(ArgumentError)
  {
    var token := if game == Mngp then "<" else ">";
    var mode := access + ":" + endian;
    Paths.SplitPair(endian, token, ':');
    assert mode + [':'] + token == access + [':'] + (endian + [':'] + token);
    SplitThree(access, endian + [':'] + token, ':', "");
    assert BaseOpenMode(game, mode).value == mode + [':'] + token;
  }

  lemma {:induction false} SplitThree(a: string, rest: string, c: char, cur: string)
    requires Paths.Lacks(a, c)
    ensures Paths.Split(a + [c] + rest, [c], cur) == [cur + a] + Paths.Split(rest, [c], "")
    decreases |a|
  {
    var s := a + [c] + rest;
    if a == [] {
      assert s[..1] == [c] && s[1..] == rest;
      assert cur + a == cur;
    } else {
      assert s[..1] == [a[0]] && s[1..] == a[1..] + [c] + rest;
      SplitThree(a[1..], rest, c, cur + [a[0]]);
      assert cur + [a[0]] + a[1..] == cur + a;
    }
  }

  // ---------------------------------------------------------------------
  // Path transforms
  // ---------------------------------------------------------------------

  /** The prefix MNGP's `_transform_in` adds: a single dot and a backslash. */
  const OUTSIDE: string := ".\\"

  /** The prefix MNGP's `_transform_out` removes: two dots and a backslash. */
  const PARENT: string := "..\\"

  /** The path `_transform_in` gives a file: every `/` becomes `\`, and
      with `create_outside` the result is put behind `.\`
      (src/libxb/adapter.py:82-86). */
  function InPath(path: string, createOutside: bool): (r: string)
    ensures Paths.Lacks(r, '/')
    ensures createOutside ==> r == OUTSIDE + Paths.Substitute(path, '/', '\\')
    ensures !createOutside ==> r == Paths.Substitute(path, '/', '\\')
  {
    var normal := Paths.Replace(path, "/", "\\");
    if createOutside then OUTSIDE + normal else normal
  }

  /** The path `_transform_out` gives a file: every `..\` found in one
      left-to-right pass is removed (src/libxb/adapter.py:102). */
  function OutPath(path: string): (r: string)
    ensures Paths.Free(path, PARENT) ==> r == path
  {
    Paths.Replace(path, PARENT, "")
  }

  /** `_transform_out` removes the `..\` prefix archive.py's `add` puts in front of local paths. */
  lemma OutRemovesParent(path: string)
    requires Paths.Free(path, PARENT)
    ensures OutPath(PARENT + path) == path
  {
    var s := PARENT + path;
    assert s[..3] == PARENT && s[3..] == path;
    Paths.SplitFree(path, PARENT, "");
    assert Paths.Split(s, PARENT, "") == [""] + ["" + path];
    Paths.JoinCons("", ["" + path], "");
    assert "" + path == path;
  }

  /** `_transform_out` does not undo `_transform_in`: the `.\` prefix it adds
      is not the `..\` it removes, so it stays. */
  lemma OutKeepsOutside(path: string)
    requires Paths.Free(Paths.Substitute(path, '/', '\\'), PARENT)
    ensures OutPath(InPath(path, true)) == OUTSIDE + Paths.Substitute(path, '/', '\\')
    ensures OutPath(InPath(path, true)) != Paths.Substitute(path, '/', '\\')
  {
    var normal := Paths.Substitute(path, '/', '\\');
    var s := OUTSIDE + normal;
    assert Paths.Free(s, PARENT) by {
      forall i: nat | i < |s| ensures !Paths.StartsAt(s, PARENT, i) {
        if i >= 2 {
          ShiftedStart(OUTSIDE, normal, i - 2);
        } else {
          assert s[1] == '\\';
        }
      }
    }
    assert Paths.Free(s, PARENT);
  }

  /** `_transform_in` as its docstring means it (src/libxb/adapter.py:59):
      with `create_outside` the path is put behind `..\`, the prefix
      `_transform_out` removes, so extracting undoes adding. */
  function ParentInPath(path: string, createOutside: bool): (r: string)
    ensures Paths.Lacks(r, '/')
    ensures createOutside ==> r == PARENT + Paths.Substitute(path, '/', '\\')
    ensures !createOutside ==> r == InPath(path, false)
    ensures Paths.Free(Paths.Substitute(path, '/', '\\'), PARENT) ==>
              OutPath(r) == Paths.Substitute(path, '/', '\\')
  {
    var normal := InPath(path, false);
    OutUndoesParent(normal);
    if createOutside then PARENT + normal else normal
  }

  /** Removing `..\` undoes putting it in front of a slash-free path without one. */
  lemma OutUndoesParent(normal: string)
    requires Paths.Lacks(normal, '/')
    ensures Paths.Lacks(PARENT + normal, '/')
    ensures Paths.Free(normal, PARENT) ==> OutPath(PARENT + normal) == normal && OutPath(normal) == normal
  {
    var s := PARENT + normal;
    forall i | 0 <= i < |s| ensures s[i] != '/' {
      if i >= |PARENT| {
        assert s[i] == normal[i - |PARENT|];
      }
    }
    if Paths.Free(normal, PARENT) {
      OutRemovesParent(normal);
    }
  }

  /** A match at `i` in `b` is a match at `|a| + i` in `a + b`, and back. */
  lemma ShiftedStart(a: string, b: string, i: nat)
    ensures Paths.StartsAt(a + b, PARENT, |a| + i) == Paths.StartsAt(b, PARENT, i)
  {
    if i + |PARENT| <= |b| {
      assert (a + b)[|a| + i..|a| + i + |PARENT|] == b[i..i + |PARENT|];
    }
  }

  /** The removal is a single pass: a `..\` formed by what is left is kept,
      so applying `_transform_out` twice can remove more. */
  lemma OutIsNotIdempotent()
    ensures OutPath("...\\.\\") == PARENT
    ensures OutPath(OutPath("...\\.\\")) == ""
  {
    var s := "...\\.\\";
    var rest := ".\\";
    assert |s| == 6 && |rest| == 2 && |PARENT| == 3;
    assert s[..3] == "..." && s[1..] == PARENT + rest;
    var t := s[1..];
    assert t[..3] == PARENT && t[3..] == rest;
    assert "" + rest == rest && "" + [s[0]] == ".";
    assert s[..3] != PARENT by { assert s[2] != PARENT[2]; }
    assert Paths.Split(rest, PARENT, "") == [rest];
    assert Paths.Split(t, PARENT, ".") == ["."] + [rest];
    assert Paths.Split(s, PARENT, "") == [".", rest];
    assert OutPath(s) == "." + "" + rest;
    assert "." + "" + rest == PARENT;
    OutRemovesParent("");
    assert PARENT + "" == PARENT;
  }

  /** `MNGPArchive` (src/libxb/adapter.py:48-103) with its `create_outside` flag. */
  class MngpArchive {
    const createOutside: bool

    /** `create_outside` defaults to True (src/libxb/adapter.py:53, 69). */
    constructor (createOutside: bool)
      ensures this.createOutside == createOutside
    {
      this.createOutside := createOutside;
    }

    /** `_transform_in` (src/libxb/adapter.py:71-88): rewrites the file's
        path and returns the same file. */
    method TransformIn(file: LibxbArchive.XbFile) returns (r: LibxbArchive.XbFile)
      modifies file
      ensures r == file
      ensures file.path == InPath(old(file.path), createOutside)
      ensures file.data == old(file.data) && file.compression == old(file.compression)
    {
      file.path := InPath(file.path, createOutside);
      return file;
    }

    /** `_transform_out` (src/libxb/adapter.py:90-103). */
    method TransformOut(file: LibxbArchive.XbFile) returns (r: LibxbArchive.XbFile)
      modifies file
      ensures r == file
      ensures file.path == OutPath(old(file.path))
      ensures file.data == old(file.data) && file.compression == old(file.compression)
    {
      file.path := OutPath(file.path);
      return file;
    }
  }

  /** `MNG5Archive._transform_in` (src/libxb/adapter.py:126-139): only the
      slashes are normalised. */
  method Mng5TransformIn(file: LibxbArchive.XbFile) returns (r: LibxbArchive.XbFile)
    modifies file
    ensures r == file
    ensures file.path == InPath(old(file.path), false)
    ensures file.data == old(file.data) && file.compression == old(file.compression)
  {
    file.path := InPath(file.path, false);
    return file;
  }
}

=== FILE: alignables.dfy ===
/** The type dispatch of both `align` helpers. utility.py rounds integers,
    pads `bytes` (a new value) and `bytearray` (extended in place, visible to
    every holder of the object), and hands any other object with an `align`
    method to that method; util.py knows only buffers and integers. */
module Alignables {
  import opened Common
  import Utility
  import Util
  import Streams

  /** A Python `bytearray`: a byte buffer that `+=` extends in place. */
  class ByteArray {
    var data: seq<Byte>

    constructor (init: seq<Byte>)
      ensures data == init
    {
      data := init;
    }
  }

  /** What a caller can pass as `thing`. `Other` is an object without an
      `align` attribute. */
  datatype Thing =
    | Int(n: int)
    | Bytes(bytes: seq<Byte>)
    | Array(arr: ByteArray)
    | Stream(stream: Streams.BufferStream)
    | Other

  function Footprint(thing: Thing): set<object>
  {
    match thing
    case Array(a) => {a}
    case Stream(s) => {s}
    case _ => {}
  }

  /** `Util.align` of utility.py (utility.py:19-32). */
  method UtilityAlign(thing: Thing, alignment: int) returns (r: Result<Thing>)
    modifies Footprint(thing)
    ensures thing.Int? ==>
              r == (if alignment == 0 then Err(ZeroDivisionError)
                    else Ok(Int(Utility.AlignInt(thing.n, alignment).value)))
    ensures thing.Bytes? ==>
              r == (if alignment == 0 then Err(ZeroDivisionError)
                    else Ok(Bytes(Utility.AlignBytes(thing.bytes, alignment).value)))
    ensures thing.Array? && alignment == 0 ==> r == Err(ZeroDivisionError) && thing.arr.data == old(thing.arr.data)
    ensures thing.Array? && alignment != 0 ==>
              r == Ok(thing) && thing.arr.data == Utility.AlignBytes(old(thing.arr.data), alignment).value
    ensures thing.Stream? ==> (r.Ok? ==> r == Ok(thing)) && (r.Err? ==> r.error in {ArgumentError, OperationError, ZeroDivisionError})
    ensures thing.Stream? ==> thing.stream.endian == old(thing.stream.endian)
                              && thing.stream.isOpen == old(thing.stream.isOpen)
    ensures thing.Stream? && alignment < 0 ==>
              r == Err(ArgumentError)
              && thing.stream.buffer == old(thing.stream.buffer) && thing.stream.pos == old(thing.stream.pos)
    ensures thing.Stream? && alignment >= 0 && !old(thing.stream.isOpen) ==>
              r == Err(OperationError)
              && thing.stream.buffer == old(thing.stream.buffer) && thing.stream.pos == old(thing.stream.pos)
    ensures thing.Stream? && alignment == 0 && old(thing.stream.isOpen) ==>
              r == Err(ZeroDivisionError)
              && thing.stream.buffer == old(thing.stream.buffer) && thing.stream.pos == old(thing.stream.pos)
    ensures thing.Stream? && alignment > 0 && old(thing.stream.isOpen) ==>
              r == Ok(thing) && thing.stream.pos % alignment == 0
              && old(thing.stream.pos) <= thing.stream.pos < old(thing.stream.pos) + alignment
              && thing.stream.pos == Utility.AlignInt(old(thing.stream.pos), alignment).value
    ensures thing.Stream? && alignment > 0 && old(thing.stream.isOpen)
            && old(thing.stream.pos) < |old(thing.stream.buffer)| ==>
              thing.stream.buffer == old(thing.stream.buffer)
    ensures thing.Stream? && alignment > 0 && old(thing.stream.isOpen)
            && old(thing.stream.pos) >= |old(thing.stream.buffer)| ==>
              thing.stream.buffer == old(thing.stream.buffer) + Zeros(thing.stream.pos - old(thing.stream.pos))
    ensures thing.Other? ==> r == Err(TypeError)
  {
    match thing
    case Int(n) =>
      var a := Utility.AlignInt(n, alignment);
      if a.Err? { return Err(a.error); }
      r := Ok(Int(a.value));
    case Bytes(b) =>
      var a := Utility.AlignBytes(b, alignment);
      if a.Err? { return Err(a.error); }
      r := Ok(Bytes(a.value));
    case Array(arr) =>
      var a := Utility.AlignBytes(arr.data, alignment);
      if a.Err? { return Err(a.error); }
      arr.data := a.value;
      r := Ok(thing);
    case Stream(s) =>
      var o := s.Align(alignment);
      if o.Fail? { return Err(o.error); }
      r := Ok(thing);
    case Other =>
      r := Err(TypeError);
  }

  /** `align` of util.py (util.py:16-24): buffers first, then integers; a
      stream is not supported there. */
  method UtilAlign(thing: Thing, alignment: int) returns (r: Result<Thing>)
    modifies Footprint(thing)
    ensures thing.Int? ==>
              r == (if alignment == 0 then Err(ZeroDivisionError)
                    else Ok(Int(Util.AlignInt(thing.n, alignment).value)))
    ensures thing.Bytes? ==>
              r == (if alignment == 0 then Err(ZeroDivisionError)
                    else Ok(Bytes(Util.AlignBuffer(thing.bytes, alignment).value)))
    ensures thing.Array? && alignment == 0 ==> r == Err(ZeroDivisionError) && thing.arr.data == old(thing.arr.data)
    ensures thing.Array? && alignment != 0 ==>
              r == Ok(thing) && thing.arr.data == Util.AlignBuffer(old(thing.arr.data), alignment).value
    ensures thing.Stream? || thing.Other? ==> r == Err(TypeError)
    ensures thing.Stream? ==> unchanged(thing.stream)
  {
    match thing
    case Int(n) =>
      var a := Util.AlignInt(n, alignment);
      if a.Err? { return Err(a.error); }
      r := Ok(Int(a.value));
    case Bytes(b) =>
      var a := Util.AlignBuffer(b, alignment);
      if a.Err? { return Err(a.error); }
      r := Ok(Bytes(a.value));
    case Array(arr) =>
      var a := Util.AlignBuffer(arr.data, alignment);
      if a.Err? { return Err(a.error); }
      arr.data := a.value;
      r := Ok(thing);
    case Stream(_) =>
      r := Err(TypeError);
    case Other =>
      r := Err(TypeError);
  }
}

=== FILE: bits.dfy ===
/** Python's bitwise operators on non-negative integers. The codecs, the
    path hash and the FST word packing use `&`, `|`, `^`, `<<` and `>>` on
    unbounded `int`s; these are defined digit by digit in base 2, and the
    lemmas turn masks and disjoint ors into arithmetic. */
module Bits {
  import opened Common
  import Utility

  function And(a: nat, b: nat): (r: nat)
    ensures r <= a && r <= b
  {
    if a == 0 || b == 0 then 0
    else 2 * And(a / 2, b / 2) + (if a % 2 == 1 && b % 2 == 1 then 1 else 0)
  }

  function Or(a: nat, b: nat): (r: nat)
    ensures a <= r && b <= r && r <= a + b
  {
    if a == 0 then b
    else if b == 0 then a
    else 2 * Or(a / 2, b / 2) + (if a % 2 == 1 || b % 2 == 1 then 1 else 0)
  }

  function Xor(a: nat, b: nat): (r: nat)
    ensures r <= a + b
  {
    if a == 0 then b
    else if b == 0 then a
    else 2 * Xor(a / 2, b / 2) + (if a % 2 != b % 2 then 1 else 0)
  }

  /** The powers of two the codecs and the FST word use. */
  lemma Pow2Table()
    ensures Pow2(1) == 2 && Pow2(2) == 4 && Pow2(3) == 8 && Pow2(4) == 16
    ensures Pow2(8) == 256 && Pow2(10) == 1024 && Pow2(12) == 4096
    ensures Pow2(16) == 65536 && Pow2(28) == 0x1000_0000
  {
    assert Pow2(1) == 2;
    assert Pow2(2) == 4;
    assert Pow2(3) == 8;
    assert Pow2(4) == 16;
    assert Pow2(5) == 32;
    assert Pow2(6) == 64;
    assert Pow2(7) == 128;
    assert Pow2(8) == 256;
    assert Pow2(9) == 512;
    assert Pow2(10) == 1024;
    assert Pow2(11) == 2048;
    assert Pow2(12) == 4096;
    assert Pow2(13) == 8192;
    assert Pow2(14) == 16384;
    assert Pow2(15) == 32768;
    assert Pow2(16) == 65536;
    assert Pow2(17) == 131072;
    assert Pow2(18) == 262144;
    assert Pow2(19) == 524288;
    assert Pow2(20) == 1048576;
    assert Pow2(21) == 2097152;
    assert Pow2(22) == 4194304;
    assert Pow2(23) == 8388608;
    assert Pow2(24) == 16777216;
    assert Pow2(25) == 33554432;
    assert Pow2(26) == 67108864;
    assert Pow2(27) == 134217728;
    assert Pow2(28) == 268435456;
  }

  lemma {:induction false} Pow2Add(a: nat, b: nat)
    ensures Pow2(a + b) == Pow2(a) * Pow2(b)
    decreases b
  {
    if b > 0 {
      Pow2Add(a, b - 1);
      Twice(Pow2(a), Pow2(b - 1));
    }
  }

  lemma Twice(x: nat, y: nat)
    ensures 2 * (x * y) == x * (2 * y) == (2 * x) * y
  {
  }

  function Shl(a: nat, k: nat): nat
  {
    a * Pow2(k)
  }

  function Shr(a: nat, k: nat): nat
  {
    if k == 0 then a else Shr(a / 2, k - 1)
  }

  /** `a >> k == a // 2**k`. */
  lemma {:induction false} ShrIsDiv(a: nat, k: nat)
    ensures Shr(a, k) == a / Pow2(k)
    decreases k
  {
    if k > 0 {
      ShrIsDiv(a / 2, k - 1);
      DivModTwice(a, Pow2(k - 1));
    }
  }

  /** Shifting a value of `n` bits right by `k <= n` leaves `n - k` bits. */
  lemma {:induction false} ShrBound(x: nat, n: nat, k: nat)
    requires x < Pow2(n) && k <= n
    ensures Shr(x, k) < Pow2(n - k)
    decreases k
  {
    if k > 0 {
      ShrBound(x / 2, n - 1, k - 1);
    }
  }

  /** Splitting off the lowest binary digit. */
  lemma DivModTwice(x: nat, m: nat)
    requires m > 0
    ensures x % (2 * m) == 2 * ((x / 2) % m) + x % 2
    ensures x / (2 * m) == (x / 2) / m
  {
    var q, r := (x / 2) / m, (x / 2) % m;
    assert x / 2 == m * q + r;
    assert x == (2 * m) * q + (2 * r + x % 2);
    Utility.DivModUnique(x, 2 * m, q, 2 * r + x % 2);
  }

  /** `x & (2**k - 1) == x % 2**k`. */
  lemma {:induction false} AndLow(x: nat, k: nat)
    ensures And(x, Pow2(k) - 1) == x % Pow2(k)
    decreases x
  {
    if x != 0 && k != 0 {
      assert (Pow2(k) - 1) / 2 == Pow2(k - 1) - 1;
      AndLow(x / 2, k - 1);
      DivModTwice(x, Pow2(k - 1));
    }
  }

  /** An even mask keeps bit 0 clear: `x & m == (x >> 1 & m >> 1) << 1`. */
  lemma AndEvenMask(x: nat, m: nat)
    requires m % 2 == 0
    ensures And(x, m) == 2 * And(x / 2, m / 2)
  {
    if x == 0 || m == 0 {
      assert And(x / 2, m / 2) == 0;
    }
  }

  /** Or-ing a value into zero low bits is addition. */
  lemma {:induction false} OrDisjoint(a: nat, b: nat, k: nat)
    requires b < Pow2(k)
    ensures Or(a * Pow2(k), b) == a * Pow2(k) + b
    ensures Or(b, a * Pow2(k)) == a * Pow2(k) + b
    decreases k
  {
    if k > 0 && a != 0 && b != 0 {
      var A := a * Pow2(k);
      assert A == 2 * (a * Pow2(k - 1));
      assert A / 2 == a * Pow2(k - 1) && A % 2 == 0;
      OrDisjoint(a, b / 2, k - 1);
    }
  }

  /** An and, or or xor of two k-bit values is a k-bit value. */
  lemma {:induction false} BitwiseBound(a: nat, b: nat, k: nat)
    requires a < Pow2(k) && b < Pow2(k)
    ensures Xor(a, b) < Pow2(k) && Or(a, b) < Pow2(k) && And(a, b) < Pow2(k)
    decreases k
  {
    if k > 0 && a != 0 && b != 0 {
      BitwiseBound(a / 2, b / 2, k - 1);
    }
  }
}

=== FILE: common.dfy ===
/** Shared vocabulary of the model: bytes, the error outcomes the Python code
    raises, a failure-compatible Result type and powers of two. */
module Common {

  /** One octet, as held in a Python `bytes`/`bytearray`. */
  type Byte = b: int | 0 <= b < 256

  /** Why a codec gave up: the two `except` arms of the decoders (an
      `IndexError` becomes `Malformed`, an `EOFError` becomes `Truncated`)
      and the explicit `raise DecompressionError(...)` sites ("Data is not
      compressed", "Failed to create Huffman table", "Huffman code data is
      malformed"). */
  datatype DecompReason = Malformed | Truncated | NotCompressed | BadHuffmanTable | BadHuffmanCode

  /** Each exception the modelled code can raise, as a distinct outcome. */
  datatype Error =
    | ArgumentError
    | OperationError
    | EndOfFile               // EOFError escaping uncaught
    | OverflowError           // int.to_bytes on a value that does not fit
    | UnicodeDecodeError      // bytes.decode("utf-8") on a lone byte >= 0x80
    | ZeroDivisionError       // `% 0` in an alignment helper
    | TypeError
    | AttributeError          // `None.length` on an unpopulated Huffman slot
    | NotImplementedError
    | AssertionError
    | DecompressionError(reason: DecompReason)
    | NotAnArchiveError
    | BadArchiveError
    | ArchiveError
    | ArchiveNotFoundError
    | ArchiveExistsError
    | IndexError              // `s[-1]` on an empty str

  datatype Result<+T> = Ok(value: T) | Err(error: Error) {
    predicate IsFailure() { Err? }
    function PropagateFailure<U>(): Result<U> requires Err? { Err(error) }
    function Extract(): T requires Ok? { value }
  }

  datatype Option<+T> = None | Some(value: T)

  /** The outcome of an operation that returns nothing (Python `None`) or raises. */
  datatype Outcome = Pass | Fail(error: Error)

  function Pow2(k: nat): (r: nat)
    ensures r >= 1
    ensures k > 0 ==> r % 2 == 0
  {
    if k == 0 then 1 else 2 * Pow2(k - 1)
  }

  function Min(a: int, b: int): int { if a <= b then a else b }

  function Max(a: int, b: int): int { if a >= b then a else b }

  /** `bytes([0x00] * n)`: a negative count gives the empty sequence, as in Python. */
  function Zeros(n: int): (r: seq<Byte>)
    ensures |r| == Max(n, 0)
    ensures forall i :: 0 <= i < |r| ==> r[i] == 0
  {
    if n <= 0 then [] else Zeros(n - 1) + [0]
  }

  /** The list of `r` behind the items `done`, or the failure of `r`. */
  function Cons<T>(done: seq<T>, r: Result<seq<T>>): Result<seq<T>>
  {
    if r.Ok? then Ok(done + r.value) else r
  }

  lemma ConsNil<T>(r: Result<seq<T>>)
    ensures Cons([], r) == r
  {
    if r.Ok? {
      assert [] + r.value == r.value;
    }
  }

  lemma AppendAssoc<T>(a: seq<T>, b: seq<T>, c: seq<T>)
    ensures a + b + c == a + (b + c)
  {
  }
}

=== FILE: deflate.dfy ===
/** `ClapHanzDeflate` (compress.py:320-351): LZS data wrapped in the
    Huffman code. Decompression runs the Huffman decoder and hands its
    output, from the start and in the same byte order, to the LZS decoder;
    compression runs the LZS encoder and then the Huffman encoder, which
    does not exist. */
module Deflate {
  import opened Common
  import Streams
  import Lzs
  import Huffman

  /** `ClapHanzDeflate.decompress` (compress.py:339-351). */
  function Decompressed(input: seq<Byte>, pos: nat, e: Streams.Endian): (r: Result<seq<Byte>>)
    ensures Huffman.Decompressed(input, pos, e).Err? ==> r == Err(Huffman.Decompressed(input, pos, e).error)
    ensures r.Ok? ==> |r.value| > 0
  {
    var lz :- Huffman.Decompressed(input, pos, e);
    Lzs.Decompressed(lz, 0, e)
  }

  /** A failing Huffman stage fails the whole with the same error; an input
      ending at `pos` is a bare end of file; on success the size is the one
      in the LZS header that the Huffman stage produced. */
  lemma DecompressedStages(input: seq<Byte>, pos: nat, e: Streams.Endian)
    ensures Huffman.Decompressed(input, pos, e).Err? ==>
              Decompressed(input, pos, e) == Err(Huffman.Decompressed(input, pos, e).error)
    ensures pos >= |input| ==> Decompressed(input, pos, e) == Err(EndOfFile)
    ensures Decompressed(input, pos, e).Ok? ==>
              |Decompressed(input, pos, e).value|
              == Streams.ReadU32(Huffman.Decompressed(input, pos, e).value, 0, e).value.0 > 0
  {
    Huffman.DecompressedShape(input, pos, e);
  }

  /** Whenever the Huffman stage yields the LZS encoding of `data` with its
      header, the two stages give `data` back. */
  lemma DecompressedLzsPayload(input: seq<Byte>, pos: nat, e: Streams.Endian, data: seq<Byte>)
    requires 0 < |data| < 0x7FFF_FFF0
    requires Huffman.Decompressed(input, pos, e) == Lzs.CompressedWithHeader(data, e)
    ensures Decompressed(input, pos, e) == Ok(data)
  {
    Lzs.CompressRoundTrip(data, e);
  }

  /** `ClapHanzDeflate.compress` (compress.py:322-336): the LZS stage runs
      and consumes the input; the Huffman stage then raises
      `NotImplementedError`, so no call succeeds. */
  method Compress(src: Streams.BufferStream) returns (r: Result<Streams.BufferStream>)
    modifies src
    ensures src.buffer == old(src.buffer)
    ensures !old(src.isOpen) ==> r == Err(OperationError)
    ensures old(src.isOpen) ==>
              src.pos == Max(old(src.pos), |src.buffer|)
              && r == Err(if Lzs.HeaderOverwritten(Lzs.Chunks(Lzs.Unread(src.buffer, old(src.pos))),
                                                  |src.buffer|, src.endian).Ok?
                          then NotImplementedError else OverflowError)
  {
    var lz := Lzs.Compress(src);
    if lz.Err? {
      return Err(lz.error);
    }
    r := Huffman.Compress(lz.value);
  }
}

=== FILE: huffman.dfy ===
/** `ClapHanzHuffman` (compress.py:157-317). The header is two u32 words
    (decompressed size, compressed size); then come the code lengths of a
    canonical Huffman code, from which a flat 1024-slot decode table is
    rebuilt; then the code stream, consumed 16 bits at a time, least
    significant bit first. A slot whose code is longer than 10 bits is an
    escape: the next 8 bits are the byte itself. */
module Huffman {
  import opened Common
  import opened Bits
  import Utility
  import Streams

  const MAX_DEPTH: nat := 10
  const TABLE_SIZE: nat := 1024

  const TRUNCATED: Error := DecompressionError(Truncated)

  /** A decode table slot: `None` until a code fills it, else the
      `Symbol(length, symbol)` dataclass. */
  datatype Slot = Empty | Sym(length: nat, symbol: Byte)

  /** `TABLE_SIZE = pow(2, MAX_DEPTH)`. */
  lemma TableSizeIsPow2()
    ensures TABLE_SIZE == Pow2(MAX_DEPTH)
  {
    Pow2Table();
  }

  function EmptyTable(): (t: seq<Slot>)
    ensures |t| == TABLE_SIZE && forall j :: 0 <= j < TABLE_SIZE ==> t[j] == Empty
  {
    seq(TABLE_SIZE, _ => Empty)
  }

  // ---------------------------------------------------------------------
  // The table index of a code
  // ---------------------------------------------------------------------

  /** The index loop of compress.py:292-294: `length` times,
      `index = index << 1 | (code_bits & 1); code_bits >>= 1`. */
  function IndexLoop(index: nat, codeBits: nat, k: nat): nat
    decreases k
  {
    if k == 0 then index
    else IndexLoop(Or(Shl(index, 1), And(codeBits, 1)), Shr(codeBits, 1), k - 1)
  }

  /** The table index of the `length`-bit code `code`: the code's bits
      reversed. */
  function CodeIndex(code: nat, length: nat): (r: nat)
    ensures r == Rev(code, length) && r < Pow2(length)
  {
    IndexLoopIsRev(0, code, length);
    RevBound(code, length);
    IndexLoop(0, code, length)
  }

  /** Binary digit `i` of `x`. */
  function Bit(x: nat, i: nat): nat
  {
    (x / Pow2(i)) % 2
  }

  /** Reference definition: the low `k` digits of `code` written in reverse,
      digit 0 of `code` becoming digit `k - 1`. */
  function Rev(code: nat, k: nat): nat
    decreases k
  {
    if k == 0 then 0 else (code % 2) * Pow2(k - 1) + Rev(code / 2, k - 1)
  }

  lemma {:induction false} RevBound(code: nat, k: nat)
    ensures Rev(code, k) < Pow2(k)
    decreases k
  {
    if k > 0 {
      RevBound(code / 2, k - 1);
    }
  }

  lemma {:induction false} IndexLoopIsRev(index: nat, codeBits: nat, k: nat)
    ensures IndexLoop(index, codeBits, k) == index * Pow2(k) + Rev(codeBits, k)
    decreases k
  {
    if k > 0 {
      IndexStep(index, codeBits);
      IndexLoopIsRev(2 * index + codeBits % 2, codeBits / 2, k - 1);
      Regroup(index, codeBits % 2, Pow2(k - 1), Rev(codeBits / 2, k - 1));
    }
  }

  /** One trip of the index loop shifts a digit of `codeBits` into `index`. */
  lemma IndexStep(index: nat, codeBits: nat)
    ensures Or(Shl(index, 1), And(codeBits, 1)) == 2 * index + codeBits % 2
    ensures Shr(codeBits, 1) == codeBits / 2
  {
    assert Pow2(1) == 2;
    AndLow(codeBits, 1);
    OrDisjoint(index, codeBits % 2, 1);
  }

  lemma Regroup(i: int, b: int, P: int, R: int)
    ensures (2 * i + b) * P + R == i * (2 * P) + (b * P + R)
  {
    assert (2 * i + b) * P == 2 * i * P + b * P;
  }

  lemma {:induction false} RevBit(code: nat, k: nat, i: nat)
    requires i < k
    ensures Bit(Rev(code, k), i) == Bit(code, k - 1 - i)
    decreases k
  {
    if i == k - 1 {
      var b, R, P := code % 2, Rev(code / 2, k - 1), Pow2(k - 1);
      RevBound(code / 2, k - 1);
      assert Rev(code, k) == b * P + R;
      TopDigit(b, R, P);
    } else {
      RevLowerDigit(code, k, i);
      RevBit(code / 2, k - 1, i);
      HalfDigit(code, k - 2 - i);
    }
  }

  /** Below the top digit, `Rev(code, k)` has the digits of `Rev(code / 2, k - 1)`. */
  lemma RevLowerDigit(code: nat, k: nat, i: nat)
    requires i + 1 < k
    ensures Bit(Rev(code, k), i) == Bit(Rev(code / 2, k - 1), i)
  {
    var b, R := code % 2, Rev(code / 2, k - 1);
    var m := k - 1 - i;
    assert Rev(code, k) == b * Pow2(k - 1) + R;
    Pow2Add(i, m);
    LowerDigit(b, R, Pow2(i), Pow2(m));
  }

  /** Digit `j` of `code / 2` is digit `j + 1` of `code`. */
  lemma HalfDigit(code: nat, j: nat)
    ensures Bit(code / 2, j) == Bit(code, j + 1)
  {
    DivModTwice(code, Pow2(j));
  }

  lemma TopDigit(b: int, R: int, P: int)
    requires 0 <= b < 2 && 0 <= R < P
    ensures ((b * P + R) / P) % 2 == b
  {
    Utility.DivModUnique(b * P + R, P, b, R);
  }

  lemma LowerDigit(b: int, R: int, Q: int, M: int)
    requires Q > 0 && M > 0 && M % 2 == 0 && R >= 0
    ensures ((b * (Q * M) + R) / Q) % 2 == (R / Q) % 2
  {
    assert b * (Q * M) == Q * (b * M);
    Utility.DivModAddMultiple(R, b * M, Q);
    assert b * M == 2 * (b * (M / 2));
    Utility.DivModAddMultiple(R / Q, b * (M / 2), 2);
  }

  /** The index computed for a `length`-bit code is below `2**length`, and
      its binary digit `i` is digit `length - 1 - i` of the code: the
      decoder, which takes stream bits least significant first, meets the
      code's most significant bit first. */
  lemma CodeIndexReversesCode(code: nat, length: nat, i: nat)
    requires i < length
    ensures CodeIndex(code, length) < Pow2(length)
    ensures Bit(CodeIndex(code, length), i) == Bit(code, length - 1 - i)
  {
    assert CodeIndex(code, length) == Rev(code, length) by {
      IndexLoopIsRev(0, code, length);
    }
    RevBound(code, length);
    RevBit(code, length, i);
  }

  // ---------------------------------------------------------------------
  // Filling the table
  // ---------------------------------------------------------------------

  /** compress.py:298-300: `table[index] = Symbol(length, symbol)` for
      `index`, `index + 2**length`, ... while inside the table. */
  function Fill(table: seq<Slot>, index: nat, length: nat, symbol: Byte): (r: seq<Slot>)
    ensures |r| == |table|
    decreases |table| - index
  {
    if index >= |table| then table
    else Fill(table[index := Sym(length, symbol)], index + Shl(1, length), length, symbol)
  }

  /** Slot `j` is reached from `index` in steps of `2**length`. */
  predicate Covers(index: nat, length: nat, j: nat)
  {
    index <= j && (j - index) % Pow2(length) == 0
  }

  /** Fill writes exactly the slots reached from `index` and keeps the rest. */
  lemma {:induction false} FillSlots(table: seq<Slot>, index: nat, length: nat, symbol: Byte, j: nat)
    requires j < |table|
    ensures Fill(table, index, length, symbol)[j]
            == if Covers(index, length, j) then Sym(length, symbol) else table[j]
    decreases |table| - index
  {
    if index < |table| {
      var P := Pow2(length);
      assert Shl(1, length) == P;
      FillSlots(table[index := Sym(length, symbol)], index + P, length, symbol, j);
      CoversStep(index, P, j);
    }
  }

  /** Slot `j` is reached from `index` iff it is `index` or is reached from
      the next slot written. */
  lemma CoversStep(index: int, P: int, j: int)
    requires P > 0
    ensures (index <= j && (j - index) % P == 0)
            <==> (j == index || (index + P <= j && (j - (index + P)) % P == 0))
  {
    if index + P <= j {
      Utility.DivModAddMultiple(j - (index + P), 1, P);
    } else if index < j {
      Utility.DivModUnique(j - index, P, 0, j - index);
    }
  }

  /** Starting below `2**length`, the slots reached are those whose low
      `length` bits equal the start. */
  lemma CoversResidue(index: nat, length: nat, j: nat)
    requires index < Pow2(length)
    ensures Covers(index, length, j) <==> j % Pow2(length) == index
  {
    StepResidue(index, Pow2(length), j);
  }

  lemma StepResidue(index: int, P: int, j: int)
    requires 0 <= index < P && 0 <= j
    ensures (index <= j && (j - index) % P == 0) <==> j % P == index
  {
    if index <= j && (j - index) % P == 0 {
      Utility.DivModUnique(j, P, (j - index) / P, index);
    }
    if j % P == index {
      Utility.DivModUnique(j - index, P, j / P, 0);
    }
  }

  /** Filling a code puts its symbol in every slot whose low `length` bits
      are the code's bits reversed, and nowhere else. */
  lemma FillCode(table: seq<Slot>, code: nat, length: nat, symbol: Byte, j: nat)
    requires j < |table|
    ensures Fill(table, CodeIndex(code, length), length, symbol)[j]
            == if j % Pow2(length) == CodeIndex(code, length) then Sym(length, symbol) else table[j]
  {
    IndexLoopIsRev(0, code, length);
    RevBound(code, length);
    FillSlots(table, CodeIndex(code, length), length, symbol, j);
    CoversResidue(CodeIndex(code, length), length, j);
  }

  // ---------------------------------------------------------------------
  // Rebuilding the table
  // ---------------------------------------------------------------------

  /** A `read_u8` inside the builder's `try`: end of file is `Truncated`. */
  function ReadCodeByte(input: seq<Byte>, p: nat): (r: Result<(Byte, nat)>)
    ensures r.Err? <==> p >= |input|
    ensures r.Err? ==> r.error == TRUNCATED
    ensures r.Ok? ==> r.value == (input[p], p + 1)
  {
    match Streams.ReadU8(input, p)
    case Ok(v) => Ok(v)
    case Err(_) => Err(TRUNCATED)
  }

  /** The `for _ in range(code_num)` loop (compress.py:287-303): each code
      reads its symbol byte, fills the table and, up to `MAX_DEPTH`, takes
      the next code value. Gives the table, the position and the code. */
  function BuildCodes(input: seq<Byte>, p: nat, table: seq<Slot>, code: nat, length: nat, count: nat)
    : (r: Result<(seq<Slot>, nat, nat)>)
    ensures r.Ok? ==> |r.value.0| == |table| && r.value.1 == p + count
    ensures r.Err? ==> r.error == TRUNCATED
    decreases count
  {
    if count == 0 then Ok((table, p, code))
    else
      var (symbol, p1) :- ReadCodeByte(input, p);
      BuildCodes(input, p1, Fill(table, CodeIndex(code, length), length, symbol),
                 if length <= MAX_DEPTH then code + 1 else code, length, count - 1)
  }

  /** Each code consumes one byte: the codes fail exactly when the input
      holds fewer than `count` bytes, and otherwise advance the code value
      by `count` while the length is at most `MAX_DEPTH`. */
  lemma {:induction false} BuildCodesReads(input: seq<Byte>, p: nat, table: seq<Slot>, code: nat, length: nat, count: nat)
    ensures BuildCodes(input, p, table, code, length, count).Err? <==> count > 0 && |input| < p + count
    ensures BuildCodes(input, p, table, code, length, count).Err? ==>
              BuildCodes(input, p, table, code, length, count).error == TRUNCATED
    ensures BuildCodes(input, p, table, code, length, count).Ok? ==>
              var (t, p', code') := BuildCodes(input, p, table, code, length, count).value;
              |t| == |table| && p' == p + count
              && code' == code + (if length <= MAX_DEPTH then count else 0)
    decreases count
  {
    if count > 0 && p < |input| {
      BuildCodesReads(input, p + 1, Fill(table, CodeIndex(code, length), length, input[p]),
                      if length <= MAX_DEPTH then code + 1 else code, length, count - 1);
    }
  }

  /** The `while length <= max_length` loop (compress.py:283-306). */
  function BuildLengths(input: seq<Byte>, p: nat, table: seq<Slot>, code: nat, length: nat, maxLength: nat)
    : (r: Result<(seq<Slot>, nat)>)
    ensures r.Ok? ==> |r.value.0| == |table| && p <= r.value.1
    ensures r.Err? ==> r.error == TRUNCATED
    ensures length <= maxLength && p >= |input| ==> r == Err(TRUNCATED)
    decreases maxLength + 1 - length, 1
  {
    if length > maxLength then Ok((table, p))
    else
      var (count, p1) :- ReadCodeByte(input, p);
      NextLength(input, BuildCodes(input, p1, table, code, length, count), length, maxLength)
  }

  /** After the codes of one length: `length += 1; code <<= 1`. */
  function NextLength(input: seq<Byte>, codes: Result<(seq<Slot>, nat, nat)>, length: nat, maxLength: nat)
    : (r: Result<(seq<Slot>, nat)>)
    requires length <= maxLength
    ensures codes.Err? ==> r == Err(codes.error)
    ensures r.Ok? ==> codes.Ok? && |r.value.0| == |codes.value.0| && codes.value.1 <= r.value.1
    ensures codes.Ok? && r.Err? ==> r.error == TRUNCATED
    decreases maxLength + 1 - length, 0
  {
    var (table, p, code) :- codes;
    BuildLengths(input, p, table, Shl(code, 1), length + 1, maxLength)
  }

  /** The builder never shrinks the table, only moves forward in the input,
      and can only fail with `Truncated`. */
  lemma {:induction false} BuildLengthsShape(input: seq<Byte>, p: nat, table: seq<Slot>, code: nat, length: nat, maxLength: nat)
    ensures BuildLengths(input, p, table, code, length, maxLength).Ok? ==>
              |BuildLengths(input, p, table, code, length, maxLength).value.0| == |table|
              && BuildLengths(input, p, table, code, length, maxLength).value.1 >= p
    ensures BuildLengths(input, p, table, code, length, maxLength).Err? ==>
              BuildLengths(input, p, table, code, length, maxLength).error == TRUNCATED
    decreases maxLength + 1 - length
  {
    if length <= maxLength && p < |input| {
      var count := input[p];
      BuildCodesReads(input, p + 1, table, code, length, count);
      var codes := BuildCodes(input, p + 1, table, code, length, count);
      if codes.Ok? {
        var (t, p2, c) := codes.value;
        BuildLengthsShape(input, p2, t, Shl(c, 1), length + 1, maxLength);
      }
    }
  }

  /** Every slot is empty or holds a code length between 1 and `maxLength`. */
  predicate LengthsWithin(table: seq<Slot>, maxLength: nat)
  {
    forall j :: 0 <= j < |table| ==> table[j].Empty? || 1 <= table[j].length <= maxLength
  }

  lemma FillKeepsLengths(table: seq<Slot>, index: nat, length: nat, symbol: Byte, maxLength: nat)
    requires 1 <= length <= maxLength && LengthsWithin(table, maxLength)
    ensures LengthsWithin(Fill(table, index, length, symbol), maxLength)
  {
    var t := Fill(table, index, length, symbol);
    forall j | 0 <= j < |t|
      ensures t[j].Empty? || 1 <= t[j].length <= maxLength
    {
      FillSlots(table, index, length, symbol, j);
    }
  }

  lemma {:induction false} BuildCodesLengths(input: seq<Byte>, p: nat, table: seq<Slot>, code: nat, length: nat, count: nat, maxLength: nat)
    requires 1 <= length <= maxLength && LengthsWithin(table, maxLength)
    ensures BuildCodes(input, p, table, code, length, count).Ok? ==>
              LengthsWithin(BuildCodes(input, p, table, code, length, count).value.0, maxLength)
    decreases count
  {
    if count > 0 && p < |input| {
      var t := Fill(table, CodeIndex(code, length), length, input[p]);
      FillKeepsLengths(table, CodeIndex(code, length), length, input[p], maxLength);
      BuildCodesLengths(input, p + 1, t, if length <= MAX_DEPTH then code + 1 else code, length, count - 1, maxLength);
    }
  }

  lemma {:induction false} BuildLengthsLengths(input: seq<Byte>, p: nat, table: seq<Slot>, code: nat, length: nat, maxLength: nat)
    requires 1 <= length && LengthsWithin(table, maxLength)
    ensures BuildLengths(input, p, table, code, length, maxLength).Ok? ==>
              LengthsWithin(BuildLengths(input, p, table, code, length, maxLength).value.0, maxLength)
    decreases maxLength + 1 - length
  {
    if length <= maxLength && p < |input| {
      var count := input[p];
      BuildCodesLengths(input, p + 1, table, code, length, count, maxLength);
      var codes := BuildCodes(input, p + 1, table, code, length, count);
      if codes.Ok? {
        var (t, p2, c) := codes.value;
        BuildLengthsLengths(input, p2, t, Shl(c, 1), length + 1, maxLength);
      }
    }
  }

  /** `_rebuild_huffman_table` (compress.py:259-317) as `decompress` sees it
      (compress.py:210-213): the maximum code length is read outside the
      builder's `try`, so running out there is caught by `decompress` and
      becomes "Failed to create Huffman table"; a zero maximum length is
      "Huffman code data is malformed"; running out while reading the
      codes is `Truncated`. Afterwards the position is rounded up to even. */
  function RebuiltTable(input: seq<Byte>, pos: nat): (r: Result<(seq<Slot>, nat)>)
    ensures r.Ok? ==> |r.value.0| == TABLE_SIZE && r.value.1 % 2 == 0 && pos < r.value.1
  {
    match Streams.ReadU8(input, pos)
    case Err(_) => Err(DecompressionError(BadHuffmanTable))
    case Ok((maxLength, p)) =>
      if maxLength == 0 then Err(DecompressionError(BadHuffmanCode))
      else
        var (table, p') :- BuildLengths(input, p, EmptyTable(), 0, 1, maxLength);
        Ok((table, if p' % 2 != 0 then p' + 1 else p'))
  }

  /** The rebuilt table has 1024 slots, each empty or holding a code length
      between 1 and the maximum length byte; the code stream starts at an
      even position after that byte. The failures are exactly the three the
      builder can raise, and an input ending at `pos` is the first. */
  lemma RebuiltTableShape(input: seq<Byte>, pos: nat)
    ensures pos >= |input| ==> RebuiltTable(input, pos) == Err(DecompressionError(BadHuffmanTable))
    ensures pos < |input| && input[pos] == 0 ==>
              RebuiltTable(input, pos) == Err(DecompressionError(BadHuffmanCode))
    ensures pos < |input| && input[pos] != 0 && RebuiltTable(input, pos).Err? ==>
              RebuiltTable(input, pos).error == TRUNCATED
    ensures RebuiltTable(input, pos).Err? ==>
              RebuiltTable(input, pos).error in
                {DecompressionError(BadHuffmanTable), DecompressionError(BadHuffmanCode), TRUNCATED}
    ensures RebuiltTable(input, pos).Ok? ==>
              var (table, p) := RebuiltTable(input, pos).value;
              |table| == TABLE_SIZE && LengthsWithin(table, input[pos])
              && p % 2 == 0 && pos < p
  {
    if pos < |input| && input[pos] != 0 {
      BuildLengthsShape(input, pos + 1, EmptyTable(), 0, 1, input[pos]);
      BuildLengthsLengths(input, pos + 1, EmptyTable(), 0, 1, input[pos]);
    }
  }

  // ---------------------------------------------------------------------
  // Decoding the code stream
  // ---------------------------------------------------------------------

  /** `bit_strm |= strm.read_u16() << bit_num; bit_num += 16`, inside the
      decoder's `try`: end of file is `Truncated`. */
  function Refill(input: seq<Byte>, p: nat, e: Streams.Endian, bitStrm: nat, bitNum: nat)
    : (r: Result<(nat, nat, nat)>)
    ensures r.Err? <==> p >= |input|
    ensures r.Err? ==> r.error == TRUNCATED
    ensures r.Ok? ==> r.value.1 == bitNum + 16 && p < r.value.2 <= p + 2
  {
    match Streams.ReadU16(input, p, e)
    case Err(_) => Err(TRUNCATED)
    case Ok((w, p')) => Ok((Or(bitStrm, Shl(w, bitNum)), bitNum + 16, p'))
  }

  /** When the buffer holds `bitNum` bits, the 16 new bits land above them:
      the buffered bits are kept and the buffer now holds `bitNum + 16`. */
  lemma RefillKeepsBits(input: seq<Byte>, p: nat, e: Streams.Endian, bitStrm: nat, bitNum: nat)
    requires bitStrm < Pow2(bitNum)
    ensures Refill(input, p, e, bitStrm, bitNum).Ok? ==>
              Refill(input, p, e, bitStrm, bitNum).value.0 < Pow2(bitNum + 16)
              && Refill(input, p, e, bitStrm, bitNum).value.0 % Pow2(bitNum) == bitStrm
  {
    if p < |input| {
      RefillIsAdd(input, p, e, bitStrm, bitNum);
      WordAbove(Streams.ReadU16(input, p, e).value.0, bitStrm, bitNum);
    }
  }

  /** A 16-bit word placed above `bitNum` buffered bits. */
  lemma WordAbove(w: nat, bitStrm: nat, bitNum: nat)
    requires w < 65536 && bitStrm < Pow2(bitNum)
    ensures w * Pow2(bitNum) + bitStrm < Pow2(bitNum + 16)
    ensures (w * Pow2(bitNum) + bitStrm) % Pow2(bitNum) == bitStrm
  {
    Pow2Add(bitNum, 16);
    Pow2Table();
    Stack(w, bitStrm, Pow2(bitNum), Pow2(16));
  }

  /** The `|` of a refill is an addition. */
  lemma RefillIsAdd(input: seq<Byte>, p: nat, e: Streams.Endian, bitStrm: nat, bitNum: nat)
    requires bitStrm < Pow2(bitNum) && p < |input|
    ensures Refill(input, p, e, bitStrm, bitNum).value.0
            == Streams.ReadU16(input, p, e).value.0 * Pow2(bitNum) + bitStrm
  {
    OrDisjoint(Streams.ReadU16(input, p, e).value.0, bitStrm, bitNum);
  }

  /** A digit `w < W` placed above `b < P`. */
  lemma Stack(w: int, b: int, P: int, W: int)
    requires 0 <= w < W && 0 <= b < P
    ensures w * P + b < P * W && (w * P + b) % P == b
  {
    assert w * P + b < (w + 1) * P;
    assert (w + 1) * P <= W * P;
    Utility.DivModUnique(w * P + b, P, w, b);
  }

  /** `if bit_num < need:` refill (compress.py:223-225 with `need` = 10,
      compress.py:240-242 with `need` = 16). */
  function Fetch(input: seq<Byte>, p: nat, e: Streams.Endian, bitStrm: nat, bitNum: nat, need: nat)
    : (r: Result<(nat, nat, nat)>)
    ensures r.Ok? && need <= 16 ==> r.value.1 >= need
    ensures r.Ok? ==> p <= r.value.2
    ensures r.Err? ==> r.error == TRUNCATED
  {
    if bitNum < need then Refill(input, p, e, bitStrm, bitNum) else Ok((bitStrm, bitNum, p))
  }

  lemma FetchKeepsBits(input: seq<Byte>, p: nat, e: Streams.Endian, bitStrm: nat, bitNum: nat, need: nat)
    requires bitStrm < Pow2(bitNum)
    ensures Fetch(input, p, e, bitStrm, bitNum, need).Ok? ==>
              Fetch(input, p, e, bitStrm, bitNum, need).value.0
              < Pow2(Fetch(input, p, e, bitStrm, bitNum, need).value.1)
  {
    if bitNum < need {
      RefillKeepsBits(input, p, e, bitStrm, bitNum);
    }
  }

  /** One trip round the decode loop (compress.py:221-249): the byte it
      emits, the new bit buffer and bit count, and the new position. */
  function Step(input: seq<Byte>, p: nat, e: Streams.Endian, table: seq<Slot>, bitStrm: nat, bitNum: nat)
    : (r: Result<(Byte, nat, nat, nat)>)
    requires |table| == TABLE_SIZE
    ensures r.Ok? ==> p <= r.value.3
    ensures r.Err? ==> r.error == TRUNCATED || r.error == AttributeError
  {
    var (bs, bn, p1) :- Fetch(input, p, e, bitStrm, bitNum, MAX_DEPTH);
    var slot := table[And(bs, TABLE_SIZE - 1)];
    if slot.Empty? then Err(AttributeError)
    else if slot.length <= MAX_DEPTH then
      Ok((slot.symbol, Shr(bs, slot.length), bn - slot.length, p1))
    else Escape(input, p1, e, Shr(bs, MAX_DEPTH), bn - MAX_DEPTH)
  }

  /** The escape path once the ten code bits are dropped (compress.py:240-249):
      the buffer is refilled below 16 bits, and the next 8 bits are a raw
      literal. */
  function Escape(input: seq<Byte>, p: nat, e: Streams.Endian, bs: nat, bn: nat)
    : (r: Result<(Byte, nat, nat, nat)>)
    ensures r.Ok? ==> p <= r.value.3
    ensures r.Err? ==> r.error == TRUNCATED
  {
    var (bs2, bn2, p2) :- Fetch(input, p, e, bs, bn, 16);
    Ok((And(bs2, 0xFF), Shr(bs2, 8), bn2 - 8, p2))
  }

  /** What one trip round the loop does (compress.py:223-249): after the
      refill, the low 10 bits of the buffer select the slot; a symbol of
      length `L <= 10` is emitted and exactly `L` bits are consumed; a
      longer entry drops 10 bits and hands over to the escape path. */
  lemma StepConsumes(input: seq<Byte>, p: nat, e: Streams.Endian, table: seq<Slot>, bitStrm: nat, bitNum: nat)
    requires |table| == TABLE_SIZE
    ensures Fetch(input, p, e, bitStrm, bitNum, MAX_DEPTH).Err? ==>
              Step(input, p, e, table, bitStrm, bitNum) == Err(TRUNCATED)
    ensures Fetch(input, p, e, bitStrm, bitNum, MAX_DEPTH).Ok? ==>
              var (bs, bn, p1) := Fetch(input, p, e, bitStrm, bitNum, MAX_DEPTH).value;
              var slot := table[bs % TABLE_SIZE];
              && (slot.Empty? ==> Step(input, p, e, table, bitStrm, bitNum) == Err(AttributeError))
              && (slot.Sym? && slot.length <= MAX_DEPTH ==>
                    bn >= slot.length
                    && Step(input, p, e, table, bitStrm, bitNum)
                       == Ok((slot.symbol, bs / Pow2(slot.length), bn - slot.length, p1)))
              && (slot.Sym? && slot.length > MAX_DEPTH ==>
                    bn >= MAX_DEPTH
                    && Step(input, p, e, table, bitStrm, bitNum)
                       == Escape(input, p1, e, bs / Pow2(MAX_DEPTH), bn - MAX_DEPTH))
  {
    var f := Fetch(input, p, e, bitStrm, bitNum, MAX_DEPTH);
    if f.Ok? {
      var bs := f.value.0;
      TableSizeIsPow2();
      AndLow(bs, MAX_DEPTH);
      var slot := table[bs % TABLE_SIZE];
      if slot.Sym? {
        ShrIsDiv(bs, slot.length);
        ShrIsDiv(bs, MAX_DEPTH);
      }
    }
  }

  /** The escape path (compress.py:240-249): after a refill below 16 bits,
      the low 8 bits of the buffer are the emitted byte and 8 more bits are
      consumed. */
  lemma EscapeLiteral(input: seq<Byte>, p: nat, e: Streams.Endian, bs: nat, bn: nat)
    ensures Fetch(input, p, e, bs, bn, 16).Err? ==> Escape(input, p, e, bs, bn) == Err(TRUNCATED)
    ensures Fetch(input, p, e, bs, bn, 16).Ok? ==>
              var (bs2, bn2, p2) := Fetch(input, p, e, bs, bn, 16).value;
              bn2 >= 16
              && Escape(input, p, e, bs, bn) == Ok((bs2 % 256, bs2 / 256, bn2 - 8, p2))
    ensures bn < 16 && p < |input| ==>
              Fetch(input, p, e, bs, bn, 16).value.0
              == Or(bs, Shl(Streams.ReadU16(input, p, e).value.0, bn))
  {
    var g := Fetch(input, p, e, bs, bn, 16);
    if g.Ok? {
      Pow2Table();
      AndLow(g.value.0, 8);
      ShrIsDiv(g.value.0, 8);
    }
  }

  /** The table holds symbol `symbol` with length `length` in every slot
      whose low `length` bits are the reversed code. */
  predicate MapsCode(table: seq<Slot>, code: nat, length: nat, symbol: Byte)
  {
    forall j :: 0 <= j < |table| && j % Pow2(length) == CodeIndex(code, length) ==>
      table[j] == Sym(length, symbol)
  }

  /** Filling a code makes the table map it. */
  lemma FillMapsCode(table: seq<Slot>, code: nat, length: nat, symbol: Byte)
    ensures MapsCode(Fill(table, CodeIndex(code, length), length, symbol), code, length, symbol)
  {
    var t := Fill(table, CodeIndex(code, length), length, symbol);
    forall j | 0 <= j < |t| && j % Pow2(length) == CodeIndex(code, length)
      ensures t[j] == Sym(length, symbol)
    {
      FillCode(table, code, length, symbol, j);
    }
  }

  /** Decoding meets filling: when the fetched buffer `bs` starts (least
      significant bit first) with the reversed `length`-bit code of a
      symbol the table maps, one step emits that symbol and consumes
      exactly `length` bits. */
  lemma StepDecodesCode(input: seq<Byte>, p: nat, e: Streams.Endian, table: seq<Slot>,
                        code: nat, length: nat, symbol: Byte, bitStrm: nat, bitNum: nat,
                        bs: nat, bn: nat, p1: nat)
    requires |table| == TABLE_SIZE && 1 <= length <= MAX_DEPTH
    requires MapsCode(table, code, length, symbol)
    requires Fetch(input, p, e, bitStrm, bitNum, MAX_DEPTH) == Ok((bs, bn, p1))
    requires bs % Pow2(length) == CodeIndex(code, length)
    ensures bn >= length
    ensures Step(input, p, e, table, bitStrm, bitNum) == Ok((symbol, bs / Pow2(length), bn - length, p1))
  {
    SlotOfCode(table, code, length, symbol, bs);
    StepConsumes(input, p, e, table, bitStrm, bitNum);
  }

  /** The slot a buffer selects is the one its reversed code maps. */
  lemma SlotOfCode(table: seq<Slot>, code: nat, length: nat, symbol: Byte, bs: nat)
    requires |table| == TABLE_SIZE && length <= MAX_DEPTH
    requires MapsCode(table, code, length, symbol)
    requires bs % Pow2(length) == CodeIndex(code, length)
    ensures table[bs % TABLE_SIZE] == Sym(length, symbol)
  {
    SlotBits(bs, length);
  }

  /** The slot index keeps the low `length` bits of the buffer. */
  lemma SlotBits(bs: nat, length: nat)
    requires length <= MAX_DEPTH
    ensures (bs % TABLE_SIZE) % Pow2(length) == bs % Pow2(length)
  {
    TableSizeIsPow2();
    Pow2Add(length, MAX_DEPTH - length);
    ModOfMod(bs, Pow2(length), Pow2(MAX_DEPTH - length), TABLE_SIZE);
  }

  /** The remainder by `P` of the remainder by `N = P * M` is the remainder by `P`. */
  lemma ModOfMod(x: nat, P: nat, M: nat, N: nat)
    requires P > 0 && M > 0 && N == P * M
    ensures (x % N) % P == x % P
  {
    var q, r := x / N, x % N;
    var k := M * q;
    assert x == N * q + r;
    assert P * k == N * q;
    Utility.DivModAddMultiple(r, k, P);
    assert x == P * k + r;
  }

  /** The decoder's bit buffer never holds more than `bit_num` bits: the
      `|=` of a refill never overlaps bits still buffered. */
  lemma StepKeepsBits(input: seq<Byte>, p: nat, e: Streams.Endian, table: seq<Slot>, bitStrm: nat, bitNum: nat)
    requires |table| == TABLE_SIZE && bitStrm < Pow2(bitNum)
    ensures Step(input, p, e, table, bitStrm, bitNum).Ok? ==>
              Step(input, p, e, table, bitStrm, bitNum).value.1
              < Pow2(Step(input, p, e, table, bitStrm, bitNum).value.2)
  {
    var f := Fetch(input, p, e, bitStrm, bitNum, MAX_DEPTH);
    if f.Ok? {
      FetchKeepsBits(input, p, e, bitStrm, bitNum, MAX_DEPTH);
      var bs, bn, p1 := f.value.0, f.value.1, f.value.2;
      var slot := table[And(bs, TABLE_SIZE - 1)];
      if slot.Sym? && slot.length <= MAX_DEPTH {
        assert Step(input, p, e, table, bitStrm, bitNum).value.1 == Shr(bs, slot.length);
        ShrBound(bs, bn, slot.length);
      } else if slot.Sym? {
        ShrBound(bs, bn, MAX_DEPTH);
        EscapeKeepsBits(input, p1, e, Shr(bs, MAX_DEPTH), bn - MAX_DEPTH);
      }
    }
  }

  lemma EscapeKeepsBits(input: seq<Byte>, p: nat, e: Streams.Endian, bs: nat, bn: nat)
    requires bs < Pow2(bn)
    ensures Escape(input, p, e, bs, bn).Ok? ==>
              Escape(input, p, e, bs, bn).value.1 < Pow2(Escape(input, p, e, bs, bn).value.2)
  {
    var g := Fetch(input, p, e, bs, bn, 16);
    FetchKeepsBits(input, p, e, bs, bn, 16);
    if g.Ok? {
      LiteralDropped(g.value.0, g.value.1);
    }
  }

  /** Dropping the 8 bits of a raw literal from a buffer of `n >= 16` bits. */
  lemma LiteralDropped(x: nat, n: nat)
    requires n >= 16 && x < Pow2(n)
    ensures Shr(x, 8) < Pow2(n - 8)
  {
    ShrBound(x, n, 8);
  }

  /** `while output.length() < decomp_size` (compress.py:221-249). */
  function DecodeSymbols(input: seq<Byte>, p: nat, e: Streams.Endian, table: seq<Slot>,
                         bitStrm: nat, bitNum: nat, out: seq<Byte>, decompSize: nat): (r: Result<seq<Byte>>)
    requires |table| == TABLE_SIZE && |out| <= decompSize
    ensures r.Ok? ==> |r.value| == decompSize && r.value[..|out|] == out
    ensures r.Err? ==> r.error == TRUNCATED || r.error == AttributeError
    decreases decompSize - |out|
  {
    if |out| >= decompSize then Ok(out)
    else
      var (symbol, bs, bn, p1) :- Step(input, p, e, table, bitStrm, bitNum);
      var r := DecodeSymbols(input, p1, e, table, bs, bn, out + [symbol], decompSize);
      assert r.Ok? ==> r.value[..|out|] == r.value[..|out| + 1][..|out|];
      r
  }

  /** `ClapHanzHuffman.decompress` (compress.py:187-256). The header words
      are read outside any `try`, so a short header is a bare `EOFError`. */
  function Decompressed(input: seq<Byte>, pos: nat, e: Streams.Endian): (r: Result<seq<Byte>>)
    ensures pos >= |input| ==> r == Err(EndOfFile)
    ensures r.Ok? ==> |r.value| > 0
  {
    var (decompSize, p1) :- Streams.ReadU32(input, pos, e);
    var (compressSize, p2) :- Streams.ReadU32(input, p1, e);
    if decompSize == 0 then Err(ArgumentError)
    else if compressSize == 0 then Err(DecompressionError(NotCompressed))
    else Decoded(input, p2, e, decompSize)
  }

  /** The decoder core behind the header (compress.py:209-256): rebuild the
      table from `pos`, then decode `decompSize` symbols. archive.py calls
      it with a size it has read itself. Every failure is a
      `DecompressionError`, except the `AttributeError` of an empty slot. */
  function Decoded(input: seq<Byte>, pos: nat, e: Streams.Endian, decompSize: nat): (r: Result<seq<Byte>>)
    ensures r.Ok? ==> |r.value| == decompSize
    ensures r.Err? ==> r.error.DecompressionError? || r.error == AttributeError
    ensures r.Err? ==> r.error != DecompressionError(Malformed)
  {
    RebuiltTableShape(input, pos);
    var (table, p3) :- RebuiltTable(input, pos);
    DecodeSymbols(input, p3, e, table, 0, 0, [], decompSize)
  }

  /** The output has exactly the size the header announces, and the
      `except IndexError` arm (compress.py:250-251) is dead: every table
      index is masked below 1024, so no failure is `Malformed`. */
  lemma DecompressedShape(input: seq<Byte>, pos: nat, e: Streams.Endian)
    ensures pos >= |input| ==> Decompressed(input, pos, e) == Err(EndOfFile)
    ensures Decompressed(input, pos, e).Ok? ==>
              |Decompressed(input, pos, e).value| == Streams.ReadU32(input, pos, e).value.0 > 0
    ensures Decompressed(input, pos, e).Err? ==>
              Decompressed(input, pos, e).error != DecompressionError(Malformed)
  {
    var r := Decompressed(input, pos, e);
    if pos < |input| {
      var (decompSize, p1) := Streams.ReadU32(input, pos, e).value;
      if p1 < |input| {
        var p2 := Streams.ReadU32(input, p1, e).value.1;
        RebuiltTableShape(input, p2);
      }
    }
  }

  /** Two one-bit codes: `A` (65) gets code 0 and fills the even slots,
      `B` (66) gets code 1 and fills the odd ones; the table data ends at
      position 4, already even. */
  lemma TwoCodeTable()
    ensures RebuiltTable([1, 2, 65, 66], 0).Ok?
    ensures RebuiltTable([1, 2, 65, 66], 0).value.1 == 4
    ensures forall j :: 0 <= j < TABLE_SIZE ==>
              RebuiltTable([1, 2, 65, 66], 0).value.0[j] == if j % 2 == 0 then Sym(1, 65) else Sym(1, 66)
  {
    var input: seq<Byte> := [1, 2, 65, 66];
    assert Pow2(1) == 2;
    assert CodeIndex(0, 1) == 0 && CodeIndex(1, 1) == 1 by { IndexStep(0, 0); IndexStep(0, 1); }
    var t1 := Fill(EmptyTable(), 0, 1, 65);
    var t2 := Fill(t1, 1, 1, 66);
    assert BuildCodes(input, 2, EmptyTable(), 0, 1, 2) == Ok((t2, 4, 2));
    assert BuildLengths(input, 1, EmptyTable(), 0, 1, 1) == Ok((t2, 4));
    forall j | 0 <= j < TABLE_SIZE
      ensures t2[j] == if j % 2 == 0 then Sym(1, 65) else Sym(1, 66)
    {
      FillSlots(EmptyTable(), 0, 1, 65, j);
      FillSlots(t1, 1, 1, 66, j);
      CoversResidue(0, 1, j);
      CoversResidue(1, 1, j);
    }
  }

  /** With that table, the stream word `0b10` (bytes 2, 0) decodes to "AB":
      bit 0 selects an even slot, the next bit an odd one. */
  lemma TwoCodeStream()
    ensures DecodeSymbols([2, 0], 0, Streams.Little, RebuiltTable([1, 2, 65, 66], 0).value.0, 0, 0, [], 2)
            == Ok([65, 66])
  {
    TwoCodeTable();
    var t := RebuiltTable([1, 2, 65, 66], 0).value.0;
    var input: seq<Byte> := [2, 0];
    assert Pow2(0) == 1 && Pow2(1) == 2;
    assert Streams.ReadU16(input, 0, Streams.Little) == Ok((2, 2));
    assert Fetch(input, 0, Streams.Little, 0, 0, MAX_DEPTH) == Ok((2, 16, 2));
    assert And(2, TABLE_SIZE - 1) == 2;
    assert Step(input, 0, Streams.Little, t, 0, 0) == Ok((65, 1, 15, 2));
    assert And(1, TABLE_SIZE - 1) == 1;
    assert Step(input, 2, Streams.Little, t, 1, 15) == Ok((66, 0, 14, 2));
    assert DecodeSymbols(input, 2, Streams.Little, t, 0, 14, [65, 66], 2) == Ok([65, 66]);
    assert [65] + [66] == [65, 66];
    assert DecodeSymbols(input, 2, Streams.Little, t, 1, 15, [65], 2) == Ok([65, 66]);
    assert [] + [65] == [65];
  }

  /** `ClapHanzHuffman.compress` (compress.py:171-183) is a stub: it raises
      `NotImplementedError` whatever it is given, and reads nothing. */
  method Compress(src: Streams.BufferStream) returns (r: Result<Streams.BufferStream>)
    ensures r == Err(NotImplementedError)
  {
    r := Err(NotImplementedError);
  }

  // ---------------------------------------------------------------------
  // The decoder as the source runs it
  // ---------------------------------------------------------------------

  /** The index loop (compress.py:290-294). */
  method ComputeIndex(code: nat, length: nat) returns (index: nat)
    ensures index == CodeIndex(code, length)
  {
    var codeBits := code;
    index := 0;
    var k := 0;
    while k < length
      invariant k <= length
      invariant IndexLoop(index, codeBits, length - k) == CodeIndex(code, length)
    {
      index := Or(Shl(index, 1), And(codeBits, 1));
      codeBits := Shr(codeBits, 1);
      k := k + 1;
    }
  }

  /** The duplication loop (compress.py:298-300), on the table list. */
  method FillTable(table: array<Slot>, start: nat, length: nat, symbol: Byte)
    modifies table
    ensures table[..] == Fill(old(table[..]), start, length, symbol)
  {
    var index := start;
    while index < table.Length
      invariant Fill(table[..], index, length, symbol) == Fill(old(table[..]), start, length, symbol)
      decreases table.Length - index
    {
      table[index] := Sym(length, symbol);
      index := index + Shl(1, length);
    }
  }

  /** The codes of one length (compress.py:284-303). */
  method ReadCodes(input: seq<Byte>, start: nat, table: array<Slot>, code0: nat, length: nat, count: nat)
    returns (r: Result<(nat, nat)>)
    modifies table
    ensures match BuildCodes(input, start, old(table[..]), code0, length, count)
            case Err(e) => r == Err(e)
            case Ok((t, p, code)) => r == Ok((p, code)) && table[..] == t
  {
    var p: nat, code: nat, k: nat := start, code0, 0;
    while k < count
      invariant k <= count
      invariant BuildCodes(input, p, table[..], code, length, count - k)
                == BuildCodes(input, start, old(table[..]), code0, length, count)
      decreases count - k
    {
      var index := ComputeIndex(code, length);
      var s := ReadCodeByte(input, p);
      if s.Err? {
        return Err(s.error);
      }
      p := s.value.1;
      FillTable(table, index, length, s.value.0);
      if length <= MAX_DEPTH {
        code := code + 1;
      }
      k := k + 1;
    }
    return Ok((p, code));
  }

  /** `_rebuild_huffman_table` (compress.py:259-317) with the `except` of
      `decompress` around it (compress.py:210-213). */
  method RebuildTable(input: seq<Byte>, pos: nat) returns (r: Result<(array<Slot>, nat)>)
    ensures match RebuiltTable(input, pos)
            case Err(e) => r == Err(e)
            case Ok((t, p)) => r.Ok? && fresh(r.value.0) && r.value.0[..] == t && r.value.1 == p
  {
    var m := Streams.ReadU8(input, pos);
    if m.Err? {
      return Err(DecompressionError(BadHuffmanTable));
    }
    var maxLength: nat, p: nat := m.value.0, m.value.1;
    if maxLength == 0 {
      return Err(DecompressionError(BadHuffmanCode));
    }
    var table := new Slot[TABLE_SIZE](_ => Empty);
    assert table[..] == EmptyTable();
    ghost var total := BuildLengths(input, p, EmptyTable(), 0, 1, maxLength);
    var code: nat, length: nat := 0, 1;
    while length <= maxLength
      invariant 1 <= length <= maxLength + 1
      invariant BuildLengths(input, p, table[..], code, length, maxLength) == total
      decreases maxLength + 1 - length
    {
      var c := ReadCodeByte(input, p);
      if c.Err? {
        return Err(c.error);
      }
      var count := c.value.0;
      var codes := ReadCodes(input, c.value.1, table, code, length, count);
      if codes.Err? {
        return Err(codes.error);
      }
      p, code := codes.value.0, codes.value.1;
      length := length + 1;
      code := Shl(code, 1);
    }
    if p % 2 != 0 {
      p := p + 1;
    }
    return Ok((table, p));
  }

  /** A refill when fewer than `need` bits are buffered. */
  method Refresh(input: seq<Byte>, p: nat, e: Streams.Endian, bitStrm: nat, bitNum: nat, need: nat)
    returns (r: Result<(nat, nat, nat)>)
    ensures r == Fetch(input, p, e, bitStrm, bitNum, need)
  {
    if bitNum < need {
      var w := Streams.ReadU16(input, p, e);
      if w.Err? {
        return Err(TRUNCATED);
      }
      return Ok((Or(bitStrm, Shl(w.value.0, bitNum)), bitNum + 16, w.value.1));
    }
    return Ok((bitStrm, bitNum, p));
  }

  /** The body of the decode loop (compress.py:222-249). */
  method DecodeOne(input: seq<Byte>, p0: nat, e: Streams.Endian, table: array<Slot>, bitStrm0: nat, bitNum0: nat)
    returns (r: Result<(Byte, nat, nat, nat)>)
    requires table.Length == TABLE_SIZE
    ensures r == Step(input, p0, e, table[..], bitStrm0, bitNum0)
  {
    var f := Refresh(input, p0, e, bitStrm0, bitNum0, MAX_DEPTH);
    if f.Err? {
      return Err(f.error);
    }
    var bitStrm, bitNum, p := f.value.0, f.value.1, f.value.2;
    var entry := table[And(bitStrm, TABLE_SIZE - 1)];
    if entry.Empty? {
      return Err(AttributeError);
    }
    if entry.length <= MAX_DEPTH {
      return Ok((entry.symbol, Shr(bitStrm, entry.length), bitNum - entry.length, p));
    }
    var g := Refresh(input, p, e, Shr(bitStrm, MAX_DEPTH), bitNum - MAX_DEPTH, 16);
    if g.Err? {
      return Err(g.error);
    }
    bitStrm, bitNum, p := g.value.0, g.value.1, g.value.2;
    return Ok((And(bitStrm, 0xFF), Shr(bitStrm, 8), bitNum - 8, p));
  }

  /** The decode loop (compress.py:215-249). */
  method DecodeStream(input: seq<Byte>, start: nat, e: Streams.Endian, table: array<Slot>, decompSize: nat)
    returns (r: Result<seq<Byte>>)
    requires table.Length == TABLE_SIZE
    ensures r == DecodeSymbols(input, start, e, table[..], 0, 0, [], decompSize)
  {
    var output: seq<Byte> := [];
    var bitNum: nat, bitStrm: nat, p: nat := 0, 0, start;
    while |output| < decompSize
      invariant |output| <= decompSize
      invariant DecodeSymbols(input, p, e, table[..], bitStrm, bitNum, output, decompSize)
                == DecodeSymbols(input, start, e, table[..], 0, 0, [], decompSize)
      decreases decompSize - |output|
    {
      var u := DecodeOne(input, p, e, table, bitStrm, bitNum);
      if u.Err? {
        return Err(u.error);
      }
      var symbol;
      symbol, bitStrm, bitNum, p := u.value.0, u.value.1, u.value.2, u.value.3;
      assert DecodeSymbols(input, p, e, table[..], bitStrm, bitNum, output + [symbol], decompSize)
             == DecodeSymbols(input, start, e, table[..], 0, 0, [], decompSize);
      output := output + [symbol];
    }
    return Ok(output);
  }

  /** `ClapHanzHuffman.decompress` (compress.py:187-256). */
  method Decompress(input: seq<Byte>, pos: nat, e: Streams.Endian) returns (r: Result<seq<Byte>>)
    ensures r == Decompressed(input, pos, e)
  {
    var d := Streams.ReadU32(input, pos, e);
    if d.Err? {
      return Err(d.error);
    }
    var c := Streams.ReadU32(input, d.value.1, e);
    if c.Err? {
      return Err(c.error);
    }
    if d.value.0 == 0 {
      return Err(ArgumentError);
    }
    if c.value.0 == 0 {
      return Err(DecompressionError(NotCompressed));
    }
    r := Decode(input, c.value.1, e, d.value.0);
  }

  /** The table, then the symbols. */
  method Decode(input: seq<Byte>, pos: nat, e: Streams.Endian, decompSize: nat) returns (r: Result<seq<Byte>>)
    ensures r == Decoded(input, pos, e, decompSize)
  {
    var t := RebuildTable(input, pos);
    if t.Err? {
      return Err(t.error);
    }
    RebuiltTableShape(input, pos);
    r := DecodeStream(input, t.value.1, e, t.value.0, decompSize);
  }
}

=== FILE: libxb_archive.dfy ===
/** The generic archive class of the newer package (src/libxb/archive.py):
    the renumbered compression kinds, the entry checks, the path hash, and
    `XBArchive`'s bookkeeping of the access mode and the file list around
    the format-specific `_read`/`_write`, which subclasses supply. */
module LibxbArchive {
  import opened Common
  import Paths
  import Streams
  import Bits
  import XbFormat

  /** `XBCompression` (src/libxb/archive.py:17-24). */
  datatype Compression = NoCompression | Lzs | Huffman | Deflate

  /** `auto()` numbers the members from 1 in declaration order. */
  function Value(c: Compression): (v: int)
    ensures 1 <= v <= 4
  {
    match c
    case NoCompression => 1
    case Lzs => 2
    case Huffman => 3
    case Deflate => 4
  }

  /** `v in XBCompression` for an integer, with the member it names. */
  function Member(v: int): (r: Option<Compression>)
    ensures r.Some? <==> 1 <= v <= 4
    ensures r.Some? ==> Value(r.value) == v
  {
    if v == 1 then Some(NoCompression)
    else if v == 2 then Some(Lzs)
    else if v == 3 then Some(Huffman)
    else if v == 4 then Some(Deflate)
    else None
  }

  /** Each member is found again from its value, so the values are distinct. */
  lemma MemberOfValue(c: Compression)
    ensures Member(Value(c)) == Some(c)
  {
  }

  /** Only LZS keeps its number from the older enumeration of archive.py:
      the value 3 meant no compression there and means Huffman here. */
  lemma NumberingAgainstOlder()
    ensures XbFormat.Code(XbFormat.LzOnly) == Value(Lzs)
    ensures XbFormat.Code(XbFormat.Uncompressed) == Value(Huffman)
    ensures XbFormat.Code(XbFormat.HuffmanOnly) == Value(NoCompression)
  {
  }

  // ---------------------------------------------------------------------
  // Entries
  // ---------------------------------------------------------------------

  /** `XBFile` (src/libxb/archive.py:27-48): a file whose fields the
      adapters' transforms assign. */
  class XbFile {
    var path: string
    var data: seq<Byte>
    var compression: Compression

    constructor (path: string, data: seq<Byte>, compression: Compression)
      requires data != []
      ensures this.path == path && this.data == data && this.compression == compression
    {
      this.path := path;
      this.data := data;
      this.compression := compression;
    }
  }

  /** `XBFile.__init__`: empty data is an `ArgumentError`; the path is kept
      as given. */
  method NewFile(path: string, data: seq<Byte>, compression: Compression) returns (r: Result<XbFile>)
    ensures r.Err? <==> data == []
    ensures r.Err? ==> r.error == ArgumentError
    ensures r.Ok? ==> fresh(r.value) && r.value.path == path && r.value.data == data
                      && r.value.compression == compression
  {
    if data == [] {
      return Err(ArgumentError);
    }
    var file := new XbFile(path, data, compression);
    return Ok(file);
  }

  /** `XBArchive.FileSystemEntry` (src/libxb/archive.py:56-79). */
  datatype FileSystemEntry = FileSystemEntry(length: int, offset: int, compression: Compression)

  /** `FileSystemEntry.__init__`: a value outside the enumeration, then an
      offset that is not a multiple of 4, is an `ArgumentError`. */
  function NewEntry(length: int, offset: int, compression: int): (r: Result<FileSystemEntry>)
    ensures r.Ok? <==> 1 <= compression <= 4 && offset % 4 == 0
    ensures r.Err? ==> r.error == ArgumentError
    ensures r.Ok? ==> r.value.length == length && r.value.offset == offset
                      && Value(r.value.compression) == compression
  {
    var c := Member(compression);
    if c.None? then Err(ArgumentError)
    else if offset % 4 != 0 then Err(ArgumentError)
    else Ok(FileSystemEntry(length, offset, c.value))
  }

  /** `StringTableEntry.hash` (src/libxb/archive.py:92-103), the loop as
      written: the same rotate-left-xor fold as archive.py's hash. */
  method StringHash(value: string) returns (h: Byte)
    ensures h == XbFormat.Hash(value)
  {
    var acc: nat := 0;
    for i := 0 to |value|
      invariant XbFormat.HashFrom(acc, value[i..]) == XbFormat.HashFrom(0, value)
    {
      assert value[i..][1..] == value[i + 1..];
      acc := XbFormat.HashStep(acc, value[i]);
    }
    assert value[|value|..] == [];
    h := Bits.And(acc, 0xFF);
  }

  // ---------------------------------------------------------------------
  // Opening and closing
  // ---------------------------------------------------------------------

  /** `FileStream.__set_open_mode` (src/libxb/streams.py:617-640) as
      `XBArchive.open` sees it (its `ValueError` becomes an `ArgumentError`,
      src/libxb/archive.py:166-169): the mode string must hold exactly one
      `:`, `b` is appended to the access token unless it ends in one, and
      the result must be "rb", "wb" or "xb". An empty access token fails on
      `[-1]` with an `IndexError` that nothing catches. The endianness
      token is kept without any check. */
  function StreamMode(openMode: string): (r: Result<(string, string)>)
    ensures var t := Paths.Split(openMode, ":", "");
            r.Ok? <==> |t| == 2 && t[0] in {"r", "w", "x", "rb", "wb", "xb"}
    ensures var t := Paths.Split(openMode, ":", "");
            r.Err? ==> r.error == (if |t| == 2 && t[0] == "" then IndexError else ArgumentError)
    ensures r.Ok? ==> r.value.0 in {"rb", "wb", "xb"}
    ensures r.Ok? ==> r.value.1 == Paths.Split(openMode, ":", "")[1]
  {
    var tokens := Paths.Split(openMode, ":", "");
    if |tokens| != 2 then Err(ArgumentError)
    else if tokens[0] == "" then Err(IndexError)
    else
      var access := tokens[0];
      var mode := if access[|access| - 1] != 'b' then access + "b" else access;
      assert access[|access| - 1] != 'b' ==> (mode in {"rb", "wb", "xb"} <==> access in {"r", "w", "x"}) by {
        if access[|access| - 1] != 'b' && |access| == 1 {
          assert access == [access[0]] && mode == [access[0], 'b'];
        }
      }
      if mode in {"rb", "wb", "xb"} then Ok((mode, tokens[1])) else Err(ArgumentError)
  }

  /** What opening the OS file adds (src/libxb/archive.py:170-173): reading
      a missing file and creating one that exists fail. */
  function FileOpenError(mode: string, present: bool): (r: Option<Error>)
    ensures r.Some? <==> (mode == "rb" && !present) || (mode == "xb" && present)
    ensures r.Some? ==> r.value == (if present then ArchiveExistsError else ArchiveNotFoundError)
  {
    if mode == "rb" && !present then Some(ArchiveNotFoundError)
    else if mode == "xb" && present then Some(ArchiveExistsError)
    else None
  }

  /** The state `XBArchive.open` reaches before it reads: the access token
      before the `:` (src/libxb/archive.py:176) and the stream's endianness
      token; `present` says whether the file is there. */
  function Opened(openMode: string, present: bool): (r: Result<(string, string)>)
    ensures StreamMode(openMode).Err? ==> r == Err(StreamMode(openMode).error)
    ensures StreamMode(openMode).Ok? ==>
              (r.Err? <==> FileOpenError(StreamMode(openMode).value.0, present).Some?)
    ensures r.Err? && StreamMode(openMode).Ok? ==>
              r.error == FileOpenError(StreamMode(openMode).value.0, present).value
    ensures r.Ok? ==> r.value == (Paths.Split(openMode, ":", "")[0], StreamMode(openMode).value.1)
  {
    var (mode, endian) :- StreamMode(openMode);
    var failure := FileOpenError(mode, present);
    if failure.Some? then Err(failure.value)
    else Ok((Paths.Split(openMode, ":", "")[0], endian))
  }

  /** Open reads the existing content only in plain "r" mode (src/libxb/archive.py:179). */
  predicate ReadsOnOpen(access: Option<string>)
    ensures ReadsOnOpen(access) ==> access.Some? && 'b' !in access.value && !WritesOnClose(access)
  {
    access == Some("r")
  }

  /** Close writes the content only in plain "w" or "x" mode (src/libxb/archive.py:185). */
  predicate WritesOnClose(access: Option<string>)
    ensures WritesOnClose(access) ==> access.Some? && 'b' !in access.value
  {
    access == Some("w") || access == Some("x")
  }

  /** A mode naming the access with and without the `b` the stream forces
      opens the same way, but only the plain letter reaches the content:
      "rb:<" opens an archive without reading it and "wb:<" closes one
      without writing it. */
  lemma BinaryTokenSkipsContent(access: char, endian: string, present: bool)
    requires access in {'r', 'w', 'x'} && Paths.Lacks(endian, ':')
    ensures Opened([access] + ":" + endian, present).Ok?
            <==> Opened([access, 'b'] + ":" + endian, present).Ok?
    ensures Opened([access] + ":" + endian, present).Ok? ==>
              Opened([access] + ":" + endian, present).value == ([access], endian)
              && Opened([access, 'b'] + ":" + endian, present).value == ([access, 'b'], endian)
              && (ReadsOnOpen(Some([access])) <==> access == 'r')
              && (WritesOnClose(Some([access])) <==> access != 'r')
              && !ReadsOnOpen(Some([access, 'b'])) && !WritesOnClose(Some([access, 'b']))
  {
    Paths.SplitPair([access], endian, ':');
    Paths.SplitPair([access, 'b'], endian, ':');
    assert [access] + [':'] + endian == [access] + ":" + endian;
    assert [access, 'b'] + [':'] + endian == [access, 'b'] + ":" + endian;
    assert [access] + "b" == [access, 'b'];
  }

  /** Opening does not check the endianness token, unlike `Stream.__init__`
      (src/libxb/streams.py:35-36): "w:?" opens, though no stream accepts "?". */
  lemma EndianUnchecked(present: bool)
    ensures Opened("w:?", present) == Ok(("w", "?"))
    ensures Streams.ParseEndian("?").Err?
  {
    Paths.SplitPair("w", "?", ':');
    assert "w" + [':'] + "?" == "w:?";
    assert "w" + "b" == "wb";
  }

  /** `XBArchive` (src/libxb/archive.py:51-296): the access token, whether a
      stream is open, the stream's endianness token and the file list. The
      format-specific `_read` and `_write` are abstract there; the methods
      below take what the subclass's `_read` yields and what its `_write`
      raises as parameters. */
  class Archive {
    var access: Option<string>
    var isOpen: bool
    var endian: string
    var files: seq<XbFile>

    /** The fields `__init__` sets before it calls `open`
        (src/libxb/archive.py:119-125). */
    constructor ()
      ensures access == None && !isOpen && endian == "" && files == []
    {
      access := None;
      isOpen := false;
      endian := "";
      files := [];
    }

    /** `XBArchive.open` (src/libxb/archive.py:152-180). A failure to open
        the stream leaves everything as it was; after that the stream and
        the access token are set, and in "r" mode `_read` appends what it
        finds, or raises. The file list is not cleared. */
    method Open(openMode: string, present: bool, stored: Result<seq<XbFile>>) returns (o: Outcome)
      modifies this
      ensures Opened(openMode, present).Err? ==>
                o == Fail(Opened(openMode, present).error) && access == old(access)
                && isOpen == old(isOpen) && endian == old(endian) && files == old(files)
      ensures Opened(openMode, present).Ok? ==>
                isOpen && access == Some(Opened(openMode, present).value.0)
                && endian == Opened(openMode, present).value.1
      ensures Opened(openMode, present).Ok? && !ReadsOnOpen(access) ==> o == Pass && files == old(files)
      ensures Opened(openMode, present).Ok? && ReadsOnOpen(access) ==>
                o == (if stored.Ok? then Pass else Fail(stored.error))
                && files == old(files) + (if stored.Ok? then stored.value else [])
    {
      var result := Opened(openMode, present);
      if result.Err? {
        return Fail(result.error);
      }
      isOpen := true;
      endian := result.value.1;
      access := Some(result.value.0);
      if access == Some("r") {
        if stored.Err? {
          return Fail(stored.error);
        }
        files := files + stored.value;
      }
      return Pass;
    }

    /** `XBArchive.close` (src/libxb/archive.py:182-189): in "w" or "x"
        mode `_write` runs first and its failure leaves the stream open;
        then the stream is closed, which fails on an archive that is not
        open. */
    method Close(written: Outcome) returns (o: Outcome)
      modifies this
      ensures access == old(access) && endian == old(endian) && files == old(files)
      ensures WritesOnClose(access) && written.Fail? ==> o == written && isOpen == old(isOpen)
      ensures !(WritesOnClose(access) && written.Fail?) ==>
                o == (if old(isOpen) then Pass else Fail(AttributeError)) && !isOpen
    {
      if WritesOnClose(access) && written.Fail? {
        return written;
      }
      if !isOpen {
        return Fail(AttributeError);
      }
      isOpen := false;
      return Pass;
    }

    /** `XBArchive.add` for a single file (src/libxb/archive.py:191-239):
        `data` is the file's content, `None` when it does not exist, and
        `onAdd` is the `_on_add` hook's verdict on the new file. */
    method Add(path: string, xbPath: Option<string>, compression: int, data: Option<seq<Byte>>,
               onAdd: (string, seq<Byte>, Compression) -> bool) returns (o: Outcome)
      modifies this
      ensures access == old(access) && isOpen == old(isOpen) && endian == old(endian)
      ensures AddedFields(path, xbPath, compression, data).Err? ==>
                o == Fail(AddedFields(path, xbPath, compression, data).error) && files == old(files)
      ensures AddedFields(path, xbPath, compression, data).Ok? ==> o == Pass
      ensures var r := AddedFields(path, xbPath, compression, data);
              r.Ok? && !onAdd(r.value.0, r.value.1, r.value.2) ==> files == old(files)
      ensures var r := AddedFields(path, xbPath, compression, data);
              r.Ok? && onAdd(r.value.0, r.value.1, r.value.2) ==>
                |files| == |old(files)| + 1 && files[..|old(files)|] == old(files)
                && fresh(files[|old(files)|])
                && files[|old(files)|].path == r.value.0
                && files[|old(files)|].data == r.value.1
                && files[|old(files)|].compression == r.value.2
    {
      var fields := AddedFields(path, xbPath, compression, data);
      if fields.Err? {
        return Fail(fields.error);
      }
      var (name, content, kind) := fields.value;
      var file := new XbFile(name, content, kind);
      if onAdd(name, content, kind) {
        files := files + [file];
      }
      return Pass;
    }
  }

  /** `xb_path or path`: an absent or empty archive path falls back to the
      local one, stored as given (src/libxb/archive.py:233). */
  function ArchivePath(path: string, xbPath: Option<string>): (r: string)
    ensures r == path || xbPath == Some(r)
    ensures r == "" <==> path == "" && (xbPath.None? || xbPath.value == "")
  {
    if xbPath.Some? && xbPath.value != "" then xbPath.value else path
  }

  /** The path, content and compression of the file `add` builds: the
      compression is checked before the local file is read, then `XBFile`
      rejects empty data (src/libxb/archive.py:213-214, 227-233, 43-44). */
  function AddedFields(path: string, xbPath: Option<string>, compression: int, data: Option<seq<Byte>>)
    : (r: Result<(string, seq<Byte>, Compression)>)
    ensures Member(compression).None? ==> r == Err(ArgumentError)
    ensures Member(compression).Some? && data.None? ==> r == Err(ArchiveError)
    ensures Member(compression).Some? && data == Some([]) ==> r == Err(ArgumentError)
    ensures r.Ok? <==> Member(compression).Some? && data.Some? && data.value != []
    ensures r.Ok? ==> r.value.1 == data.value && Value(r.value.2) == compression
    ensures r.Ok? ==> r.value.0 == ArchivePath(path, xbPath)
  {
    var c := Member(compression);
    if c.None? then Err(ArgumentError)
    else if data.None? then Err(ArchiveError)
    else if data.value == [] then Err(ArgumentError)
    else Ok((ArchivePath(path, xbPath), data.value, c.value))
  }

  /** The default `_on_add` accepts every file (src/libxb/archive.py:276-285). */
  const AcceptAll: (string, seq<Byte>, Compression) -> bool := (p, d, c) => true

  /** Unlike archive.py's `add`, the newer one neither prefixes the local
      path nor turns its slashes round, and its default is no compression
      rather than LZ. */
  lemma AddAgainstOlder(path: string, data: seq<Byte>)
    requires data != []
    ensures AddedFields(path, None, Value(NoCompression), Some(data)).Ok?
    ensures AddedFields(path, None, Value(NoCompression), Some(data)).value.0 == path
    ensures XbFormat.AddedFile(path, None, None, Some(data)).Ok?
    ensures XbFormat.AddedFile(path, None, None, Some(data)).value.path
            == Paths.Substitute(XbFormat.PREFIX + path, '/', '\\')
    ensures XbFormat.AddedFile(path, None, None, Some(data)).value.compression == XbFormat.LzOnly
  {
  }
}

=== FILE: lzs.dfy ===
/** ClapHanz's LZS codec (compress.py:42-154).

    A compressed payload is a sequence of units, each opened by a control
    byte whose low two bits select the unit: `00` a literal run of 1..64
    bytes copied from the input, `x1` a two-byte back-reference (length
    3..10, distance < 4096), `10` a three-byte back-reference (length
    3..1026, distance < 4096). The decoder fills a zero-initialised output of
    exactly the declared size; back-references copy forward one byte at a
    time, so a distance shorter than the length repeats a pattern. */
module Lzs {
  import opened Common
  import Streams
  import opened Bits
  import Utility

  const MIN_RUN: nat := 3

  const TRUNCATED: Error := DecompressionError(Truncated)
  const MALFORMED: Error := DecompressionError(Malformed)

  // ---------------------------------------------------------------------
  // Control bytes and bit fields
  // ---------------------------------------------------------------------

  datatype Unit = Literal | ShortRun | LongRun

  /** `code & MASK == LITERAL`, else `code & SHORTRUN` (compress.py:115, 128):
      low bits `11` take the short path. */
  function UnitOf(code: Byte): (u: Unit)
    ensures u == Literal <==> code % 4 == 0
    ensures u == ShortRun <==> code % 2 == 1
    ensures u == LongRun <==> code % 4 == 2
  {
    AndLow(code, 2);
    AndLow(code, 1);
    if And(code, 3) == 0 then Literal else if And(code, 1) != 0 then ShortRun else LongRun
  }

  /** `(code >> 2) + 1` (compress.py:116). */
  function LiteralLength(code: Byte): (n: nat)
    ensures n == code / 4 + 1
    ensures 1 <= n <= 64
  {
    ShrIsDiv(code, 2);
    Shr(code, 2) + 1
  }

  /** Length and distance of a short run from `value = b0 << 8 | code`
      (compress.py:129-133). */
  function ShortRunFields(code: Byte, b0: Byte): (r: (nat, nat))
    ensures r == ((code / 2) % 8 + MIN_RUN, b0 * 16 + code / 16)
    ensures 3 <= r.0 <= 10 && r.1 < 4096
  {
    var value := Or(Shl(b0, 8), code);
    ShortRunLength(code, b0);
    ShortRunDistance(code, b0);
    (Shr(And(value, 0xE), 1) + MIN_RUN, Shr(value, 4))
  }

  lemma ShortRunLength(code: Byte, b0: Byte)
    ensures Shr(And(Or(Shl(b0, 8), code), 0xE), 1) == (code / 2) % 8
  {
    var value := Or(Shl(b0, 8), code);
    ShortRunValue(code, b0);
    ShortLengthMask(value);
    var v := b0 * 256 + code;
    assert (value / 2) % 8 == (v / 2) % 8;
    ShortRunArith(code, b0);
  }

  lemma ShortRunDistance(code: Byte, b0: Byte)
    ensures Shr(Or(Shl(b0, 8), code), 4) == b0 * 16 + code / 16
  {
    var value := Or(Shl(b0, 8), code);
    ShortRunValue(code, b0);
    ShrIsDiv(value, 4);
    Pow2Table();
    var v := b0 * 256 + code;
    assert value / 16 == v / 16;
    ShortRunArith(code, b0);
  }

  lemma ShortRunValue(code: Byte, b0: Byte)
    ensures Or(Shl(b0, 8), code) == b0 * 256 + code
  {
    Pow2Table();
    OrDisjoint(b0, code, 8);
  }

  /** `(value & 0xE) >> 1` is bits 1..3 of `value`. */
  lemma ShortLengthMask(value: nat)
    ensures Shr(And(value, 0xE), 1) == (value / 2) % 8
  {
    AndEvenMask(value, 0xE);
    AndLow(value / 2, 3);
    Pow2Table();
    var x := And(value / 2, 7);
    assert Shr(2 * x, 1) == Shr(x, 0);
  }

  lemma ShortRunArith(code: Byte, b0: Byte)
    ensures ((b0 * 256 + code) / 2) % 8 == (code / 2) % 8
    ensures (b0 * 256 + code) / 16 == b0 * 16 + code / 16
  {
    Utility.DivModAddMultiple(code, b0 * 16, 16);
    Utility.DivModAddMultiple(code, b0 * 128, 2);
    Utility.DivModAddMultiple(code / 2, b0 * 16, 8);
  }

  /** Length and distance of a long run from
      `value = b1 << 16 | b0 << 8 | code` (compress.py:136-141). */
  function LongRunFields(code: Byte, b0: Byte, b1: Byte): (r: (nat, nat))
    ensures r == (((b0 * 256 + code) / 4) % 1024 + MIN_RUN, b1 * 16 + b0 / 16)
    ensures 3 <= r.0 <= 1026 && r.1 < 4096
  {
    var value := Or(Or(Shl(b1, 16), Shl(b0, 8)), code);
    LongRunLength(code, b0, b1);
    LongRunDistance(code, b0, b1);
    (Shr(And(value, 0xFFC), 2) + MIN_RUN, Shr(value, 12))
  }

  lemma LongRunLength(code: Byte, b0: Byte, b1: Byte)
    ensures Shr(And(Or(Or(Shl(b1, 16), Shl(b0, 8)), code), 0xFFC), 2) == ((b0 * 256 + code) / 4) % 1024
  {
    var value := Or(Or(Shl(b1, 16), Shl(b0, 8)), code);
    LongRunValue(code, b0, b1);
    LengthMask(value);
    LongRunArith(code, b0, b1);
  }

  /** The high byte does not reach bits 2..11. */
  lemma LongRunArith(code: Byte, b0: Byte, b1: Byte)
    ensures ((b1 * 65536 + b0 * 256 + code) / 4) % 1024 == ((b0 * 256 + code) / 4) % 1024
  {
    var low := b0 * 256 + code;
    assert b1 * 65536 + b0 * 256 + code == 4 * (b1 * 16384) + low;
    Utility.DivModAddMultiple(low, b1 * 16384, 4);
    Utility.DivModAddMultiple(low / 4, b1 * 16, 1024);
  }

  lemma LongRunDistance(code: Byte, b0: Byte, b1: Byte)
    ensures Shr(Or(Or(Shl(b1, 16), Shl(b0, 8)), code), 12) == b1 * 16 + b0 / 16
  {
    var value := Or(Or(Shl(b1, 16), Shl(b0, 8)), code);
    LongRunValue(code, b0, b1);
    ShrIsDiv(value, 12);
    Pow2Table();
    var low := b0 * 256 + code;
    assert value / 4096 == (b1 * 16 * 4096 + low) / 4096;
    Utility.DivModAddMultiple(low, b1 * 16, 4096);
    assert low / 4096 == b0 / 16 by {
      Utility.DivModUnique(low, 4096, b0 / 16, (b0 % 16) * 256 + code);
    }
  }

  lemma LongRunValue(code: Byte, b0: Byte, b1: Byte)
    ensures Or(Or(Shl(b1, 16), Shl(b0, 8)), code) == b1 * 65536 + b0 * 256 + code
  {
    Pow2Table();
    OrDisjoint(b1, b0 * 256, 16);
    assert Or(Shl(b1, 16), Shl(b0, 8)) == (b1 * 256 + b0) * 256;
    OrDisjoint(b1 * 256 + b0, code, 8);
  }

  /** `(value & 0xFFC) >> 2` is bits 2..11 of `value`. */
  lemma LengthMask(value: nat)
    ensures Shr(And(value, 0xFFC), 2) == (value / 4) % 1024
  {
    var x := And(value / 4, 0x3FF);
    Pow2Table();
    MaskFFC(value);
    assert Shr(4 * x, 2) == x by {
      assert Shr(4 * x, 2) == Shr(2 * x, 1) == Shr(x, 0);
    }
    AndLow(value / 4, 10);
  }

  lemma MaskFFC(value: nat)
    ensures And(value, 0xFFC) == 4 * And(value / 4, 0x3FF)
  {
    AndEvenMask(value, 0xFFC);
    AndEvenMask(value / 2, 0x7FE);
    DivModTwice(value, 2);
  }

  // ---------------------------------------------------------------------
  // Decoding, as functions of (input, input position, output, output index)
  // ---------------------------------------------------------------------

  /** Python's `output[i]` on a buffer of length `n`: an index in [-n, 0)
      counts from the end; any other index outside [0, n) is an `IndexError`. */
  predicate Indexable(i: int, n: nat)
  {
    -(n as int) <= i < n
  }

  function Slot(i: int, n: nat): (j: nat)
    requires Indexable(i, n)
    ensures j < n
  {
    if i < 0 then n + i else i
  }

  /** `for _ in range(count): output[out_idx] = strm.read_u8(); out_idx += 1`
      (compress.py:118-120). The byte is read before the store is checked,
      so running out of input wins over running out of output. The result
      is the new input position, the output and the new output index. */
  function LiteralCopy(input: seq<Byte>, ip: nat, out: seq<Byte>, oi: nat, count: nat): (r: Result<(nat, seq<Byte>, nat)>)
    requires ip <= |input| && oi <= |out|
    ensures r.Ok? <==> ip + count <= |input| && oi + count <= |out|
    ensures r.Err? ==> r.error == (if |input| - ip <= |out| - oi then TRUNCATED else MALFORMED)
    ensures r.Ok? ==> r.value.0 == ip + count && r.value.2 == oi + count && |r.value.1| == |out|
    ensures r.Ok? ==> forall j :: 0 <= j < |out| ==>
              r.value.1[j] == (if oi <= j < oi + count then input[ip + (j - oi)] else out[j])
    decreases count
  {
    if count == 0 then Ok((ip, out, oi))
    else if ip >= |input| then Err(TRUNCATED)
    else if oi >= |out| then Err(MALFORMED)
    else LiteralCopy(input, ip + 1, out[oi := input[ip]], oi + 1, count - 1)
  }

  /** `for _ in range(run_len): output[out_idx] = output[run_idx]; ...`
      (compress.py:143-148): one byte at a time, so the copy sees the bytes
      it has just written. */
  function RunCopy(out: seq<Byte>, oi: nat, ri: int, count: nat): (r: Result<(seq<Byte>, nat)>)
    requires oi <= |out|
    ensures r.Ok? <==> count == 0 || (oi + count <= |out| && -|out| <= ri && ri + count <= |out|)
    ensures r.Err? ==> r.error == MALFORMED
    ensures r.Ok? ==> |r.value.0| == |out| && r.value.1 == oi + count
    ensures r.Ok? ==> forall j :: 0 <= j < |out| && !(oi <= j < oi + count) ==> r.value.0[j] == out[j]
    decreases count
  {
    if count == 0 then Ok((out, oi))
    else if !Indexable(ri, |out|) || oi >= |out| then Err(MALFORMED)
    else RunCopy(out[oi := out[Slot(ri, |out|)]], oi + 1, ri + 1, count - 1)
  }

  /** The length, the distance and the next input position of the run whose
      control byte is at `ip` (compress.py:128-141). */
  function RunHeader(input: seq<Byte>, ip: nat): (r: Result<(nat, nat, nat)>)
    requires ip < |input| && UnitOf(input[ip]) != Literal
    ensures r.Err? <==> ip + (if UnitOf(input[ip]) == ShortRun then 1 else 2) >= |input|
    ensures r.Err? ==> r.error == TRUNCATED
    ensures r.Ok? ==> 3 <= r.value.0 <= 1026 && r.value.1 < 4096 && ip < r.value.2 <= |input|
    ensures r.Ok? && UnitOf(input[ip]) == ShortRun ==> r.value.0 <= 10
  {
    var code := input[ip];
    if UnitOf(code) == ShortRun then
      if ip + 1 >= |input| then Err(TRUNCATED)
      else
        var (len, dist) := ShortRunFields(code, input[ip + 1]);
        Ok((len, dist, ip + 2))
    else
      if ip + 2 >= |input| then Err(TRUNCATED)
      else
        var (len, dist) := LongRunFields(code, input[ip + 1], input[ip + 2]);
        Ok((len, dist, ip + 3))
  }

  /** One pass of the decoding loop of compress.py:110-148: the unit whose
      control byte is at `ip`, giving the new input position, output and
      output index. Output bytes before `oi` are never touched. */
  function Step(input: seq<Byte>, ip: nat, out: seq<Byte>, oi: nat): (r: Result<(nat, seq<Byte>, nat)>)
    requires ip < |input| && oi < |out|
    ensures r.Ok? ==> ip < r.value.0 <= |input| && oi < r.value.2 <= |out|
    ensures r.Ok? ==> |r.value.1| == |out| && r.value.1[..oi] == out[..oi]
    ensures r.Err? ==> r.error == TRUNCATED || r.error == MALFORMED
  {
    if UnitOf(input[ip]) == Literal then
      var (ip', out', oi') :- LiteralCopy(input, ip + 1, out, oi, LiteralLength(input[ip]));
      assert out'[..oi] == out[..oi];
      Ok((ip', out', oi'))
    else
      var (len, dist, ip') :- RunHeader(input, ip);
      var (out', oi') :- RunCopy(out, oi, oi - dist, len);
      assert out'[..oi] == out[..oi];
      Ok((ip', out', oi'))
  }

  /** The decoding loop from a given state; a successful decode fills the
      buffer exactly. */
  function DecodeFrom(input: seq<Byte>, ip: nat, out: seq<Byte>, oi: nat): (r: Result<seq<Byte>>)
    requires ip <= |input| && oi <= |out|
    ensures r.Ok? ==> |r.value| == |out| && r.value[..oi] == out[..oi]
    ensures r.Err? ==> r.error == TRUNCATED || r.error == MALFORMED
    decreases |input| - ip
  {
    if oi >= |out| then Ok(out)
    else if ip >= |input| then Err(TRUNCATED)
    else
      var (ip', out', oi') :- Step(input, ip, out, oi);
      assert out'[..oi] == out'[..oi'][..oi];
      DecodeFrom(input, ip', out', oi')
  }

  /** The decoder core: a zero-filled output of `decompSize` bytes decoded
      from `pos` on. A position at or past the end reads as the end. */
  function Decoded(input: seq<Byte>, pos: nat, decompSize: nat): (r: Result<seq<Byte>>)
    ensures r.Ok? ==> |r.value| == decompSize
    ensures r.Err? ==> r.error == TRUNCATED || r.error == MALFORMED
    ensures decompSize == 0 ==> r == Ok([])
  {
    DecodeFrom(input, Min(pos, |input|), Zeros(decompSize), 0)
  }

  /** `ClapHanzLZS.decompress` (compress.py:100-154): the two u32 header
      words are read outside the `try`, so a short input raises `EOFError`
      itself; a zero decompressed size is an `ArgumentError`, a zero
      compressed size means the data is not compressed. */
  function Decompressed(input: seq<Byte>, pos: nat, e: Streams.Endian): (r: Result<seq<Byte>>)
    ensures pos >= |input| ==> r == Err(EndOfFile)
    ensures r.Ok? ==> |r.value| == Streams.ReadU32(input, pos, e).value.0 > 0
  {
    var (decompSize, p1) :- Streams.ReadU32(input, pos, e);
    var (compressSize, p2) :- Streams.ReadU32(input, p1, e);
    if decompSize == 0 then Err(ArgumentError)
    else if compressSize == 0 then Err(DecompressionError(NotCompressed))
    else Decoded(input, p2, decompSize)
  }

  // ---------------------------------------------------------------------
  // What a unit does
  // ---------------------------------------------------------------------

  /** A literal unit copies its bytes verbatim: `(code >> 2) + 1` of them. */
  lemma LiteralUnit(input: seq<Byte>, ip: nat, out: seq<Byte>, oi: nat)
    requires ip < |input| && oi < |out| && UnitOf(input[ip]) == Literal
    requires ip + 1 + LiteralLength(input[ip]) <= |input| && oi + LiteralLength(input[ip]) <= |out|
    ensures var n := LiteralLength(input[ip]);
            var r := LiteralCopy(input, ip + 1, out, oi, n);
            r.Ok? && r.value.1[oi..oi + n] == input[ip + 1..ip + 1 + n]
            && r.value.1[..oi] == out[..oi] && r.value.1[oi + n..] == out[oi + n..]
  {
    var n := LiteralLength(input[ip]);
    var r := LiteralCopy(input, ip + 1, out, oi, n);
    var a, b := r.value.1[oi..oi + n], input[ip + 1..ip + 1 + n];
    assert a == b by {
      forall j | 0 <= j < n ensures a[j] == b[j] {
        assert r.value.1[oi + j] == input[ip + 1 + j];
      }
    }
  }

  /** A back-reference at distance `d = oi - ri` copies forward one byte at
      a time, so every byte it writes equals the byte `d` places before it
      in the result: when `d` is shorter than the run, the `d` bytes before
      the run repeat. */
  lemma {:induction false} RunRepeats(out: seq<Byte>, oi: nat, ri: nat, count: nat)
    requires ri < oi <= |out| && RunCopy(out, oi, ri, count).Ok?
    ensures var res := RunCopy(out, oi, ri, count).value.0;
            forall j :: oi <= j < oi + count ==> res[j] == res[j - (oi - ri)]
    decreases count
  {
    if count > 0 {
      var out1 := out[oi := out[ri]];
      RunRepeats(out1, oi + 1, ri + 1, count - 1);
      var res := RunCopy(out, oi, ri, count).value.0;
      assert res == RunCopy(out1, oi + 1, ri + 1, count - 1).value.0;
      assert res[oi] == out1[oi] == out[ri] == out1[ri] == res[ri];
    }
  }

  /** A back-reference of distance 0 reads each slot just before writing it,
      so it leaves the output as it was. */
  lemma {:induction false} RunAtDistanceZero(out: seq<Byte>, oi: nat, count: nat)
    requires oi <= |out| && RunCopy(out, oi, oi, count).Ok?
    ensures RunCopy(out, oi, oi, count).value.0 == out
    decreases count
  {
    if count > 0 {
      assert out[oi := out[oi]] == out;
      RunAtDistanceZero(out, oi + 1, count - 1);
    }
  }

  /** Decoding "ABC" followed by the short run `0x31 0x00` (length 3,
      distance 3) repeats "ABC". */
  lemma DecodeRepeatsABC()
    ensures Decoded([0x08, 65, 66, 67, 0x31, 0x00], 0, 6) == Ok([65, 66, 67, 65, 66, 67])
  {
    var input: seq<Byte> := [0x08, 65, 66, 67, 0x31, 0x00];
    var mid: seq<Byte> := [65, 66, 67, 0, 0, 0];
    var done: seq<Byte> := [65, 66, 67, 65, 66, 67];
    LiteralABC();
    RunABC();
    assert DecodeFrom(input, 4, mid, 3) == Ok(done);
  }

  lemma LiteralABC()
    ensures Step([0x08, 65, 66, 67, 0x31, 0x00], 0, Zeros(6), 0) == Ok((4, [65, 66, 67, 0, 0, 0], 3))
  {
    var input: seq<Byte> := [0x08, 65, 66, 67, 0x31, 0x00];
    assert UnitOf(0x08) == Literal && LiteralLength(0x08) == 3;
    var lit := LiteralCopy(input, 1, Zeros(6), 0, 3);
    assert lit.value.1 == [65, 66, 67, 0, 0, 0];
  }

  lemma RunABC()
    ensures Step([0x08, 65, 66, 67, 0x31, 0x00], 4, [65, 66, 67, 0, 0, 0], 3) == Ok((6, [65, 66, 67, 65, 66, 67], 6))
  {
    var input: seq<Byte> := [0x08, 65, 66, 67, 0x31, 0x00];
    assert UnitOf(0x31) == ShortRun && ShortRunFields(0x31, 0x00) == (3, 3);
    assert RunHeader(input, 4) == Ok((3, 3, 6));
    var run := RunCopy([65, 66, 67, 0, 0, 0], 3, 0, 3);
    assert run.value.0 == [65, 66, 67, 65, 66, 67];
  }

  /** An overlapping run: "A" then a run of 3 at distance 1 gives four "A"s,
      because each copied byte is read after the one before it is written. */
  lemma DecodeOverlappingRun()
    ensures Decoded([0x00, 65, 0x11, 0x00], 0, 4) == Ok([65, 65, 65, 65])
  {
    var input: seq<Byte> := [0x00, 65, 0x11, 0x00];
    var mid: seq<Byte> := [65, 0, 0, 0];
    var done: seq<Byte> := [65, 65, 65, 65];
    LiteralA();
    RunOfA();
    assert DecodeFrom(input, 2, mid, 1) == Ok(done);
  }

  lemma LiteralA()
    ensures Step([0x00, 65, 0x11, 0x00], 0, Zeros(4), 0) == Ok((2, [65, 0, 0, 0], 1))
  {
    var input: seq<Byte> := [0x00, 65, 0x11, 0x00];
    assert UnitOf(0x00) == Literal && LiteralLength(0x00) == 1;
    var lit := LiteralCopy(input, 1, Zeros(4), 0, 1);
    assert lit.value.1 == [65, 0, 0, 0];
  }

  lemma RunOfA()
    ensures Step([0x00, 65, 0x11, 0x00], 2, [65, 0, 0, 0], 1) == Ok((4, [65, 65, 65, 65], 4))
  {
    var input: seq<Byte> := [0x00, 65, 0x11, 0x00];
    assert UnitOf(0x11) == ShortRun && ShortRunFields(0x11, 0x00) == (3, 1);
    assert RunHeader(input, 2) == Ok((3, 1, 4));
    CopyOfA();
  }

  lemma CopyOfA()
    ensures RunCopy([65, 0, 0, 0], 1, 0, 3) == Ok(([65, 65, 65, 65], 4))
  {
    var s0, s1, s2, s3: seq<Byte> := [65, 0, 0, 0], [65, 65, 0, 0], [65, 65, 65, 0], [65, 65, 65, 65];
    assert s0[1 := s0[0]] == s1 && s1[2 := s1[1]] == s2 && s2[3 := s2[2]] == s3;
    assert RunCopy(s2, 3, 2, 1) == Ok((s3, 4));
  }

  /** A literal that runs past the declared size is malformed; input that
      ends inside a unit is truncated. */
  lemma DecodeErrors()
    ensures Decoded([0x08, 65, 66, 67], 0, 2) == Err(MALFORMED)
    ensures Decoded([0x08, 65, 66], 0, 3) == Err(TRUNCATED)
    ensures Decoded([0x31], 0, 3) == Err(TRUNCATED)
  {
    assert UnitOf(0x08) == Literal && LiteralLength(0x08) == 3;
    assert UnitOf(0x31) == ShortRun;
  }

  // ---------------------------------------------------------------------
  // The decoder as the source runs it
  // ---------------------------------------------------------------------

  /** The literal loop of compress.py:118-120 on the output buffer: the new
      input position and output index, or the error that stops it. */
  method CopyLiteral(input: seq<Byte>, ip: nat, output: array<Byte>, outIdx: nat, count: nat)
    returns (r: Result<(nat, nat)>)
    requires ip <= |input| && outIdx <= output.Length
    modifies output
    ensures var spec := LiteralCopy(input, ip, old(output[..]), outIdx, count);
            match spec
            case Ok((ip', out', oi')) => r == Ok((ip', oi')) && output[..] == out'
            case Err(e) => r == Err(e)
  {
    ghost var spec := LiteralCopy(input, ip, output[..], outIdx, count);
    var i, o, k := ip, outIdx, 0;
    while k < count
      invariant k <= count && i == ip + k && o == outIdx + k
      invariant i <= |input| && o <= output.Length
      invariant LiteralCopy(input, i, output[..], o, count - k) == spec
    {
      if i >= |input| {
        return Err(TRUNCATED);
      }
      if o >= output.Length {
        return Err(MALFORMED);
      }
      output[o] := input[i];
      i, o, k := i + 1, o + 1, k + 1;
    }
    return Ok((i, o));
  }

  /** The run loop of compress.py:143-148: `output[out_idx] = output[run_idx]`
      with Python's reading of a negative index. */
  method CopyRun(output: array<Byte>, outIdx: nat, runIdx: int, count: nat) returns (r: Result<nat>)
    requires outIdx <= output.Length
    modifies output
    ensures var spec := RunCopy(old(output[..]), outIdx, runIdx, count);
            match spec
            case Ok((out', oi')) => r == Ok(oi') && output[..] == out'
            case Err(e) => r == Err(e)
  {
    ghost var spec := RunCopy(output[..], outIdx, runIdx, count);
    var o, ri, k := outIdx, runIdx, 0;
    while k < count
      invariant k <= count && o == outIdx + k && ri == runIdx + k && o <= output.Length
      invariant RunCopy(output[..], o, ri, count - k) == spec
    {
      if !Indexable(ri, output.Length) || o >= output.Length {
        return Err(MALFORMED);
      }
      output[o] := output[Slot(ri, output.Length)];
      o, ri, k := o + 1, ri + 1, k + 1;
    }
    return Ok(o);
  }

  /** One pass of the loop of compress.py:110-148 on the output buffer. */
  method DecodeUnit(input: seq<Byte>, ip: nat, output: array<Byte>, outIdx: nat) returns (r: Result<(nat, nat)>)
    requires ip < |input| && outIdx < output.Length
    modifies output
    ensures r.Ok? == Step(input, ip, old(output[..]), outIdx).Ok?
    ensures r.Err? ==> r.error == Step(input, ip, old(output[..]), outIdx).error
    ensures r.Ok? ==> r.value.0 == Step(input, ip, old(output[..]), outIdx).value.0
                      && r.value.1 == Step(input, ip, old(output[..]), outIdx).value.2
                      && output[..] == Step(input, ip, old(output[..]), outIdx).value.1
  {
    ghost var before := output[..];
    var code := input[ip];
    if UnitOf(code) == Literal {
      StepLiteral(input, ip, before, outIdx);
      r := CopyLiteral(input, ip + 1, output, outIdx, LiteralLength(code));
    } else {
      StepRun(input, ip, before, outIdx);
      var header := RunHeader(input, ip);
      if header.Err? {
        return Err(header.error);
      }
      var (runLen, runOffset, next) := header.value;
      var copied := CopyRun(output, outIdx, outIdx - runOffset, runLen);
      if copied.Err? {
        return Err(copied.error);
      }
      r := Ok((next, copied.value));
    }
  }

  /** A literal unit is one literal copy. */
  lemma StepLiteral(input: seq<Byte>, ip: nat, out: seq<Byte>, oi: nat)
    requires ip < |input| && oi < |out| && UnitOf(input[ip]) == Literal
    ensures Step(input, ip, out, oi) == LiteralCopy(input, ip + 1, out, oi, LiteralLength(input[ip]))
  {
  }

  /** A run unit is its header, then one run copy. */
  lemma StepRun(input: seq<Byte>, ip: nat, out: seq<Byte>, oi: nat)
    requires ip < |input| && oi < |out| && UnitOf(input[ip]) != Literal
    ensures RunHeader(input, ip).Err? ==> Step(input, ip, out, oi) == Err(RunHeader(input, ip).error)
    ensures RunHeader(input, ip).Ok? ==>
              var (len, dist, ip') := RunHeader(input, ip).value;
              var c := RunCopy(out, oi, oi - dist, len);
              Step(input, ip, out, oi) == if c.Ok? then Ok((ip', c.value.0, c.value.1)) else Err(c.error)
  {
  }

  /** The loop of compress.py:108-152 over a preallocated, zero-filled
      output, from input position `pos`. */
  method Decode(input: seq<Byte>, pos: nat, decompSize: nat) returns (r: Result<seq<Byte>>)
    ensures r == Decoded(input, pos, decompSize)
  {
    var output := new Byte[decompSize](_ => 0);
    assert output[..] == Zeros(decompSize);
    var ip: nat := Min(pos, |input|);
    var outIdx: nat := 0;
    while outIdx < decompSize
      invariant ip <= |input| && outIdx <= decompSize
      invariant DecodeFrom(input, ip, output[..], outIdx) == Decoded(input, pos, decompSize)
      decreases |input| - ip
    {
      if ip >= |input| {
        return Err(TRUNCATED);
      }
      var step := DecodeUnit(input, ip, output, outIdx);
      if step.Err? {
        return Err(step.error);
      }
      ip, outIdx := step.value.0, step.value.1;
    }
    return Ok(output[..]);
  }

  /** `ClapHanzLZS.decompress` (compress.py:86-154): the header, then the loop. */
  method Decompress(input: seq<Byte>, pos: nat, e: Streams.Endian) returns (r: Result<seq<Byte>>)
    ensures r == Decompressed(input, pos, e)
  {
    var decompSize := Streams.ReadU32(input, pos, e);
    if decompSize.Err? {
      return Err(decompSize.error);
    }
    var compressSize := Streams.ReadU32(input, decompSize.value.1, e);
    if compressSize.Err? {
      return Err(compressSize.error);
    }
    if decompSize.value.0 == 0 {
      return Err(ArgumentError);
    }
    if compressSize.value.0 == 0 {
      return Err(DecompressionError(NotCompressed));
    }
    r := Decode(input, compressSize.value.1, decompSize.value.0);
  }

  // ---------------------------------------------------------------------
  // Encoding: literal chunks only
  // ---------------------------------------------------------------------

  const LITERAL: nat := 0

  /** The control byte of a literal chunk of `n` bytes (compress.py:72),
      in arithmetic form; `LiteralCodeIsShiftOr` shows it is the source's
      `(n - 1) << 2 | LITERAL`. */
  function LiteralCode(n: nat): (code: Byte)
    requires 1 <= n <= 64
    ensures code % 4 == LITERAL
  {
    (n - 1) * 4 + LITERAL
  }

  lemma LiteralCodeIsShiftOr(n: nat)
    requires 1 <= n <= 64
    ensures LiteralCode(n) == Or(Shl(n - 1, 2), LITERAL)
  {
    Pow2Table();
  }

  /** The decoder reads a literal code back as a literal of `n` bytes. */
  lemma LiteralCodeDecodes(n: nat)
    requires 1 <= n <= 64
    ensures UnitOf(LiteralCode(n)) == Literal && LiteralLength(LiteralCode(n)) == n
  {
  }

  /** What the loop of compress.py:70-74 appends: chunks of up to 64 bytes,
      each behind its control byte. */
  function Chunks(data: seq<Byte>): (r: seq<Byte>)
    ensures r == [] <==> data == []
    ensures |r| <= 2 * |data|
    decreases |data|
  {
    if data == [] then []
    else
      var n := Min(|data|, 64);
      [LiteralCode(n)] + data[..n] + Chunks(data[n..])
  }

  /** `c` sits in `input` at `ip`. */
  predicate At(input: seq<Byte>, ip: nat, c: seq<Byte>)
  {
    ip + |c| <= |input| && input[ip..ip + |c|] == c
  }

  /** A successful literal copy leaves the bytes before `oi` and puts the
      copied input right after them. */
  lemma LiteralCopyPrefix(input: seq<Byte>, ip: nat, out: seq<Byte>, oi: nat, y: seq<Byte>)
    requires At(input, ip, y) && oi + |y| <= |out|
    ensures LiteralCopy(input, ip, out, oi, |y|).Ok?
    ensures LiteralCopy(input, ip, out, oi, |y|).value.1[..oi + |y|] == out[..oi] + y
  {
    var res := LiteralCopy(input, ip, out, oi, |y|).value.1;
    var want := out[..oi] + y;
    forall j | 0 <= j < oi + |y| ensures res[j] == want[j] {
      if j >= oi {
        assert res[j] == input[ip + (j - oi)];
      }
    }
  }

  /** Decoding a chunk sequence appends exactly the chunked bytes. */
  lemma {:induction false} ChunksDecode(input: seq<Byte>, ip: nat, out: seq<Byte>, oi: nat, data: seq<Byte>)
    requires At(input, ip, Chunks(data))
    requires oi + |data| == |out|
    ensures DecodeFrom(input, ip, out, oi) == Ok(out[..oi] + data)
    decreases |data|
  {
    if data == [] {
      assert out[..oi] + data == out;
      assert oi == |out|;
    } else {
      var n := Min(|data|, 64);
      var rest := data[n..];
      var ip' := ip + 1 + n;
      var out' := ChunkHead(input, ip, out, oi, data);
      ChunksDecode(input, ip', out', oi + n, rest);
      JoinAt(out'[..oi + n], out[..oi], data, n);
      assert DecodeFrom(input, ip', out', oi + n) == Ok(out[..oi] + data);
    }
  }

  /** Decoding the first chunk of `data`: one step that appends its bytes
      and leaves the following chunks in place. */
  lemma ChunkHead(input: seq<Byte>, ip: nat, out: seq<Byte>, oi: nat, data: seq<Byte>) returns (out': seq<Byte>)
    requires data != [] && At(input, ip, Chunks(data))
    requires oi + |data| == |out|
    ensures var n := Min(|data|, 64);
            && Step(input, ip, out, oi) == Ok((ip + 1 + n, out', oi + n))
            && |out'| == |out| && out'[..oi + n] == out[..oi] + data[..n]
            && At(input, ip + 1 + n, Chunks(data[n..]))
  {
    var n := Min(|data|, 64);
    ChunkLayout(input, ip, data, n);
    LiteralCopyPrefix(input, ip + 1, out, oi, data[..n]);
    out' := LiteralCopy(input, ip + 1, out, oi, n).value.1;
    LiteralStep(input, ip, out, oi, n);
  }

  /** A literal control byte makes the decoder copy and carry on. */
  lemma LiteralStep(input: seq<Byte>, ip: nat, out: seq<Byte>, oi: nat, n: nat)
    requires 1 <= n <= 64 && ip + 1 + n <= |input| && oi + n <= |out|
    requires input[ip] == LiteralCode(n)
    ensures LiteralCopy(input, ip + 1, out, oi, n).Ok?
    ensures Step(input, ip, out, oi) == Ok((ip + 1 + n, LiteralCopy(input, ip + 1, out, oi, n).value.1, oi + n))
  {
    LiteralCodeDecodes(n);
  }

  lemma JoinAt(done: seq<Byte>, prefix: seq<Byte>, data: seq<Byte>, n: nat)
    requires n <= |data| && done == prefix + data[..n]
    ensures done + data[n..] == prefix + data
  {
    assert data[..n] + data[n..] == data;
  }

  /** Where the parts of the first chunk sit in the input. */
  lemma ChunkLayout(input: seq<Byte>, ip: nat, data: seq<Byte>, n: nat)
    requires data != [] && At(input, ip, Chunks(data)) && n == Min(|data|, 64)
    ensures input[ip] == LiteralCode(n)
    ensures At(input, ip + 1, data[..n])
    ensures At(input, ip + 1 + n, Chunks(data[n..]))
  {
    ChunksUnfold(data);
    PartsAt(input, ip, LiteralCode(n), data[..n], n, Chunks(data[n..]));
  }

  lemma ChunksUnfold(data: seq<Byte>)
    requires data != []
    ensures Chunks(data) == [LiteralCode(Min(|data|, 64))] + data[..Min(|data|, 64)] + Chunks(data[Min(|data|, 64)..])
  {
  }

  /** The three parts of `[x] + y + z` sit where they should. */
  lemma PartsAt(input: seq<Byte>, ip: nat, x: Byte, y: seq<Byte>, n: nat, z: seq<Byte>)
    requires At(input, ip, [x] + y + z) && |y| == n
    ensures input[ip] == x && At(input, ip + 1, y) && At(input, ip + 1 + n, z)
  {
    var c := [x] + y + z;
    var w := input[ip..ip + |c|];
    assert input[ip] == w[0];
    SubSlice(input, ip, ip + |c|, 1, 1 + |y|);
    SubSlice(input, ip, ip + |c|, 1 + |y|, |c|);
    assert w[1..1 + |y|] == y;
    assert w[1 + |y|..] == z;
  }

  /** A slice of a slice is a slice. */
  lemma SubSlice(s: seq<Byte>, i: nat, j: nat, a: nat, b: nat)
    requires i <= j <= |s| && a <= b <= j - i
    ensures s[i..j][a..b] == s[i + a..i + b]
  {
    var l, m := s[i..j][a..b], s[i + a..i + b];
    assert |l| == |m|;
    forall k | 0 <= k < |l| ensures l[k] == m[k] {
      assert l[k] == s[i..j][a + k] == s[i + a + k];
    }
  }

  /** What archive.py's header-less `compress` yields decodes back. */
  lemma ChunksRoundTrip(data: seq<Byte>, rest: seq<Byte>)
    ensures Decoded(Chunks(data) + rest, 0, |data|) == Ok(data)
  {
    var input := Chunks(data) + rest;
    assert input[0..|Chunks(data)|] == Chunks(data);
    ChunksDecode(input, 0, Zeros(|data|), 0, data);
    assert Zeros(|data|)[..0] + data == data;
  }

  /** The bytes of `buf` from `pos` on. */
  function Unread(buf: seq<Byte>, pos: nat): seq<Byte>
  {
    if pos < |buf| then buf[pos..] else []
  }

  /** compress.py:77-79: with the cursor back at 0, the input length goes
      over bytes 0..3 and then the output length, as it stands after that
      first write, over bytes 4..7. Only when the chunks are shorter than 8
      bytes does this make the output longer. */
  function HeaderOverwritten(body: seq<Byte>, total: nat, e: Streams.Endian): (r: Result<seq<Byte>>)
    ensures r.Ok? <==> total < 0x1_0000_0000 && Max(|body|, 4) < 0x1_0000_0000
    ensures r.Err? ==> r.error == OverflowError
    ensures r.Ok? ==> |r.value| == Max(|body|, 8)
    ensures r.Ok? ==> r.value[..4] == Streams.IntToBytes(total, 4, e, false).value
    ensures r.Ok? ==> r.value[4..8] == Streams.IntToBytes(Max(|body|, 4), 4, e, false).value
    ensures r.Ok? ==> r.value[8..] == Unread(body, 8)
  {
    var h1 :- Streams.IntToBytes(total, 4, e, false);
    var (b1, p1) := Streams.WriteSpec(body, 0, h1);
    var h2 :- Streams.IntToBytes(|b1|, 4, e, false);
    var (b2, _) := Streams.WriteSpec(b1, p1, h2);
    assert b2[..4] == h1 by {
      forall j | 0 <= j < 4 ensures b2[j] == h1[j] { assert b2[j] == b1[j]; }
    }
    assert b2[4..8] == h2;
    assert b2[8..] == Unread(body, 8) by {
      forall j | 8 <= j < |b2| ensures b2[j] == body[j] { assert b2[j] == b1[j]; }
    }
    Ok(b2)
  }

  /** One pass of the chunk loop: the chunk of the next (up to) 64 bytes,
      followed by the chunks of what is left, is the chunks of the rest. */
  lemma ChunkNext(before: seq<Byte>, buf: seq<Byte>, p: nat, q: nat)
    requires p < q <= |buf| && q == Min(p + 64, |buf|)
    ensures before + [LiteralCode(q - p)] + buf[p..q] + Chunks(buf[q..]) == before + Chunks(buf[p..])
  {
    var x, y, z := [LiteralCode(q - p)], buf[p..q], Chunks(buf[q..]);
    ChunksFrom(buf, p, q);
    assert before + x + y + z == before + (x + y + z);
  }

  /** The chunks of `buf[p..]` start with the chunk of its first (up to) 64 bytes. */
  lemma ChunksFrom(buf: seq<Byte>, p: nat, q: nat)
    requires p < q <= |buf| && q == Min(p + 64, |buf|)
    ensures Chunks(buf[p..]) == [LiteralCode(q - p)] + buf[p..q] + Chunks(buf[q..])
  {
    var rest := buf[p..];
    var n := q - p;
    assert Min(|rest|, 64) == n;
    ChunksUnfold(rest);
    assert rest[..n] == buf[p..q];
    assert rest[n..] == buf[q..];
  }

  /** One pass of the chunk loop's body: the control byte, then the bytes. */
  method WriteChunk(output: Streams.BufferStream, chunk: seq<Byte>)
    requires 1 <= |chunk| <= 64 && output.isOpen && output.pos == |output.buffer|
    modifies output
    ensures output.isOpen && output.endian == old(output.endian)
    ensures output.buffer == old(output.buffer) + [LiteralCode(|chunk|)] + chunk
    ensures output.pos == |output.buffer|
  {
    Streams.OneByte(LiteralCode(|chunk|), output.endian);
    var o := output.WriteInt(LiteralCode(|chunk|), 1, false);
    o := output.Write(chunk);
  }

  /** Reads the next (up to) 64 bytes of `src` and writes their chunk. */
  method ReadChunk(src: Streams.BufferStream, output: Streams.BufferStream)
    requires src != output && src.isOpen && src.pos < |src.buffer|
    requires output.isOpen && output.pos == |output.buffer|
    modifies src, output
    ensures src.buffer == old(src.buffer) && src.endian == old(src.endian) && src.isOpen
    ensures src.pos == Min(old(src.pos) + 64, |src.buffer|)
    ensures output.isOpen && output.endian == old(output.endian) && output.pos == |output.buffer|
    ensures output.buffer + Chunks(src.buffer[src.pos..]) == old(output.buffer) + Chunks(src.buffer[old(src.pos)..])
  {
    var chunk := src.Read(64);
    WriteChunk(output, chunk.value);
    ChunkNext(old(output.buffer), src.buffer, old(src.pos), src.pos);
  }

  /** The chunk loop of compress.py:70-74: reads the source to its end in
      pieces of 64 bytes and appends each piece's chunk to `output`. */
  method WriteChunks(src: Streams.BufferStream, output: Streams.BufferStream)
    requires src != output && src.isOpen && output.isOpen && output.pos == |output.buffer|
    modifies src, output
    ensures src.buffer == old(src.buffer) && src.endian == old(src.endian) && src.isOpen
    ensures src.pos == Max(old(src.pos), |src.buffer|)
    ensures output.isOpen && output.endian == old(output.endian)
    ensures output.buffer == old(output.buffer) + Chunks(Unread(src.buffer, old(src.pos)))
    ensures output.pos == |output.buffer|
  {
    ghost var start, buf, prior := src.pos, src.buffer, output.buffer;
    var atEnd := src.Eof();
    if atEnd.value {
      assert prior + Chunks([]) == prior;
      return;
    }
    while !atEnd.value
      invariant src.buffer == buf && src.isOpen && src.endian == old(src.endian)
      invariant atEnd == Ok(src.pos >= |buf|) && src.pos <= |buf|
      invariant output.isOpen && output.endian == old(output.endian) && output.pos == |output.buffer|
      invariant output.buffer + Chunks(buf[src.pos..]) == prior + Chunks(buf[start..])
      decreases |buf| - src.pos
    {
      ReadChunk(src, output);
      atEnd := src.Eof();
    }
    assert buf[src.pos..] == [];
  }

  /** `ClapHanzLZS.compress` (compress.py:57-82) as written: the chunks go to
      a new stream, which then has its first 8 bytes overwritten by the
      header and is returned with the cursor at 0. The source stream is read
      to its end. */
  method Compress(src: Streams.BufferStream) returns (r: Result<Streams.BufferStream>)
    modifies src
    ensures src.buffer == old(src.buffer) && src.endian == old(src.endian) && src.isOpen == old(src.isOpen)
    ensures !old(src.isOpen) ==> r == Err(OperationError)
    ensures old(src.isOpen) ==>
              var expected := HeaderOverwritten(Chunks(Unread(src.buffer, old(src.pos))), |src.buffer|, src.endian);
              src.pos == Max(old(src.pos), |src.buffer|)
              && (r.Ok? <==> expected.Ok?) && (r.Err? ==> r.error == OverflowError)
              && (r.Ok? ==> fresh(r.value) && r.value.isOpen && r.value.pos == 0
                            && r.value.endian == src.endian && r.value.buffer == expected.value)
  {
    if !src.isOpen {
      return Err(OperationError);
    }
    var output := new Streams.BufferStream(src.endian, []);
    WriteChunks(src, output);
    ghost var body := output.buffer;
    assert body == Chunks(Unread(src.buffer, old(src.pos)));
    var total := src.Length();
    var o := output.Seek(Streams.Begin, 0);
    o := output.WriteInt(total.value, 4, false);
    if o.Fail? {
      return Err(o.error);
    }
    var written := output.Length();
    o := output.WriteInt(written.value, 4, false);
    if o.Fail? {
      return Err(o.error);
    }
    o := output.Seek(Streams.Begin, 0);
    return Ok(output);
  }

  /** As written, compressing "ABC" gives just the 8 header bytes: the
      chunk `08 41 42 43` is overwritten. */
  lemma CompressAsWrittenLosesData()
    ensures HeaderOverwritten(Chunks([65, 66, 67]), 3, Streams.Little) == Ok([3, 0, 0, 0, 4, 0, 0, 0])
  {
    var body := Chunks([65, 66, 67]);
    assert LiteralCode(3) == 8;
    assert body == [8, 65, 66, 67];
    SmallU32(3);
    SmallU32(4);
    var h1: seq<Byte> := [3, 0, 0, 0];
    var b1 := Streams.WriteSpec(body, 0, h1).0;
    assert b1 == h1 by {
      forall j | 0 <= j < 4 ensures b1[j] == h1[j] {}
    }
    assert Streams.WriteSpec(b1, 4, [4, 0, 0, 0]).0 == [3, 0, 0, 0, 4, 0, 0, 0];
  }

  /** A value below 256 as a little-endian u32. */
  lemma SmallU32(v: Byte)
    ensures Streams.IntToBytes(v, 4, Streams.Little, false) == Ok([v, 0, 0, 0])
  {
    assert Streams.Pow256(4) == 0x1_0000_0000 by {
      assert Streams.Pow256(2) == 65536;
    }
    assert Streams.Fits(v, 4, false);
    assert Streams.LeBytes(0, 1) == [0];
    assert Streams.LeBytes(0, 2) == [0, 0];
    assert Streams.LeBytes(0, 3) == [0, 0, 0];
    assert v % 256 == v && v / 256 == 0;
    assert Streams.LeBytes(v, 4) == [v] + Streams.LeBytes(0, 3);
    assert Streams.UBytes(v, 4, Streams.Little) == [v, 0, 0, 0];
  }

  /** ... and decompressing those 8 bytes runs out of input at the first
      control byte. */
  lemma HeaderOnlyIsTruncated()
    ensures Decompressed([3, 0, 0, 0, 4, 0, 0, 0], 0, Streams.Little) == Err(TRUNCATED)
  {
    var input: seq<Byte> := [3, 0, 0, 0, 4, 0, 0, 0];
    SmallU32(3);
    SmallU32(4);
    Streams.ReadU32OfWritten([], 3, [4, 0, 0, 0], Streams.Little);
    Streams.ReadU32OfWritten([3, 0, 0, 0], 4, [], Streams.Little);
    assert input == [] + [3, 0, 0, 0] + [4, 0, 0, 0];
    assert input == [3, 0, 0, 0] + [4, 0, 0, 0] + [];
  }

  /** The output the docstring of compress.py:59-60 describes: the header
      (input length, then total output length) in front of the chunks. */
  function CompressedWithHeader(data: seq<Byte>, e: Streams.Endian): (r: Result<seq<Byte>>)
    ensures r.Ok? <==> |data| < 0x1_0000_0000 && 8 + |Chunks(data)| < 0x1_0000_0000
    ensures r.Ok? ==> |r.value| == 8 + |Chunks(data)| && r.value[8..] == Chunks(data)
  {
    var body := Chunks(data);
    var h1 :- Streams.IntToBytes(|data|, 4, e, false);
    var h2 :- Streams.IntToBytes(8 + |body|, 4, e, false);
    Ok(h1 + h2 + body)
  }

  /** The two header words read back as the sizes they were written from. */
  lemma CompressedHeader(data: seq<Byte>, e: Streams.Endian, input: seq<Byte>)
    requires CompressedWithHeader(data, e).Ok? && input == CompressedWithHeader(data, e).value
    ensures Streams.ReadU32(input, 0, e) == Ok((|data|, 4))
    ensures Streams.ReadU32(input, 4, e) == Ok((8 + |Chunks(data)|, 8))
  {
    var h1, h2 := CompressedParts(data, e);
    TwoWords(h1, h2, Chunks(data), |data|, 8 + |Chunks(data)|, e);
  }

  /** The two header words and the chunks. */
  lemma CompressedParts(data: seq<Byte>, e: Streams.Endian) returns (h1: seq<Byte>, h2: seq<Byte>)
    requires CompressedWithHeader(data, e).Ok?
    ensures |data| < 0x1_0000_0000 && 8 + |Chunks(data)| < 0x1_0000_0000
    ensures Streams.IntToBytes(|data|, 4, e, false) == Ok(h1)
    ensures Streams.IntToBytes(8 + |Chunks(data)|, 4, e, false) == Ok(h2)
    ensures CompressedWithHeader(data, e).value == h1 + h2 + Chunks(data)
  {
    h1 := Streams.IntToBytes(|data|, 4, e, false).value;
    h2 := Streams.IntToBytes(8 + |Chunks(data)|, 4, e, false).value;
  }

  /** Two u32 words in front of `body` read back in order. */
  lemma TwoWords(h1: seq<Byte>, h2: seq<Byte>, body: seq<Byte>, a: nat, b: nat, e: Streams.Endian)
    requires a < 0x1_0000_0000 && b < 0x1_0000_0000
    requires Streams.IntToBytes(a, 4, e, false) == Ok(h1) && Streams.IntToBytes(b, 4, e, false) == Ok(h2)
    ensures Streams.ReadU32(h1 + h2 + body, 0, e) == Ok((a, 4))
    ensures Streams.ReadU32(h1 + h2 + body, 4, e) == Ok((b, 8))
  {
    AppendAssoc(h1, h2, body);
    assert h1 + h2 + body == [] + h1 + (h2 + body);
    Streams.ReadU32OfWritten([], a, h2 + body, e);
    Streams.ReadU32OfWritten(h1, b, body, e);
  }

  /** With the header in front, `decompress` gives back any non-empty input;
      an empty input has a zero decompressed size, which `decompress`
      rejects. */
  lemma CompressRoundTrip(data: seq<Byte>, e: Streams.Endian)
    requires |data| < 0x7FFF_FFF0
    ensures CompressedWithHeader(data, e).Ok?
    ensures |data| > 0 ==> Decompressed(CompressedWithHeader(data, e).value, 0, e) == Ok(data)
    ensures |data| == 0 ==> Decompressed(CompressedWithHeader(data, e).value, 0, e) == Err(ArgumentError)
  {
    var input := CompressedWithHeader(data, e).value;
    CompressedHeader(data, e, input);
    if |data| > 0 {
      var body := Chunks(data);
      assert input[8..8 + |body|] == body;
      ChunksDecode(input, 8, Zeros(|data|), 0, data);
      assert Zeros(|data|)[..0] + data == data;
    }
  }
}

=== FILE: paths.dfy ===
/** Python's `str.split(sep)` and `str.replace(target, repl)` for a non-empty
    separator, which the archive code uses on paths: occurrences are found
    left to right and do not overlap, and `replace` is `repl.join(split)`. */
module Paths {
  import Common

  /** The pieces of `cur + s` between the occurrences of `sep` found in
      `s`; `cur` is the piece gathered so far. */
  function Split(s: string, sep: string, cur: string): (r: seq<string>)
    requires |sep| > 0
    ensures |r| >= 1
    decreases |s|
  {
    if |s| < |sep| then [cur + s]
    else if s[..|sep|] == sep then [cur] + Split(s[|sep|..], sep, "")
    else Split(s[1..], sep, cur + [s[0]])
  }

  /** `sep.join(pieces)`. */
  function Join(pieces: seq<string>, sep: string): string
    decreases |pieces|
  {
    if |pieces| == 0 then ""
    else if |pieces| == 1 then pieces[0]
    else pieces[0] + sep + Join(pieces[1..], sep)
  }

  lemma JoinCons(x: string, rest: seq<string>, sep: string)
    requires |rest| >= 1
    ensures Join([x] + rest, sep) == x + sep + Join(rest, sep)
  {
    assert ([x] + rest)[1..] == rest;
  }

  /** Joining the pieces with the separator gives the string back. */
  lemma {:induction false} JoinSplit(s: string, sep: string, cur: string)
    requires |sep| > 0
    ensures Join(Split(s, sep, cur), sep) == cur + s
    decreases |s|
  {
    if |s| < |sep| {
    } else if s[..|sep|] == sep {
      JoinSplit(s[|sep|..], sep, "");
      JoinCons(cur, Split(s[|sep|..], sep, ""), sep);
      assert s == sep + s[|sep|..];
    } else {
      JoinSplit(s[1..], sep, cur + [s[0]]);
      assert cur + [s[0]] + s[1..] == cur + s;
    }
  }

  /** `s.replace(target, repl)`: for single characters it is the
      position-wise substitution, and a string without `target` is kept. */
  function Replace(s: string, target: string, repl: string): (r: string)
    requires |target| > 0
    ensures |target| == 1 && |repl| == 1 ==> r == Substitute(s, target[0], repl[0])
    ensures Free(s, target) ==> r == s
  {
    JoinedSplit(s, target, repl);
    Join(Split(s, target, ""), repl)
  }

  lemma JoinedSplit(s: string, target: string, repl: string)
    requires |target| > 0
    ensures |target| == 1 && |repl| == 1 ==>
              Join(Split(s, target, ""), repl) == Substitute(s, target[0], repl[0])
    ensures Free(s, target) ==> Join(Split(s, target, ""), repl) == s
  {
    if |target| == 1 && |repl| == 1 {
      ReplaceCharFrom(s, target[0], repl[0], "");
      assert [target[0]] == target && [repl[0]] == repl;
    }
    if Free(s, target) {
      SplitFree(s, target, "");
      assert "" + s == s;
    }
  }

  /** `s.split(sep)[-1]`: a suffix of `s`, the whole of it when `sep` does
      not occur. */
  function LastPiece(s: string, sep: string): (r: string)
    requires |sep| > 0
    ensures IsSuffix(r, s)
    ensures Free(s, sep) ==> r == s
  {
    LastOfSplit(s, sep);
    var pieces := Split(s, sep, "");
    pieces[|pieces| - 1]
  }

  lemma LastOfSplit(s: string, sep: string)
    requires |sep| > 0
    ensures var pieces := Split(s, sep, ""); IsSuffix(pieces[|pieces| - 1], s)
    ensures Free(s, sep) ==> Split(s, sep, "") == [s]
  {
    LastPieceOfSplit(s, sep, "");
    assert "" + s == s;
    if Free(s, sep) {
      SplitFree(s, sep, "");
    }
  }

  /** `t` is a suffix of `u`. */
  predicate IsSuffix(t: string, u: string)
  {
    |t| <= |u| && t == u[|u| - |t|..]
  }

  lemma SuffixOfSuffix(t: string, u: string, v: string)
    requires IsSuffix(t, u) && IsSuffix(u, v)
    ensures IsSuffix(t, v)
  {
    assert v[|v| - |u|..][|u| - |t|..] == v[|v| - |t|..];
  }

  /** The last piece is a suffix of the whole. */
  lemma {:induction false} LastPieceOfSplit(s: string, sep: string, cur: string)
    requires |sep| > 0
    ensures var pieces := Split(s, sep, cur); IsSuffix(pieces[|pieces| - 1], cur + s)
    decreases |s|
  {
    if |s| < |sep| {
      assert (cur + s)[0..] == cur + s;
    } else if s[..|sep|] == sep {
      var t := s[|sep|..];
      LastPieceOfSplit(t, sep, "");
      assert "" + t == t;
      assert IsSuffix(t, cur + s) by {
        assert (cur + s)[|cur + s| - |t|..] == t;
      }
      var pieces := Split(t, sep, "");
      SuffixOfSuffix(pieces[|pieces| - 1], t, cur + s);
    } else {
      LastPieceOfSplit(s[1..], sep, cur + [s[0]]);
      assert cur + [s[0]] + s[1..] == cur + s;
    }
  }

  /** `sep` occurs in `s` starting at index `i`. */
  predicate StartsAt(s: string, sep: string, i: nat)
  {
    i + |sep| <= |s| && s[i..i + |sep|] == sep
  }

  /** `sep` starts at no position of `s`. */
  predicate Free(s: string, sep: string)
  {
    forall i: nat :: i < |s| ==> !StartsAt(s, sep, i)
  }

  lemma {:induction false} SplitFree(s: string, sep: string, cur: string)
    requires |sep| > 0 && Free(s, sep)
    ensures Split(s, sep, cur) == [cur + s]
    decreases |s|
  {
    if |s| >= |sep| {
      assert !StartsAt(s, sep, 0);
      assert s[..|sep|] != sep;
      assert Free(s[1..], sep) by {
        forall i: nat | i < |s[1..]|
          ensures !StartsAt(s[1..], sep, i)
        {
          assert !StartsAt(s, sep, i + 1);
          if i + |sep| <= |s[1..]| {
            assert s[1..][i..i + |sep|] == s[i + 1..i + 1 + |sep|];
          }
        }
      }
      SplitFree(s[1..], sep, cur + [s[0]]);
      assert cur + [s[0]] + s[1..] == cur + s;
    }
  }

  /** Reference definition of a one-character replacement. */
  function Substitute(s: string, a: char, b: char): (r: string)
    ensures |r| == |s|
    ensures forall i :: 0 <= i < |s| ==> r[i] == if s[i] == a then b else s[i]
  {
    if s == [] then [] else [if s[0] == a then b else s[0]] + Substitute(s[1..], a, b)
  }

  lemma {:induction false} ReplaceCharFrom(s: string, a: char, b: char, cur: string)
    ensures Join(Split(s, [a], cur), [b]) == cur + Substitute(s, a, b)
    decreases |s|
  {
    if s == [] {
      assert Split(s, [a], cur) == [cur + s];
      assert cur + s == cur + Substitute(s, a, b);
    } else {
      var tail := Substitute(s[1..], a, b);
      assert Substitute(s, a, b) == [if s[0] == a then b else s[0]] + tail;
      assert s[..1] == [a] <==> s[0] == a;
      if s[0] == a {
        ReplaceCharFrom(s[1..], a, b, "");
        assert Split(s, [a], cur) == [cur] + Split(s[1..], [a], "");
        JoinCons(cur, Split(s[1..], [a], ""), [b]);
        Common.AppendAssoc(cur, [b], tail);
      } else {
        ReplaceCharFrom(s[1..], a, b, cur + [s[0]]);
        assert Split(s, [a], cur) == Split(s[1..], [a], cur + [s[0]]);
        Common.AppendAssoc(cur, [s[0]], tail);
      }
    }
  }

  /** `c` does not occur in `s`. */
  predicate Lacks(s: string, c: char)
  {
    forall i :: 0 <= i < |s| ==> s[i] != c
  }

  lemma {:induction false} SplitPairFrom(a: string, b: string, c: char, cur: string)
    requires Lacks(a, c) && Lacks(b, c)
    ensures Split(a + [c] + b, [c], cur) == [cur + a, b]
    decreases |a|
  {
    var s := a + [c] + b;
    assert Free(b, [c]) by {
      forall i: nat | i < |b| ensures !StartsAt(b, [c], i) {
        assert b[i..i + 1] == [b[i]];
      }
    }
    if a == [] {
      assert s[..1] == [c] && s[1..] == b;
      SplitFree(b, [c], "");
      assert "" + b == b && cur + a == cur;
    } else {
      assert s[..1] == [a[0]] && s[1..] == a[1..] + [c] + b;
      SplitPairFrom(a[1..], b, c, cur + [a[0]]);
      assert cur + [a[0]] + a[1..] == cur + a;
    }
  }

  /** Splitting at the only separator character gives the two sides. */
  lemma SplitPair(a: string, b: string, c: char)
    requires Lacks(a, c) && Lacks(b, c)
    ensures Split(a + [c] + b, [c], "") == [a, b]
  {
    SplitPairFrom(a, b, c, "");
    assert "" + a == a;
  }
}

=== FILE: roundtrip.dfy ===
/** Reading back what the intended writer produces: `__read`
    (archive.py:221-342) applied to the output of `__write`
    (archive.py:343-440) with every payload padded gives back each file's
    data and compression, and its path as `XBFile` stores it after the
    reader has cut it at the last `..\`. */
module XbRoundTrip {
  import opened Common
  import Streams
  import Utility
  import Lzs
  import Paths
  import opened XbFormat
  import opened XbRead
  import opened XbWrite

  function PathsOf(files: seq<XbFile>): (r: seq<string>)
    ensures |r| == |files| && forall i :: 0 <= i < |files| ==> r[i] == files[i].path
  {
    seq(|files|, i requires 0 <= i < |files| => files[i].path)
  }

  /** The files as the reader rebuilds them. */
  function Reopened(files: seq<XbFile>): (r: seq<XbFile>)
    ensures |r| == |files|
    ensures forall i :: 0 <= i < |files| ==>
              r[i] == XbFile(Restored(files[i].path), files[i].data, files[i].compression)
  {
    seq(|files|, i requires 0 <= i < |files| => XbFile(Restored(files[i].path), files[i].data, files[i].compression))
  }

  // ---------------------------------------------------------------------
  // Bytes in place
  // ---------------------------------------------------------------------

  lemma PlacedAt(q: seq<Byte>, x: seq<Byte>, rest: seq<Byte>)
    ensures Lzs.At(q + x + rest, |q|, x)
  {
    assert (q + x + rest)[|q|..|q| + |x|] == x;
  }

  /** The two halves of what sits at `ip`. */
  lemma AtSplit(buf: seq<Byte>, ip: nat, x: seq<Byte>, y: seq<Byte>, mid: nat)
    requires Lzs.At(buf, ip, x + y) && mid == ip + |x|
    ensures Lzs.At(buf, ip, x) && Lzs.At(buf, mid, y)
  {
    Lzs.SubSlice(buf, ip, ip + |x + y|, 0, |x|);
    Lzs.SubSlice(buf, ip, ip + |x + y|, |x|, |x + y|);
    assert (x + y)[..|x|] == x && (x + y)[|x|..] == y;
  }

  /** A u32 in place reads back. */
  lemma ReadU32At(buf: seq<Byte>, pos: nat, v: nat, e: Streams.Endian)
    requires v < 0x1_0000_0000
    requires Streams.IntToBytes(v, 4, e, false).Ok? && Lzs.At(buf, pos, Streams.IntToBytes(v, 4, e, false).value)
    ensures Streams.ReadU32(buf, pos, e).Ok? && Streams.ReadU32(buf, pos, e).value.0 == v && Streams.ReadU32(buf, pos, e).value.1 == pos + 4
  {
    var w := Streams.IntToBytes(v, 4, e, false).value;
    assert Streams.ReadSpec(buf, pos, 4) == Ok((w, pos + 4));
    Streams.IntRoundTrip(v, 4, e, false);
  }

  /** Literal chunks in place decode to the bytes they carry. */
  lemma ChunksAt(buf: seq<Byte>, ip: nat, data: seq<Byte>)
    requires Lzs.At(buf, ip, Lzs.Chunks(data))
    ensures Lzs.Decoded(buf, ip, |data|) == Ok(data)
  {
    ChunksDecodeZeros(buf, ip, data);
  }

  /** The decoder loop from a fresh zero-filled output. */
  lemma ChunksDecodeZeros(buf: seq<Byte>, ip: nat, data: seq<Byte>)
    requires Lzs.At(buf, ip, Lzs.Chunks(data))
    ensures Lzs.DecodeFrom(buf, ip, Zeros(|data|), 0) == Ok(data)
  {
    var z := Zeros(|data|);
    assert z[..0] + data == data;
    Lzs.ChunksDecode(buf, ip, z, 0, data);
  }

  /** Each chunk adds a control byte. */
  lemma {:induction false} ChunksLonger(data: seq<Byte>)
    ensures |Lzs.Chunks(data)| >= |data|
    ensures data != [] ==> |Lzs.Chunks(data)| > |data|
    decreases |data|
  {
    if data != [] {
      Lzs.ChunksUnfold(data);
      ChunksLonger(data[Min(|data|, 64)..]);
    }
  }

  /** A record is longer than the data it holds. */
  lemma RecordLonger(f: XbFile)
    requires Writable(f)
    ensures |f.data| < RecordSize(f)
  {
    ChunksLonger(f.data);
  }

  /** A padded payload starts with what was padded. */
  lemma PaddedAt(buf: seq<Byte>, ip: nat, packed: seq<Byte>)
    requires Lzs.At(buf, ip, Aligned(packed, true))
    ensures Lzs.At(buf, ip, packed)
  {
    var payload := Aligned(packed, true);
    assert payload == packed + payload[|packed|..];
    AtSplit(buf, ip, packed, payload[|packed|..], ip + |packed|);
  }

  // ---------------------------------------------------------------------
  // The FST
  // ---------------------------------------------------------------------

  /** The FST half of a pass is the length word and the packed word. */
  lemma FstRecordBytesValue(length: nat, offset: nat, c: Compression, payloadSize: nat, e: Streams.Endian)
    requires FstRecordBytes(length, offset, c, payloadSize, e).Ok?
    ensures length < 0x1_0000_0000 && offset % 4 == 0 && offset / 4 < OFFSET_MASK
    ensures PackWord(offset, Code(c)) < 0x1_0000_0000
    ensures Streams.IntToBytes(length, 4, e, false).Ok?
    ensures Streams.IntToBytes(PackWord(offset, Code(c)), 4, e, false).Ok?
    ensures FstRecordBytes(length, offset, c, payloadSize, e).value
            == Streams.IntToBytes(length, 4, e, false).value
               + Streams.IntToBytes(PackWord(offset, Code(c)), 4, e, false).value
  {
    Streams.U32Fits(length, e);
    UnpackPack(offset, Code(c));
  }

  /** One FST record reads back as the entry it was written from. */
  lemma FstRecordReadBack(buf: seq<Byte>, pos: nat, length: nat, offset: nat, c: Compression, payloadSize: nat, e: Streams.Endian)
    requires FstRecordBytes(length, offset, c, payloadSize, e).Ok?
    requires Lzs.At(buf, pos, FstRecordBytes(length, offset, c, payloadSize, e).value)
    requires length < |buf| && offset < |buf|
    ensures FstRecord(buf, pos, e) == Ok((FstEntry(length, offset, c), pos + 8))
  {
    FstRecordBytesValue(length, offset, c, payloadSize, e);
    var word := PackWord(offset, Code(c));
    var a := Streams.IntToBytes(length, 4, e, false).value;
    var b := Streams.IntToBytes(word, 4, e, false).value;
    AtSplit(buf, pos, a, b, pos + 4);
    ReadU32At(buf, pos, length, e);
    ReadU32At(buf, pos + 4, word, e);
    UnpackPack(offset, Code(c));
    CompressionRoundTrip(c);
  }

  /** The first entry of a layout and the layout behind it. */
  lemma LayoutSplit(files: seq<XbFile>, offset: nat, next: nat)
    requires files != [] && forall i :: 0 <= i < |files| ==> Writable(files[i])
    requires next == offset + RecordSize(files[0])
    ensures Layout(files, offset) == [FstEntry(|files[0].data|, offset, files[0].compression)] + Layout(files[1..], next)
  {
  }

  /** The first record of a padded section. */
  lemma RecordHead(files: seq<XbFile>, e: Streams.Endian, offset: nat, grows: seq<bool>)
      returns (rec: (seq<Byte>, seq<Byte>, nat), next: nat)
    requires |grows| == |files| && forall i :: 0 <= i < |grows| ==> grows[i]
    requires files != [] && FileSection(files, e, offset, grows).Ok?
    ensures FileRecord(files[0], e, offset, true) == Ok(rec)
    ensures Writable(files[0]) && offset % 4 == 0 && next % 4 == 0
    ensures next == rec.2 == offset + RecordSize(files[0]) == offset + |rec.0|
    ensures rec.1 == FstRecordBytes(|files[0].data|, offset, files[0].compression,
                                    |Aligned(Packed(files[0]).value, true)|, e).value
    ensures FstRecordBytes(|files[0].data|, offset, files[0].compression,
                           |Aligned(Packed(files[0]).value, true)|, e).Ok?
  {
    assert grows[0];
    rec := FileRecord(files[0], e, offset, true).value;
    PaddedStep(files[0], e, offset);
    next := rec.2;
  }

  /** The first record of a padded section, and the section behind it. */
  lemma SectionHead(files: seq<XbFile>, e: Streams.Endian, offset: nat, grows: seq<bool>)
      returns (rec: (seq<Byte>, seq<Byte>, nat), tail: (seq<Byte>, seq<Byte>), next: nat)
    requires |grows| == |files| && forall i :: 0 <= i < |grows| ==> grows[i]
    requires files != [] && FileSection(files, e, offset, grows).Ok?
    ensures FileRecord(files[0], e, offset, true) == Ok(rec)
    ensures Writable(files[0]) && offset % 4 == 0 && next % 4 == 0
    ensures next == rec.2 == offset + RecordSize(files[0]) == offset + |rec.0|
    ensures rec.1 == FstRecordBytes(|files[0].data|, offset, files[0].compression,
                                    |Aligned(Packed(files[0]).value, true)|, e).value
    ensures FstRecordBytes(|files[0].data|, offset, files[0].compression,
                           |Aligned(Packed(files[0]).value, true)|, e).Ok?
    ensures |grows[1..]| == |files[1..]| && forall i :: 0 <= i < |grows[1..]| ==> grows[1..][i]
    ensures FileSection(files[1..], e, next, grows[1..]) == Ok(tail)
    ensures FileSection(files, e, offset, grows).value == (rec.0 + tail.0, rec.1 + tail.1)
    ensures forall i :: 0 <= i < |files| ==> Writable(files[i])
    ensures Layout(files, offset) == [FstEntry(|files[0].data|, offset, files[0].compression)] + Layout(files[1..], next)
  {
    rec, next := RecordHead(files, e, offset, grows);
    tail := FileSection(files[1..], e, next, grows[1..]).value;
    LayoutSplit(files, offset, next);
  }

  /** One step of the FST loop. */
  lemma ReadFstStep(buf: seq<Byte>, pos: nat, e: Streams.Endian, count: nat, entry: FstEntry, rest: seq<FstEntry>, q: nat)
    requires FstRecord(buf, pos, e) == Ok((entry, pos + 8))
    requires ReadFst(buf, pos + 8, e, count).Ok?
    requires ReadFst(buf, pos + 8, e, count).value.0 == rest && ReadFst(buf, pos + 8, e, count).value.1 == q
    ensures ReadFst(buf, pos, e, count + 1).Ok?
    ensures ReadFst(buf, pos, e, count + 1).value.0 == [entry] + rest && ReadFst(buf, pos, e, count + 1).value.1 == q
  {
  }

  /** The first FST record in place reads back, and the rest of the
      section is in place behind it. */
  lemma FstHead(files: seq<XbFile>, e: Streams.Endian, offset: nat, grows: seq<bool>, buf: seq<Byte>, pos: nat)
      returns (next: nat)
    requires |grows| == |files| && forall i :: 0 <= i < |grows| ==> grows[i]
    requires files != [] && FileSection(files, e, offset, grows).Ok?
    requires Lzs.At(buf, pos, FileSection(files, e, offset, grows).value.1)
    requires offset + |FileSection(files, e, offset, grows).value.0| <= |buf|
    ensures FstRecord(buf, pos, e) == Ok((FstEntry(|files[0].data|, offset, files[0].compression), pos + 8))
    ensures |grows[1..]| == |files[1..]| && forall i :: 0 <= i < |grows[1..]| ==> grows[1..][i]
    ensures FileSection(files[1..], e, next, grows[1..]).Ok?
    ensures Lzs.At(buf, pos + 8, FileSection(files[1..], e, next, grows[1..]).value.1)
    ensures next + |FileSection(files[1..], e, next, grows[1..]).value.0| <= |buf|
    ensures Layout(files, offset) == [FstEntry(|files[0].data|, offset, files[0].compression)] + Layout(files[1..], next)
  {
    var f := files[0];
    var rec, tail;
    rec, tail, next := SectionHead(files, e, offset, grows);
    RecordLonger(f);
    AtSplit(buf, pos, rec.1, tail.1, pos + 8);
    FstRecordReadBack(buf, pos, |f.data|, offset, f.compression, |Aligned(Packed(f).value, true)|, e);
  }

  /** The FST the writer lays down reads back as the layout, record by record. */
  lemma {:induction false} FstReadBack(files: seq<XbFile>, e: Streams.Endian, offset: nat, grows: seq<bool>, buf: seq<Byte>, pos: nat)
    requires |grows| == |files| && forall i :: 0 <= i < |grows| ==> grows[i]
    requires FileSection(files, e, offset, grows).Ok?
    requires Lzs.At(buf, pos, FileSection(files, e, offset, grows).value.1)
    requires offset + |FileSection(files, e, offset, grows).value.0| <= |buf|
    ensures ReadFst(buf, pos, e, |files|).Ok?
    ensures ReadFst(buf, pos, e, |files|).value.0 == Layout(files, offset)
    ensures ReadFst(buf, pos, e, |files|).value.1 == pos + 8 * |files|
    decreases |files|
  {
    if files != [] {
      var next := FstHead(files, e, offset, grows, buf, pos);
      var n := |files[1..]|;
      FstReadBack(files[1..], e, next, grows[1..], buf, pos + 8);
      ReadFstStep(buf, pos, e, n, FstEntry(|files[0].data|, offset, files[0].compression),
                  Layout(files[1..], next), pos + 8 + 8 * n);
      assert n + 1 == |files|;
    }
  }

  // ---------------------------------------------------------------------
  // The string table
  // ---------------------------------------------------------------------

  /** A NUL-terminated ASCII string in place reads back. */
  lemma StringAt(buf: seq<Byte>, pos: nat, path: string)
    requires Streams.Ascii(path) && Lzs.At(buf, pos, Streams.StringBytes(path, -1, true))
    ensures Streams.ReadStringSpec(buf, pos, -1, 0) == Ok((path, pos + |path| + 1))
  {
    var sb := Streams.StringBytes(path, -1, true);
    var before, after := buf[..pos], buf[pos + |sb|..];
    assert buf == before + sb + after;
    Streams.StringRoundTrip(before, path, -1, after);
    Streams.Utf8EncodeAscii(path);
  }

  /** The record's two header bytes agree with the string that follows. */
  lemma NameFieldsMatch(buf: seq<Byte>, pos: nat, pos2: nat, next: nat, path: string)
    requires pos2 == pos + 2 && pos + 1 < |buf| && buf[pos] == |path| && buf[pos + 1] == Hash(path)
    requires Streams.ReadStringSpec(buf, pos2, -1, 0) == Ok((path, next))
    ensures ParseNames(buf, pos) == Cons([path], ParseNames(buf, next))
  {
  }

  /** One string-table record reads back as its path. */
  lemma NameRecordStep(buf: seq<Byte>, pos: nat, path: string, e: Streams.Endian, next: nat)
    requires |path| < 256 && Streams.Ascii(path)
    requires Lzs.At(buf, pos, NameRecord(path, e).value) && next == pos + |NameRecord(path, e).value|
    ensures ParseNames(buf, pos) == Cons([path], ParseNames(buf, next))
  {
    var rec := NameRecord(path, e).value;
    var s := Streams.StringBytes(path, -1, true);
    var head: seq<Byte> := [|path|, Hash(path)];
    assert rec == head + s;
    Streams.Utf8EncodeAscii(path);
    AtSplit(buf, pos, head, s, pos + 2);
    assert buf[pos] == head[0] && buf[pos + 1] == head[1] by {
      assert buf[pos..pos + 2] == head;
    }
    StringAt(buf, pos + 2, path);
    NameFieldsMatch(buf, pos, pos + 2, next, path);
  }

  /** The first record of the table and the table behind it. */
  lemma NamesHead(files: seq<XbFile>, e: Streams.Endian, buf: seq<Byte>, pos: nat) returns (next: nat)
    requires files != [] && NameTable(files, e).Ok?
    requires forall i :: 0 <= i < |files| ==> Streams.Ascii(files[i].path)
    requires Lzs.At(buf, pos, NameTable(files, e).value) && pos + |NameTable(files, e).value| == |buf|
    ensures NameTable(files[1..], e).Ok?
    ensures forall i :: 0 <= i < |files[1..]| ==> Streams.Ascii(files[1..][i].path)
    ensures Lzs.At(buf, next, NameTable(files[1..], e).value) && next + |NameTable(files[1..], e).value| == |buf|
    ensures ParseNames(buf, pos) == Cons([files[0].path], ParseNames(buf, next))
  {
    var path := files[0].path;
    var rec := NameRecord(path, e).value;
    var t' := NameTable(files[1..], e).value;
    assert NameTable(files, e).value == rec + t';
    next := pos + |rec|;
    AtSplit(buf, pos, rec, t', next);
    NameRecordStep(buf, pos, path, e, next);
  }

  /** The whole table reads back as the paths in order. */
  lemma {:induction false} NamesReadBack(files: seq<XbFile>, e: Streams.Endian, buf: seq<Byte>, pos: nat)
    requires NameTable(files, e).Ok?
    requires forall i :: 0 <= i < |files| ==> Streams.Ascii(files[i].path)
    requires Lzs.At(buf, pos, NameTable(files, e).value) && pos + |NameTable(files, e).value| == |buf|
    ensures ParseNames(buf, pos).Ok? && ParseNames(buf, pos).value == PathsOf(files)
    decreases |files|
  {
    if files != [] {
      var next := NamesHead(files, e, buf, pos);
      NamesReadBack(files[1..], e, buf, next);
      PathsSplit(files);
    }
  }

  // ---------------------------------------------------------------------
  // The files
  // ---------------------------------------------------------------------

  /** A compressed record: the two size words, then the chunks. */
  lemma LzRecordReadBack(f: XbFile, e: Streams.Endian, offset: nat, buf: seq<Byte>)
    requires f.compression == LzOnly && f.data != []
    requires FileRecord(f, e, offset, true).Ok? && Lzs.At(buf, offset, FileRecord(f, e, offset, true).value.0)
    ensures Payload(buf, e, FstEntry(|f.data|, offset, LzOnly)) == Ok(f.data)
  {
    var chunks := Lzs.Chunks(f.data);
    LzRecordLayout(f, e, offset, buf, chunks);
    ChunksAt(buf, offset + 8, f.data);
    LzPayload(buf, e, offset, f.data, chunks);
  }

  /** The size words of an LZS record read back, and the chunks follow them. */
  lemma LzRecordLayout(f: XbFile, e: Streams.Endian, offset: nat, buf: seq<Byte>, chunks: seq<Byte>)
    requires f.compression == LzOnly && chunks == Lzs.Chunks(f.data)
    requires FileRecord(f, e, offset, true).Ok? && Lzs.At(buf, offset, FileRecord(f, e, offset, true).value.0)
    ensures Streams.ReadU32(buf, offset, e) == Ok((|f.data|, offset + 4))
    ensures Streams.ReadU32(buf, offset + 4, e) == Ok((|chunks|, offset + 8))
    ensures Lzs.At(buf, offset + 8, chunks)
  {
    var payload := Aligned(chunks, true);
    var sizes := SizeWords(|f.data|, |chunks|, e).value;
    assert FileRecord(f, e, offset, true).value.0 == sizes + payload;
    Streams.U32Fits(|f.data|, e);
    Streams.U32Fits(|chunks|, e);
    var a := Streams.IntToBytes(|f.data|, 4, e, false).value;
    var b := Streams.IntToBytes(|chunks|, 4, e, false).value;
    assert sizes == a + b;
    AtSplit(buf, offset, sizes, payload, offset + 8);
    AtSplit(buf, offset, a, b, offset + 4);
    ReadU32At(buf, offset, |f.data|, e);
    ReadU32At(buf, offset + 4, |chunks|, e);
    PaddedAt(buf, offset + 8, chunks);
  }

  /** An LZS entry whose size words read back and whose chunks decode. */
  lemma LzPayload(buf: seq<Byte>, e: Streams.Endian, offset: nat, data: seq<Byte>, chunks: seq<Byte>)
    requires chunks != []
    requires Streams.ReadU32(buf, offset, e) == Ok((|data|, offset + 4))
    requires Streams.ReadU32(buf, offset + 4, e) == Ok((|chunks|, offset + 8))
    requires Lzs.Decoded(buf, offset + 8, |data|) == Ok(data)
    ensures Payload(buf, e, FstEntry(|data|, offset, LzOnly)) == Ok(data)
  {
  }

  /** An uncompressed record: the data, then padding. */
  lemma RawRecordReadBack(f: XbFile, e: Streams.Endian, offset: nat, buf: seq<Byte>)
    requires f.compression == Uncompressed && f.data != []
    requires FileRecord(f, e, offset, true).Ok? && Lzs.At(buf, offset, FileRecord(f, e, offset, true).value.0)
    ensures Payload(buf, e, FstEntry(|f.data|, offset, Uncompressed)).Ok?
    ensures Payload(buf, e, FstEntry(|f.data|, offset, Uncompressed)).value == f.data
  {
    RawRecordBytes(f, e, offset);
    PaddedAt(buf, offset, f.data);
    RawAt(buf, e, offset, f.data);
  }

  /** An uncompressed record is the padded data alone. */
  lemma RawRecordBytes(f: XbFile, e: Streams.Endian, offset: nat)
    requires f.compression == Uncompressed && FileRecord(f, e, offset, true).Ok?
    ensures FileRecord(f, e, offset, true).value.0 == Aligned(f.data, true)
  {
    assert Packed(f) == Ok(f.data);
    assert [] + Aligned(f.data, true) == Aligned(f.data, true);
  }

  /** Raw bytes in place read back as themselves. */
  lemma RawAt(buf: seq<Byte>, e: Streams.Endian, offset: nat, data: seq<Byte>)
    requires data != [] && Lzs.At(buf, offset, data)
    ensures Payload(buf, e, FstEntry(|data|, offset, Uncompressed)).Ok?
    ensures Payload(buf, e, FstEntry(|data|, offset, Uncompressed)).value == data
  {
    assert Min(offset + |data|, |buf|) == offset + |data|;
  }

  /** One record of the file section reads back as the file, its path as
      the reader restores it. */
  lemma FileReadBack(f: XbFile, e: Streams.Endian, offset: nat, buf: seq<Byte>)
    requires f.data != []
    requires FileRecord(f, e, offset, true).Ok? && Lzs.At(buf, offset, FileRecord(f, e, offset, true).value.0)
    ensures ReadFile(buf, e, FstEntry(|f.data|, offset, f.compression), f.path)
            == Ok(XbFile(Restored(f.path), f.data, f.compression))
  {
    if f.compression == Uncompressed {
      RawRecordReadBack(f, e, offset, buf);
    } else {
      LzRecordReadBack(f, e, offset, buf);
    }
  }

  /** One step of the files loop. */
  lemma ReadFilesStep(buf: seq<Byte>, e: Streams.Endian, entry: FstEntry, fst: seq<FstEntry>, name: string, names: seq<string>,
                      file: XbFile, rest: seq<XbFile>)
    requires |fst| == |names|
    requires ReadFile(buf, e, entry, name).Ok? && ReadFile(buf, e, entry, name).value == file
    requires ReadFiles(buf, e, fst, names).Ok? && ReadFiles(buf, e, fst, names).value == rest
    ensures ReadFiles(buf, e, [entry] + fst, [name] + names).Ok?
    ensures ReadFiles(buf, e, [entry] + fst, [name] + names).value == [file] + rest
  {
    assert ([entry] + fst)[1..] == fst && ([name] + names)[1..] == names;
  }

  /** The first path and the rest. */
  lemma PathsSplit(files: seq<XbFile>)
    requires files != []
    ensures PathsOf(files) == [files[0].path] + PathsOf(files[1..])
  {
  }

  /** The first reopened file and the rest. */
  lemma ReopenedSplit(files: seq<XbFile>)
    requires files != []
    ensures Reopened(files) == [XbFile(Restored(files[0].path), files[0].data, files[0].compression)] + Reopened(files[1..])
  {
  }

  /** The first record of the file section reads back, and the rest of the
      section lies behind it. */
  lemma FirstFileBack(files: seq<XbFile>, e: Streams.Endian, offset: nat, grows: seq<bool>, buf: seq<Byte>) returns (next: nat)
    requires |grows| == |files| && forall i :: 0 <= i < |grows| ==> grows[i]
    requires files != [] && FileSection(files, e, offset, grows).Ok?
    requires Lzs.At(buf, offset, FileSection(files, e, offset, grows).value.0)
    requires files[0].data != []
    ensures ReadFile(buf, e, FstEntry(|files[0].data|, offset, files[0].compression), files[0].path).Ok?
    ensures ReadFile(buf, e, FstEntry(|files[0].data|, offset, files[0].compression), files[0].path).value
            == XbFile(Restored(files[0].path), files[0].data, files[0].compression)
    ensures |grows[1..]| == |files[1..]| && forall i :: 0 <= i < |grows[1..]| ==> grows[1..][i]
    ensures FileSection(files[1..], e, next, grows[1..]).Ok?
    ensures Lzs.At(buf, next, FileSection(files[1..], e, next, grows[1..]).value.0)
    ensures forall i :: 0 <= i < |files| ==> Writable(files[i])
    ensures Layout(files, offset) == [FstEntry(|files[0].data|, offset, files[0].compression)] + Layout(files[1..], next)
  {
    var rec, tail;
    rec, tail, next := SectionHead(files, e, offset, grows);
    AtSplit(buf, offset, rec.0, tail.0, next);
    FileReadBack(files[0], e, offset, buf);
  }

  /** The file section reads back file by file. */
  lemma {:induction false} FilesReadBack(files: seq<XbFile>, e: Streams.Endian, offset: nat, grows: seq<bool>, buf: seq<Byte>)
    requires |grows| == |files| && forall i :: 0 <= i < |grows| ==> grows[i]
    requires FileSection(files, e, offset, grows).Ok?
    requires Lzs.At(buf, offset, FileSection(files, e, offset, grows).value.0)
    requires forall i :: 0 <= i < |files| ==> files[i].data != []
    ensures ReadFiles(buf, e, Layout(files, offset), PathsOf(files)).Ok?
    ensures ReadFiles(buf, e, Layout(files, offset), PathsOf(files)).value == Reopened(files)
    decreases |files|
  {
    if files != [] {
      var f := files[0];
      var next := FirstFileBack(files, e, offset, grows, buf);
      FilesReadBack(files[1..], e, next, grows[1..], buf);
      PathsSplit(files);
      ReopenedSplit(files);
      ReadFilesStep(buf, e, FstEntry(|f.data|, offset, f.compression), Layout(files[1..], next), f.path, PathsOf(files[1..]),
                    XbFile(Restored(f.path), f.data, f.compression), Reopened(files[1..]));
    }
  }

  // ---------------------------------------------------------------------
  // The archive
  // ---------------------------------------------------------------------

  /** An aligned position is where `align(4)` leaves it. */
  lemma AlignedStays(x: nat)
    requires x % 4 == 0
    ensures Utility.AlignInt(x, 4) == Ok(x)
  {
    Utility.AlignIntIsLeast(x, 4, x);
  }

  /** `__read` step by step, given what each step finds. */
  lemma ArchiveOf(buf: seq<Byte>, e: Streams.Endian, n: nat, fst: seq<FstEntry>, p2: nat, table: seq<Byte>, names: seq<string>,
                  result: seq<XbFile>)
    requires Lzs.At(buf, 0, SIGNATURE)
    requires Streams.ReadU32(buf, 4, e).Ok? && Streams.ReadU32(buf, 4, e).value.0 == n && Streams.ReadU32(buf, 4, e).value.1 == 8
    requires ReadFst(buf, 8, e, n).Ok? && ReadFst(buf, 8, e, n).value.0 == fst
    requires ReadFst(buf, 8, e, n).value.1 == p2 && p2 % 4 == 0
    requires Streams.ReadU32(buf, p2, e).Ok? && Streams.ReadU32(buf, p2, e).value.0 == |table| && Streams.ReadU32(buf, p2, e).value.1 == p2 + 4
    requires Streams.ReadU32(buf, p2 + 4, e).Ok? && Streams.ReadU32(buf, p2 + 4, e).value.1 == p2 + 8
    requires Lzs.Decoded(buf, p2 + 8, |table|).Ok? && Lzs.Decoded(buf, p2 + 8, |table|).value == table
    requires ParseNames(table, 0) == Ok(names) && |names| == n
    requires ReadFiles(buf, e, fst, names).Ok? && ReadFiles(buf, e, fst, names).value == result
    ensures Archive(buf, e).Ok? && Archive(buf, e).value == result
  {
    assert Streams.ReadSpec(buf, 0, 4) == Ok((SIGNATURE, 4));
    AlignedStays(p2);
  }

  /** What `Written` produces, section by section. */
  lemma WrittenParts(files: seq<XbFile>, e: Streams.Endian) returns (table: seq<Byte>, fstData: seq<Byte>, filesData: seq<Byte>)
    requires Written(files, e).Ok?
    ensures NameTable(files, e) == Ok(table)
    ensures FileSection(files, e, FirstOffset(|files|, table), AllGrow(|files|)) == Ok((filesData, fstData))
    ensures |Lzs.Chunks(table)| < 0x1_0000_0000 && |files| < 0x1_0000_0000 && |table| < 0x1_0000_0000
    ensures Written(files, e).value
            == SIGNATURE + Streams.IntToBytes(|files|, 4, e, false).value + fstData
               + Streams.IntToBytes(|table|, 4, e, false).value
               + Streams.IntToBytes(|Lzs.Chunks(table)|, 4, e, false).value
               + TableData(table) + filesData
  {
    table := NameTable(files, e).value;
    var sec := FileSection(files, e, FirstOffset(|files|, table), AllGrow(|files|)).value;
    filesData, fstData := sec.0, sec.1;
    Streams.U32Fits(|files|, e);
    Streams.U32Fits(|table|, e);
    Streams.U32Fits(|Lzs.Chunks(table)|, e);
  }

  /** Where the sections of an archive image lie. */
  lemma SectionsAt(out: seq<Byte>, count: seq<Byte>, fstData: seq<Byte>, ds: seq<Byte>, cs: seq<Byte>,
                   strtab: seq<Byte>, filesData: seq<Byte>, p2: nat, start: nat)
    requires out == SIGNATURE + count + fstData + ds + cs + strtab + filesData
    requires |count| == 4 && 8 + |fstData| == p2 && |ds| == 4 && |cs| == 4 && start == p2 + 8 + |strtab|
    ensures |out| == start + |filesData|
    ensures Lzs.At(out, 0, SIGNATURE) && Lzs.At(out, 4, count) && Lzs.At(out, 8, fstData)
    ensures Lzs.At(out, p2, ds) && Lzs.At(out, p2 + 4, cs)
    ensures Lzs.At(out, p2 + 8, strtab) && Lzs.At(out, start, filesData)
  {
    var x1 := SIGNATURE + count;
    var x2 := x1 + fstData;
    var x3 := x2 + ds;
    var x4 := x3 + cs;
    var x5 := x4 + strtab;
    assert Lzs.At(out, 0, out) by { assert out[0..|out|] == out; }
    AtSplit(out, 0, x5, filesData, start);
    AtSplit(out, 0, x4, strtab, p2 + 8);
    AtSplit(out, 0, x3, cs, p2 + 4);
    AtSplit(out, 0, x2, ds, p2);
    AtSplit(out, 0, x1, fstData, 8);
    AtSplit(out, 0, SIGNATURE, count, 4);
  }

  /** Where the sections of `Written` lie. */
  lemma WrittenAt(files: seq<XbFile>, e: Streams.Endian)
      returns (table: seq<Byte>, fstData: seq<Byte>, filesData: seq<Byte>, p2: nat)
    requires Written(files, e).Ok?
    ensures NameTable(files, e) == Ok(table)
    ensures FileSection(files, e, FirstOffset(|files|, table), AllGrow(|files|)) == Ok((filesData, fstData))
    ensures p2 == 8 + 8 * |files|
    ensures var out := Written(files, e).value;
            && |out| == FirstOffset(|files|, table) + |filesData|
            && Lzs.At(out, 0, SIGNATURE)
            && Lzs.At(out, 4, Streams.IntToBytes(|files|, 4, e, false).value)
            && Lzs.At(out, 8, fstData)
            && Lzs.At(out, p2, Streams.IntToBytes(|table|, 4, e, false).value)
            && Lzs.At(out, p2 + 4, Streams.IntToBytes(|Lzs.Chunks(table)|, 4, e, false).value)
            && Lzs.At(out, p2 + 8, TableData(table))
            && Lzs.At(out, FirstOffset(|files|, table), filesData)
    ensures |Lzs.Chunks(table)| < 0x1_0000_0000 && |files| < 0x1_0000_0000 && |table| < 0x1_0000_0000
    ensures Streams.IntToBytes(|files|, 4, e, false).Ok? && Streams.IntToBytes(|table|, 4, e, false).Ok?
    ensures Streams.IntToBytes(|Lzs.Chunks(table)|, 4, e, false).Ok?
  {
    table, fstData, filesData := WrittenParts(files, e);
    p2 := 8 + 8 * |files|;
    SectionsAt(Written(files, e).value, Streams.IntToBytes(|files|, 4, e, false).value, fstData,
               Streams.IntToBytes(|table|, 4, e, false).value,
               Streams.IntToBytes(|Lzs.Chunks(table)|, 4, e, false).value,
               TableData(table), filesData, p2, FirstOffset(|files|, table));
  }

  /** The FST ends on a word boundary. */
  lemma FstEndAligned(n: nat, p: nat)
    requires p == 8 + 8 * n
    ensures p % 4 == 0
  {
    Utility.DivModAddMultiple(0, 2 + 2 * n, 4);
  }

  /** The header words and the string table of an image read back. */
  lemma HeaderReadBack(out: seq<Byte>, e: Streams.Endian, n: nat, table: seq<Byte>, p2: nat)
    requires n < 0x1_0000_0000 && |table| < 0x1_0000_0000 && |Lzs.Chunks(table)| < 0x1_0000_0000
    requires Streams.IntToBytes(n, 4, e, false).Ok? && Streams.IntToBytes(|table|, 4, e, false).Ok?
    requires Streams.IntToBytes(|Lzs.Chunks(table)|, 4, e, false).Ok?
    requires Lzs.At(out, 4, Streams.IntToBytes(n, 4, e, false).value)
    requires Lzs.At(out, p2, Streams.IntToBytes(|table|, 4, e, false).value)
    requires Lzs.At(out, p2 + 4, Streams.IntToBytes(|Lzs.Chunks(table)|, 4, e, false).value)
    requires Lzs.At(out, p2 + 8, TableData(table))
    ensures Streams.ReadU32(out, 4, e).Ok? && Streams.ReadU32(out, 4, e).value.0 == n
    ensures Streams.ReadU32(out, 4, e).value.1 == 8
    ensures Streams.ReadU32(out, p2, e).Ok? && Streams.ReadU32(out, p2, e).value.0 == |table|
    ensures Streams.ReadU32(out, p2, e).value.1 == p2 + 4
    ensures Streams.ReadU32(out, p2 + 4, e).Ok? && Streams.ReadU32(out, p2 + 4, e).value.1 == p2 + 8
    ensures Lzs.Decoded(out, p2 + 8, |table|).Ok? && Lzs.Decoded(out, p2 + 8, |table|).value == table
  {
    WordsAt(out, e, n, table, p2);
    TableAt(out, p2 + 8, table);
  }

  /** The header words of an image read back. */
  lemma WordsAt(out: seq<Byte>, e: Streams.Endian, n: nat, table: seq<Byte>, p2: nat)
    requires n < 0x1_0000_0000 && |table| < 0x1_0000_0000 && |Lzs.Chunks(table)| < 0x1_0000_0000
    requires Streams.IntToBytes(n, 4, e, false).Ok? && Streams.IntToBytes(|table|, 4, e, false).Ok?
    requires Streams.IntToBytes(|Lzs.Chunks(table)|, 4, e, false).Ok?
    requires Lzs.At(out, 4, Streams.IntToBytes(n, 4, e, false).value)
    requires Lzs.At(out, p2, Streams.IntToBytes(|table|, 4, e, false).value)
    requires Lzs.At(out, p2 + 4, Streams.IntToBytes(|Lzs.Chunks(table)|, 4, e, false).value)
    ensures Streams.ReadU32(out, 4, e).Ok? && Streams.ReadU32(out, 4, e).value.0 == n
    ensures Streams.ReadU32(out, 4, e).value.1 == 8
    ensures Streams.ReadU32(out, p2, e).Ok? && Streams.ReadU32(out, p2, e).value.0 == |table|
    ensures Streams.ReadU32(out, p2, e).value.1 == p2 + 4
    ensures Streams.ReadU32(out, p2 + 4, e).Ok? && Streams.ReadU32(out, p2 + 4, e).value.1 == p2 + 8
  {
    ReadU32At(out, 4, n, e);
    SizesAt(out, e, table, p2);
  }

  /** The two size words of the string table read back. */
  lemma SizesAt(out: seq<Byte>, e: Streams.Endian, table: seq<Byte>, p2: nat)
    requires |table| < 0x1_0000_0000 && |Lzs.Chunks(table)| < 0x1_0000_0000
    requires Streams.IntToBytes(|table|, 4, e, false).Ok?
    requires Streams.IntToBytes(|Lzs.Chunks(table)|, 4, e, false).Ok?
    requires Lzs.At(out, p2, Streams.IntToBytes(|table|, 4, e, false).value)
    requires Lzs.At(out, p2 + 4, Streams.IntToBytes(|Lzs.Chunks(table)|, 4, e, false).value)
    ensures Streams.ReadU32(out, p2, e).Ok? && Streams.ReadU32(out, p2, e).value.0 == |table|
    ensures Streams.ReadU32(out, p2, e).value.1 == p2 + 4
    ensures Streams.ReadU32(out, p2 + 4, e).Ok? && Streams.ReadU32(out, p2 + 4, e).value.1 == p2 + 8
  {
    ReadU32At(out, p2, |table|, e);
    ReadU32At(out, p2 + 4, |Lzs.Chunks(table)|, e);
  }

  /** The string table in place decodes to the table. */
  lemma TableAt(out: seq<Byte>, ip: nat, table: seq<Byte>)
    requires Lzs.At(out, ip, TableData(table))
    ensures Lzs.Decoded(out, ip, |table|).Ok? && Lzs.Decoded(out, ip, |table|).value == table
  {
    AtWithinTable(out, ip, table);
    ChunksAt(out, ip, table);
  }

  /** An image whose sections hold what `Written` puts there reads back as
      the files reopened. */
  lemma ImageReadBack(files: seq<XbFile>, e: Streams.Endian, out: seq<Byte>, table: seq<Byte>, fstData: seq<Byte>, filesData: seq<Byte>,
                      p2: nat)
    requires p2 == 8 + 8 * |files|
    requires forall i :: 0 <= i < |files| ==> files[i].data != [] && Streams.Ascii(files[i].path)
    requires NameTable(files, e) == Ok(table)
    requires FileSection(files, e, FirstOffset(|files|, table), AllGrow(|files|)) == Ok((filesData, fstData))
    requires |out| == FirstOffset(|files|, table) + |filesData|
    requires Lzs.At(out, 0, SIGNATURE) && Lzs.At(out, 8, fstData)
    requires Lzs.At(out, FirstOffset(|files|, table), filesData)
    requires Streams.ReadU32(out, 4, e).Ok? && Streams.ReadU32(out, 4, e).value.0 == |files|
    requires Streams.ReadU32(out, 4, e).value.1 == 8
    requires Streams.ReadU32(out, p2, e).Ok? && Streams.ReadU32(out, p2, e).value.0 == |table|
    requires Streams.ReadU32(out, p2, e).value.1 == p2 + 4
    requires Streams.ReadU32(out, p2 + 4, e).Ok? && Streams.ReadU32(out, p2 + 4, e).value.1 == p2 + 8
    requires Lzs.Decoded(out, p2 + 8, |table|).Ok? && Lzs.Decoded(out, p2 + 8, |table|).value == table
    ensures Archive(out, e).Ok? && Archive(out, e).value == Reopened(files)
  {
    var n := |files|;
    var grows := AllGrow(n);
    var start := FirstOffset(n, table);
    FstEndAligned(n, p2);
    assert ReadFst(out, 8, e, n).Ok? && ReadFst(out, 8, e, n).value.0 == Layout(files, start)
           && ReadFst(out, 8, e, n).value.1 == p2 by {
      FstReadBack(files, e, start, grows, out, 8);
    }
    assert ParseNames(table, 0).Ok? && ParseNames(table, 0).value == PathsOf(files) by {
      TableAlone(table);
      NamesReadBack(files, e, table, 0);
    }
    assert ReadFiles(out, e, Layout(files, start), PathsOf(files)).Ok?
           && ReadFiles(out, e, Layout(files, start), PathsOf(files)).value == Reopened(files) by {
      FilesReadBack(files, e, start, grows, out);
    }
    ArchiveOf(out, e, n, Layout(files, start), p2, table, PathsOf(files), Reopened(files));
  }

  /** Writing then reading: every file comes back with its data and its
      compression, its path as the reader restores it. */
  lemma ReadWritten(files: seq<XbFile>, e: Streams.Endian)
    requires Written(files, e).Ok?
    requires forall i :: 0 <= i < |files| ==> files[i].data != [] && Streams.Ascii(files[i].path)
    ensures Archive(Written(files, e).value, e) == Ok(Reopened(files))
  {
    var table, fstData, filesData, p2 := WrittenAt(files, e);
    var out := Written(files, e).value;
    HeaderReadBack(out, e, |files|, table, p2);
    ImageReadBack(files, e, out, table, fstData, filesData, p2);
  }

  lemma AtWithinTable(buf: seq<Byte>, ip: nat, table: seq<Byte>)
    requires Lzs.At(buf, ip, TableData(table))
    ensures Lzs.At(buf, ip, Lzs.Chunks(table))
  {
    var strtab := TableData(table);
    var packed := Lzs.Chunks(table);
    assert strtab == packed + strtab[|packed|..];
    AtSplit(buf, ip, packed, strtab[|packed|..], ip + |packed|);
  }

  lemma TableAlone(table: seq<Byte>)
    ensures Lzs.At(table, 0, table)
  {
    assert table[0..|table|] == table;
  }

  /** Paths without `/` and without the internal prefix come back as they
      were written, so the files come back unchanged. */
  lemma ReadWrittenExact(files: seq<XbFile>, e: Streams.Endian)
    requires Written(files, e).Ok?
    requires forall i :: 0 <= i < |files| ==> files[i].data != [] && Streams.Ascii(files[i].path)
    requires forall i :: 0 <= i < |files| ==> Paths.Free(files[i].path, PREFIX) && Paths.Free(files[i].path, "/")
    ensures Archive(Written(files, e).value, e) == Ok(files)
  {
    ReadWritten(files, e);
    forall i | 0 <= i < |files| ensures Restored(files[i].path) == files[i].path {
      assert StripPrefix(files[i].path) == files[i].path;
    }
    assert Reopened(files) == files;
  }
}

=== FILE: streams.dfy ===
/** The typed byte stream of src/libxb/streams.py: endian-aware integer
    conversion, NUL-terminated strings, and the in-memory `BufferStream`.

    The pure functions below describe one operation on a buffer and a
    cursor; `BufferStream`'s methods are specified by them, and the codecs
    and the archive reader use them directly on (bytes, position) pairs. */
module Streams {
  import opened Common
  import Utility

  datatype Endian = Little | Big

  /** `Stream.__init__`: any endianness other than "<" or ">" is an
      `ArgumentError`. */
  function ParseEndian(s: string): (r: Result<Endian>)
    ensures r.Ok? <==> (s == "<" || s == ">")
    ensures r.Err? ==> r.error == ArgumentError
    ensures r.Ok? ==> (r.value == Little <==> s == "<")
  {
    if s == "<" then Ok(Little) else if s == ">" then Ok(Big) else Err(ArgumentError)
  }

  function Pow256(n: nat): (r: nat)
    ensures r >= 1
  {
    if n == 0 then 1 else 256 * Pow256(n - 1)
  }

  // ---------------------------------------------------------------------
  // int.to_bytes / int.from_bytes
  // ---------------------------------------------------------------------

  /** Little-endian digits of `v` in base 256, `size` of them (high digits dropped). */
  function LeBytes(v: nat, size: nat): (r: seq<Byte>)
    ensures |r| == size
  {
    if size == 0 then [] else [v % 256] + LeBytes(v / 256, size - 1)
  }

  function LeValue(d: seq<Byte>): (v: nat)
    ensures v < Pow256(|d|)
  {
    if d == [] then 0 else d[0] + 256 * LeValue(d[1..])
  }

  function BeBytes(v: nat, size: nat): (r: seq<Byte>)
    ensures |r| == size
  {
    if size == 0 then [] else BeBytes(v / 256, size - 1) + [v % 256]
  }

  function BeValue(d: seq<Byte>): (v: nat)
    ensures v < Pow256(|d|)
  {
    if d == [] then 0 else 256 * BeValue(d[..|d| - 1]) + d[|d| - 1]
  }

  function UBytes(v: nat, size: nat, e: Endian): (r: seq<Byte>)
    ensures |r| == size
  {
    match e
    case Little => LeBytes(v, size)
    case Big => BeBytes(v, size)
  }

  function UValue(d: seq<Byte>, e: Endian): (v: nat)
    ensures v < Pow256(|d|)
  {
    match e
    case Little => LeValue(d)
    case Big => BeValue(d)
  }

  /** The range `int.to_bytes(value, size, signed=...)` accepts. */
  predicate Fits(value: int, size: nat, signed: bool)
  {
    if !signed then 0 <= value < Pow256(size)
    else if size == 0 then value == 0
    else -(Pow256(size) / 2) <= value < Pow256(size) / 2
  }

  /** `Stream.__int2bytes` (streams.py:365-381): two's complement for signed
      values, `OverflowError` for a value that does not fit. */
  function IntToBytes(value: int, size: nat, e: Endian, signed: bool): (r: Result<seq<Byte>>)
    ensures r.Ok? <==> Fits(value, size, signed)
    ensures r.Err? ==> r.error == OverflowError
    ensures r.Ok? ==> |r.value| == size
  {
    if !Fits(value, size, signed) then Err(OverflowError)
    else Ok(UBytes(if value < 0 then value + Pow256(size) else value, size, e))
  }

  /** `Stream.__bytes2int` (streams.py:383-398). */
  function BytesToInt(d: seq<Byte>, e: Endian, signed: bool): (r: int)
    ensures Fits(r, |d|, signed)
  {
    var u := UValue(d, e);
    var P := Pow256(|d|);
    Pow256Even(|d|);
    if signed && |d| > 0 && u >= P / 2 then u - P else u
  }

  /** A positive width has an even range, split evenly by two's complement. */
  lemma Pow256Even(n: nat)
    ensures n > 0 ==> Pow256(n) == 2 * (Pow256(n) / 2)
  {
    if n > 0 {
      assert Pow256(n) == 2 * (128 * Pow256(n - 1));
    }
  }

  lemma {:induction false} LeRoundTrip(v: nat, size: nat)
    requires v < Pow256(size)
    ensures LeValue(LeBytes(v, size)) == v
  {
    if size > 0 {
      var d, q := LeBytes(v, size), v / 256;
      assert q < Pow256(size - 1) by {
        assert v < 256 * Pow256(size - 1);
      }
      assert d[1..] == LeBytes(q, size - 1) && d[0] == v % 256;
      LeRoundTrip(q, size - 1);
      assert LeValue(d) == v % 256 + 256 * q;
    }
  }

  lemma {:induction false} BeRoundTrip(v: nat, size: nat)
    requires v < Pow256(size)
    ensures BeValue(BeBytes(v, size)) == v
  {
    if size > 0 {
      var d, q := BeBytes(v, size), v / 256;
      assert q < Pow256(size - 1) by {
        assert v < 256 * Pow256(size - 1);
      }
      assert d[..|d| - 1] == BeBytes(q, size - 1) && d[|d| - 1] == v % 256;
      BeRoundTrip(q, size - 1);
      assert BeValue(d) == 256 * q + v % 256;
    }
  }

  /** Writing an integer and reading it back with the same endianness and
      signedness gives the integer back. */
  lemma IntRoundTrip(value: int, size: nat, e: Endian, signed: bool)
    requires Fits(value, size, signed)
    ensures BytesToInt(IntToBytes(value, size, e, signed).value, e, signed) == value
  {
    var u := if value < 0 then value + Pow256(size) else value;
    if e == Little { LeRoundTrip(u, size); } else { BeRoundTrip(u, size); }
  }

  /** The two byte orders are mirror images of each other. */
  lemma {:induction false} BeIsReversedLe(v: nat, size: nat)
    ensures forall i :: 0 <= i < size ==> BeBytes(v, size)[i] == LeBytes(v, size)[size - 1 - i]
  {
    if size > 0 {
      BeIsReversedLe(v / 256, size - 1);
    }
  }

  // ---------------------------------------------------------------------
  // Reading and writing bytes at a cursor
  // ---------------------------------------------------------------------

  /** `BufferStream.read(size)` (streams.py:680-695) on a buffer and a
      position: `EOFError` at or past the end, otherwise up to `size` bytes
      (all the rest for -1); a short read near the end is not an error. The
      result pairs the bytes with the new position. A size below -1 takes
      the last branch: Python's slice with its stop before its start is
      empty, and the cursor moves back by `-size`. */
  function ReadSpec(buf: seq<Byte>, pos: nat, size: int): (r: Result<(seq<Byte>, nat)>)
    requires CursorStays(buf, pos, size)
    ensures r.Err? <==> pos >= |buf|
    ensures r.Err? ==> r.error == EndOfFile
    ensures r.Ok? && size >= -1 ==> pos <= r.value.1 <= |buf| && r.value.0 == buf[pos..r.value.1]
    ensures r.Ok? ==> r.value.1 == (if size == -1 then |buf| else Min(pos + size, |buf|))
    ensures r.Ok? && size < -1 ==> r.value == ([], pos + size)
  {
    if pos >= |buf| then Err(EndOfFile)
    else
      var n := if size == -1 then |buf| - pos else size;
      if pos + n >= |buf| then Ok((buf[pos..], |buf|))
      else if n < 0 then Ok(([], pos + n))
      else Ok((buf[pos..pos + n], pos + n))
  }

  /** The sizes whose read leaves the cursor at a position, not below 0:
      every size from -1 up, and a size below -1 that moves the cursor
      back no further than the start (or meets end of file first). */
  predicate CursorStays(buf: seq<Byte>, pos: nat, size: int)
  {
    size >= -1 || pos >= |buf| || pos + size >= 0
  }

  /** A size below -1 reads nothing and moves the cursor back. */
  lemma ReadBackwards(buf: seq<Byte>, pos: nat, size: int)
    requires size < -1 && pos < |buf| && pos + size >= 0
    ensures ReadSpec(buf, pos, size) == Ok(([], pos + size))
    ensures ReadSpec(buf, pos, size).value.1 < pos
  {
  }

  /** `read_u8`/`read_s16`/... : read `size` bytes and convert them. A short
      read converts the bytes it got. */
  function ReadIntSpec(buf: seq<Byte>, pos: nat, size: nat, e: Endian, signed: bool): (r: Result<(int, nat)>)
    ensures r.Err? <==> pos >= |buf|
    ensures r.Ok? && !signed ==> 0 <= r.value.0 < Pow256(size)
  {
    var (d, p) :- ReadSpec(buf, pos, size);
    Pow256Monotone(|d|, size);
    Ok((BytesToInt(d, e, signed), p))
  }

  lemma {:induction false} Pow256Monotone(a: nat, b: nat)
    requires a <= b
    ensures Pow256(a) <= Pow256(b)
  {
    if a < b { Pow256Monotone(a, b - 1); }
  }

  /** `read_u8`: one byte, as a byte. */
  function ReadU8(buf: seq<Byte>, pos: nat): (r: Result<(Byte, nat)>)
    ensures r.Err? <==> pos >= |buf|
    ensures r.Err? ==> r.error == EndOfFile
    ensures r.Ok? ==> r.value == (buf[pos], pos + 1)
  {
    var (v, p) :- ReadIntSpec(buf, pos, 1, Little, false);
    assert buf[pos..p] == [buf[pos]];
    Ok((v as Byte, p))
  }

  /** `read_u16`: two bytes (or the last one) in the stream's byte order. */
  function ReadU16(buf: seq<Byte>, pos: nat, e: Endian): (r: Result<(nat, nat)>)
    ensures r.Err? <==> pos >= |buf|
    ensures r.Err? ==> r.error == EndOfFile
    ensures r.Ok? ==> r.value.0 < 0x1_0000 && pos < r.value.1 <= pos + 2
  {
    var (v, p) :- ReadIntSpec(buf, pos, 2, e, false);
    Ok((v as nat, p))
  }

  /** `read_u32`: four bytes (or the last few) in the stream's byte order. */
  function ReadU32(buf: seq<Byte>, pos: nat, e: Endian): (r: Result<(nat, nat)>)
    ensures r.Err? <==> pos >= |buf|
    ensures r.Err? ==> r.error == EndOfFile
    ensures r.Ok? ==> r.value.0 < 0x1_0000_0000 && pos < r.value.1 <= pos + 4
  {
    var (v, p) :- ReadIntSpec(buf, pos, 4, e, false);
    Ok((v as nat, p))
  }

  /** A value below 256 is written as the single byte it is. */
  lemma OneByte(b: Byte, e: Endian)
    ensures IntToBytes(b, 1, e, false) == Ok([b])
  {
    assert Pow256(1) == 256;
    assert Fits(b, 1, false);
    if e == Little {
      assert LeBytes(b, 1) == [b % 256] + LeBytes(b / 256, 0) == [b];
    } else {
      assert BeBytes(b, 1) == BeBytes(b / 256, 0) + [b % 256] == [b];
    }
  }

  /** Exactly the values below 2^32 fit a u32. */
  lemma U32Fits(v: int, e: Endian)
    ensures IntToBytes(v, 4, e, false).Ok? <==> 0 <= v < 0x1_0000_0000
  {
    assert Pow256(4) == 0x1_0000_0000 by {
      assert Pow256(2) == 65536;
    }
  }

  /** A full four-byte read gives back what `IntToBytes` encoded. */
  lemma ReadU32OfWritten(prefix: seq<Byte>, v: nat, rest: seq<Byte>, e: Endian)
    requires v < 0x1_0000_0000
    ensures IntToBytes(v, 4, e, false).Ok?
    ensures ReadU32(prefix + IntToBytes(v, 4, e, false).value + rest, |prefix|, e)
            == Ok((v, |prefix| + 4))
  {
    var w := IntToBytes(v, 4, e, false).value;
    var buf := prefix + w + rest;
    assert buf[|prefix|..|prefix| + 4] == w;
    IntRoundTrip(v, 4, e, false);
  }

  /** `self._buffer[pos:pos+len(d)] = d; pos += len(d)` (streams.py:711-712):
      Python clamps both slice ends to the length, so a position past the end
      appends at the end. */
  function WriteSpec(buf: seq<Byte>, pos: nat, d: seq<Byte>): (r: (seq<Byte>, nat))
    ensures r.1 == pos + |d|
    ensures pos <= |buf| ==> |r.0| == Max(|buf|, pos + |d|)
    ensures pos <= |buf| ==> forall i :: 0 <= i < |r.0| ==>
              r.0[i] == (if i < pos then buf[i] else if i < pos + |d| then d[i - pos] else buf[i])
    ensures pos >= |buf| ==> r.0 == buf + d
  {
    var lo := Min(pos, |buf|);
    var hi := Min(pos + |d|, |buf|);
    (buf[..lo] + d + buf[hi..], pos + |d|)
  }

  // ---------------------------------------------------------------------
  // Strings
  // ---------------------------------------------------------------------

  /** UTF-8 encoding of one code point (`str.encode("utf-8")`). */
  function Utf8(c: char): (r: seq<Byte>)
    ensures 1 <= |r| <= 4
    ensures (c as int < 0x80) <==> |r| == 1
    ensures |r| == 1 ==> r[0] == c as int
    ensures forall i :: 0 <= i < |r| ==> r[i] != 0 || c == 0 as char
  {
    var v := c as int;
    if v < 0x80 then [v]
    else if v < 0x800 then [0xC0 + v / 64, 0x80 + v % 64]
    else if v < 0x1_0000 then [0xE0 + v / 4096, 0x80 + (v / 64) % 64, 0x80 + v % 64]
    else [0xF0 + v / 0x4_0000, 0x80 + (v / 4096) % 64, 0x80 + (v / 64) % 64, 0x80 + v % 64]
  }

  function Utf8Encode(s: string): (r: seq<Byte>)
    ensures |r| >= |s|
  {
    if s == [] then [] else Utf8(s[0]) + Utf8Encode(s[1..])
  }

  /** An ASCII string encodes to one byte per character. */
  lemma {:induction false} Utf8EncodeAscii(s: string)
    requires forall i :: 0 <= i < |s| ==> s[i] as int < 0x80
    ensures |Utf8Encode(s)| == |s|
    ensures forall i :: 0 <= i < |s| ==> Utf8Encode(s)[i] == s[i] as int
  {
    if s != [] {
      Utf8EncodeAscii(s[1..]);
    }
  }

  /** `s[:e]` with Python's reading of a negative end (counted from the back). */
  function PySliceTo(s: string, e: int): (r: string)
    ensures |r| == (if e >= 0 then Min(e, |s|) else Max(|s| + e, 0))
    ensures r == s[..|r|]
  {
    if e >= 0 then s[..Min(e, |s|)] else s[..Max(|s| + e, 0)]
  }

  /** The characters `write_string` keeps (streams.py:294-297). */
  function TruncateForWrite(s: string, maxlen: int, terminate: bool): (r: string)
    ensures |r| <= |s| && r == s[..|r|]
    ensures maxlen < 0 ==> r == s
    ensures maxlen >= 1 && terminate ==> |r| == Min(|s|, maxlen - 1)
    ensures maxlen >= 0 && !terminate ==> |r| == Min(|s|, maxlen)
  {
    if maxlen >= 0 then PySliceTo(s, maxlen - (if terminate then 1 else 0)) else s
  }

  /** What `write_string` emits: the kept characters as UTF-8, then one 0 byte
      when terminating (streams.py:299-302). An ASCII string takes one byte
      per kept character. */
  function StringBytes(s: string, maxlen: int, terminate: bool): (r: seq<Byte>)
    ensures terminate ==> |r| >= 1 && r[|r| - 1] == 0
    ensures Ascii(s) ==> |r| == |TruncateForWrite(s, maxlen, terminate)| + (if terminate then 1 else 0)
  {
    var kept := TruncateForWrite(s, maxlen, terminate);
    AsciiPrefixEncodes(s, |kept|);
    Utf8Encode(kept) + (if terminate then [0] else [])
  }

  /** An ASCII string's prefix encodes byte for byte. */
  lemma AsciiPrefixEncodes(s: string, k: nat)
    requires k <= |s|
    ensures Ascii(s) ==> |Utf8Encode(s[..k])| == k
  {
    if Ascii(s) {
      AsciiPrefix(s, k);
      Utf8EncodeAscii(s[..k]);
    }
  }

  /** Every character is ASCII and none is NUL: the strings `write_string`
      and `read_string` agree on. */
  predicate Ascii(s: string)
  {
    forall i :: 0 <= i < |s| ==> 0 < s[i] as int < 0x80
  }

  lemma AsciiPrefix(s: string, k: nat)
    requires k <= |s|
    ensures Ascii(s) ==> Ascii(s[..k])
  {
    if Ascii(s) {
      forall i | 0 <= i < k ensures 0 < s[..k][i] as int < 0x80 {
        assert s[..k][i] == s[i];
      }
    }
  }

  /** With a NUL-free string, exactly one 0 byte is written, at the end,
      after the encoding of the characters the limit keeps. */
  lemma {:induction false} StringBytesSingleNul(s: string, maxlen: int)
    requires forall i :: 0 <= i < |s| ==> s[i] != 0 as char
    ensures var b := StringBytes(s, maxlen, true);
            b == Utf8Encode(TruncateForWrite(s, maxlen, true)) + [0]
            && forall i :: 0 <= i < |b| - 1 ==> b[i] != 0
  {
    var kept := TruncateForWrite(s, maxlen, true);
    forall i | 0 <= i < |kept| ensures kept[i] != 0 as char {
      assert kept[i] == s[i];
    }
    Utf8EncodeNoNul(kept);
  }

  lemma {:induction false} Utf8EncodeNoNul(s: string)
    requires forall i :: 0 <= i < |s| ==> s[i] != 0 as char
    ensures forall i :: 0 <= i < |Utf8Encode(s)| ==> Utf8Encode(s)[i] != 0
  {
    if s != [] {
      Utf8EncodeNoNul(s[1..]);
      var h, t := Utf8(s[0]), Utf8Encode(s[1..]);
      assert Utf8Encode(s) == h + t;
      forall i | 0 <= i < |h + t| ensures (h + t)[i] != 0 {
        if i >= |h| { assert (h + t)[i] == t[i - |h|]; }
      }
    }
  }

  /** `maxlen=0` with termination slices `s[:-1]`: all but the last character
      survive, although at most zero characters were asked for. */
  lemma TruncateZeroMaxlenKeepsAllButLast()
    ensures TruncateForWrite("abc", 0, true) == "ab"
  {
  }

  /** The evidently intended truncation: never more than `maxlen` minus the
      terminator's place, never a negative slice end. */
  function TruncateCapped(s: string, maxlen: int, terminate: bool): (r: string)
    ensures |r| <= |s| && r == s[..|r|]
    ensures maxlen >= 0 ==> |r| == Min(|s|, Max(maxlen - (if terminate then 1 else 0), 0))
    ensures maxlen < 0 ==> r == s
  {
    if maxlen >= 0 then s[..Min(|s|, Max(maxlen - (if terminate then 1 else 0), 0))] else s
  }

  /** The capped truncation keeps the written string (terminator included)
      within `maxlen` characters whenever that is possible, and agrees with the
      code as written for every `maxlen` except the terminated `maxlen == 0`. */
  lemma TruncateCappedRespectsMaxlen(s: string, maxlen: int, terminate: bool)
    requires maxlen >= (if terminate then 1 else 0)
    ensures |TruncateCapped(s, maxlen, terminate)| + (if terminate then 1 else 0) <= maxlen
    ensures TruncateCapped(s, maxlen, terminate) == TruncateForWrite(s, maxlen, terminate)
  {
  }

  /** One byte as `bytes.decode("utf-8")` sees it on its own. */
  function DecodeByte(b: Byte): (r: Result<char>)
    ensures r.Ok? <==> b < 0x80
    ensures r.Ok? ==> r.value as int == b
  {
    if b < 0x80 then Ok(b as char) else Err(UnicodeDecodeError)
  }

  /** `read_string(maxlen)` (streams.py:267-281) from `pos`, `count`
      characters already read: stop at the end of the buffer or after
      `maxlen` characters (never for -1); a 0 byte ends the string and is
      consumed. Each byte is decoded on its own. */
  function ReadStringSpec(buf: seq<Byte>, pos: nat, maxlen: int, count: nat): (r: Result<(string, nat)>)
    ensures r.Ok? ==> pos <= r.value.1
    ensures r.Ok? && pos <= |buf| ==> r.value.1 <= |buf|
    ensures r.Err? ==> r.error == UnicodeDecodeError
    decreases |buf| - pos
  {
    if !(count < maxlen || maxlen == -1) || pos >= |buf| then Ok(("", pos))
    else if buf[pos] == 0 then Ok(("", pos + 1))
    else
      var c :- DecodeByte(buf[pos]);
      var (rest, p) :- ReadStringSpec(buf, pos + 1, maxlen, count + 1);
      Ok(([c] + rest, p))
  }

  function Prepend(s: string, r: Result<(string, nat)>): Result<(string, nat)>
  {
    match r
    case Ok((t, p)) => Ok((s + t, p))
    case Err(e) => Err(e)
  }

  predicate Printable(d: seq<Byte>)
  {
    forall i :: 0 <= i < |d| ==> 0 < d[i] < 0x80
  }

  function AsciiString(d: seq<Byte>): (s: string)
    requires Printable(d)
    ensures |s| == |d| && forall i :: 0 <= i < |d| ==> s[i] as int == d[i]
  {
    if d == [] then "" else [d[0] as char] + AsciiString(d[1..])
  }

  lemma PrependPrepend(a: string, b: string, r: Result<(string, nat)>)
    ensures Prepend(a, Prepend(b, r)) == Prepend(a + b, r)
  {
    match r
    case Ok((t, p)) => assert a + (b + t) == (a + b) + t;
    case Err(_) =>
  }

  lemma PrependEmpty(r: Result<(string, nat)>)
    ensures Prepend("", r) == r
  {
    match r
    case Ok((t, p)) => assert "" + t == t;
    case Err(_) =>
  }

  /** Reading `k` non-NUL ASCII bytes contributes exactly those characters. */
  lemma {:induction false} ReadStringPrefix(buf: seq<Byte>, pos: nat, maxlen: int, count: nat, k: nat)
    requires pos + k <= |buf| && Printable(buf[pos..pos + k])
    requires maxlen == -1 || count + k <= maxlen
    ensures ReadStringSpec(buf, pos, maxlen, count)
            == Prepend(AsciiString(buf[pos..pos + k]), ReadStringSpec(buf, pos + k, maxlen, count + k))
    decreases k
  {
    if k == 0 {
      PrependEmpty(ReadStringSpec(buf, pos, maxlen, count));
    } else {
      PrintableHead(buf, pos, k);
      ReadStringPrefix(buf, pos + 1, maxlen, count + 1, k - 1);
      ReadStringHead(buf, pos, maxlen, count);
      PrependPrepend([buf[pos] as char], AsciiString(buf[pos + 1..pos + k]),
                     ReadStringSpec(buf, pos + k, maxlen, count + k));
    }
  }

  /** A printable run splits into its first character and a printable rest. */
  lemma PrintableHead(buf: seq<Byte>, pos: nat, k: nat)
    requires 0 < k && pos + k <= |buf| && Printable(buf[pos..pos + k])
    ensures 0 < buf[pos] < 0x80 && Printable(buf[pos + 1..pos + k])
    ensures AsciiString(buf[pos..pos + k]) == [buf[pos] as char] + AsciiString(buf[pos + 1..pos + k])
  {
    var w := buf[pos..pos + k];
    assert w[0] == buf[pos];
    assert w[1..] == buf[pos + 1..pos + k];
  }

  /** One step of the reader over a printable character. */
  lemma ReadStringHead(buf: seq<Byte>, pos: nat, maxlen: int, count: nat)
    requires pos < |buf| && 0 < buf[pos] < 0x80
    requires maxlen == -1 || count < maxlen
    ensures ReadStringSpec(buf, pos, maxlen, count)
            == Prepend([buf[pos] as char], ReadStringSpec(buf, pos + 1, maxlen, count + 1))
  {
  }

  /** `read_string()` returns the characters before the first NUL and leaves
      the cursor just past it. */
  lemma ReadStringUntilNul(buf: seq<Byte>, pos: nat, k: nat)
    requires pos + k < |buf| && Printable(buf[pos..pos + k]) && buf[pos + k] == 0
    ensures ReadStringSpec(buf, pos, -1, 0) == Ok((AsciiString(buf[pos..pos + k]), pos + k + 1))
  {
    ReadStringPrefix(buf, pos, -1, 0, k);
    assert AsciiString(buf[pos..pos + k]) + "" == AsciiString(buf[pos..pos + k]);
  }

  /** With a limit, reading stops after `maxlen` characters without consuming a NUL. */
  lemma ReadStringStopsAtMaxlen(buf: seq<Byte>, pos: nat, maxlen: nat)
    requires pos + maxlen <= |buf| && Printable(buf[pos..pos + maxlen])
    ensures ReadStringSpec(buf, pos, maxlen, 0) == Ok((AsciiString(buf[pos..pos + maxlen]), pos + maxlen))
  {
    ReadStringPrefix(buf, pos, maxlen, 0, maxlen);
    assert AsciiString(buf[pos..pos + maxlen]) + "" == AsciiString(buf[pos..pos + maxlen]);
  }

  /** A string written by `write_string` with a terminator (ASCII, no NUL)
      is read back by `read_string()` as the characters the limit kept. */
  lemma StringRoundTrip(prefix: seq<Byte>, s: string, maxlen: int, rest: seq<Byte>)
    requires Ascii(s)
    ensures var kept := TruncateForWrite(s, maxlen, true);
            ReadStringSpec(prefix + StringBytes(s, maxlen, true) + rest, |prefix|, -1, 0)
            == Ok((kept, |prefix| + |kept| + 1))
  {
    var kept := TruncateForWrite(s, maxlen, true);
    AsciiPrefix(s, |kept|);
    Utf8EncodeAscii(kept);
    var enc := Utf8Encode(kept);
    assert StringBytes(s, maxlen, true) == enc + [0];
    var buf := prefix + (enc + [0]) + rest;
    assert buf == prefix + StringBytes(s, maxlen, true) + rest;
    var n := |prefix|;
    assert buf[n..n + |kept|] == enc by {
      forall i | 0 <= i < |kept| ensures buf[n..n + |kept|][i] == enc[i] {
        assert buf[n + i] == (enc + [0])[i];
      }
    }
    assert buf[n + |kept|] == (enc + [0])[|kept|];
    ReadStringUntilNul(buf, n, |kept|);
    assert AsciiString(enc) == kept;
  }

  /** Without a terminator, `write_string(s, maxlen)` of a string at least
      `maxlen` long is read back by `read_string(maxlen)`. */
  lemma StringRoundTripUnterminated(prefix: seq<Byte>, s: string, maxlen: nat, rest: seq<Byte>)
    requires Ascii(s) && maxlen <= |s|
    ensures ReadStringSpec(prefix + StringBytes(s, maxlen, false) + rest, |prefix|, maxlen, 0)
            == Ok((s[..maxlen], |prefix| + maxlen))
  {
    var kept := TruncateForWrite(s, maxlen, false);
    assert kept == s[..maxlen];
    AsciiPrefix(s, maxlen);
    Utf8EncodeAscii(kept);
    var enc := Utf8Encode(kept);
    assert StringBytes(s, maxlen, false) == enc;
    var buf := prefix + enc + rest;
    var n := |prefix|;
    assert buf[n..n + maxlen] == enc by {
      forall i | 0 <= i < maxlen ensures buf[n..n + maxlen][i] == enc[i] {
        assert buf[n + i] == enc[i];
      }
    }
    ReadStringStopsAtMaxlen(buf, n, maxlen);
    assert AsciiString(enc) == kept;
  }

  // ---------------------------------------------------------------------
  // BufferStream
  // ---------------------------------------------------------------------

  datatype SeekDir = Begin | Current | End

  /** The target of `seek(origin, offset)`: the offset counted from the
      start, the cursor or the end. */
  function SeekTarget(origin: SeekDir, offset: int, pos: nat, length: nat): (r: int)
    ensures offset <= r
    ensures origin == Begin ==> r == offset
  {
    match origin
    case Begin => offset
    case Current => pos + offset
    case End => length + offset
  }

  /** A method that reads at the cursor either moves it to the position the
      specification gives together with the value, or fails and leaves it. */
  predicate Follows<T(==)>(r: Result<T>, newPos: nat, spec: Result<(T, nat)>, oldPos: nat)
  {
    match spec
    case Ok((v, p)) => r == Ok(v) && newPos == p
    case Err(e) => r == Err(e) && newPos == oldPos
  }

  /** The value part of a read's specification; a failed read leaves the
      cursor wherever the bytes it consumed took it. */
  function ValueOf<T>(spec: Result<(T, nat)>): Result<T>
  {
    match spec
    case Ok((v, _)) => Ok(v)
    case Err(e) => Err(e)
  }

  /** `BufferStream` (streams.py:643-839): a byte buffer with a cursor.
      `isOpen` is false once `close` has dropped the buffer; every operation
      on a closed stream raises `OperationError`. */
  class BufferStream {
    var buffer: seq<Byte>
    var pos: nat
    var endian: Endian
    var isOpen: bool

    /** `BufferStream(endian, buffer)`; `None` or an empty buffer both start
        from an empty `bytearray`. The endianness string has been checked by
        `ParseEndian`. */
    constructor (endian: Endian, init: seq<Byte>)
      ensures isOpen && buffer == init && pos == 0 && this.endian == endian
    {
      this.endian := endian;
      buffer := init;
      pos := 0;
      isOpen := true;
    }

    /** `open(buffer, endian)`: a new buffer, cursor at 0. */
    method Open(init: seq<Byte>, endian: Endian)
      modifies this
      ensures isOpen && buffer == init && pos == 0 && this.endian == endian
    {
      buffer := init;
      this.endian := endian;
      pos := 0;
      isOpen := true;
    }

    /** `close()`: the buffer is dropped and the cursor reset. */
    method Close()
      modifies this
      ensures !isOpen && pos == 0 && buffer == [] && endian == old(endian)
    {
      buffer := [];
      pos := 0;
      isOpen := false;
    }

    method Read(size: int) returns (r: Result<seq<Byte>>)
      requires CursorStays(buffer, pos, size)
      modifies this
      ensures buffer == old(buffer) && endian == old(endian) && isOpen == old(isOpen)
      ensures !old(isOpen) ==> r == Err(OperationError) && pos == old(pos)
      ensures old(isOpen) ==> Follows(r, pos, ReadSpec(old(buffer), old(pos), size), old(pos))
    {
      if !isOpen {
        return Err(OperationError);
      }
      if pos >= |buffer| {
        return Err(EndOfFile);
      }
      var n := if size == -1 then |buffer| - pos else size;
      if pos + n >= |buffer| {
        r := Ok(buffer[pos..]);
        pos := |buffer|;
      } else if n < 0 {
        r := Ok([]);
        pos := pos + n;
      } else {
        r := Ok(buffer[pos..pos + n]);
        pos := pos + n;
      }
    }

    method Write(d: seq<Byte>) returns (o: Outcome)
      modifies this
      ensures endian == old(endian) && isOpen == old(isOpen)
      ensures !old(isOpen) ==> o == Fail(OperationError) && buffer == old(buffer) && pos == old(pos)
      ensures old(isOpen) ==> o == Pass && (buffer, pos) == WriteSpec(old(buffer), old(pos), d)
    {
      if !isOpen {
        return Fail(OperationError);
      }
      var lo := Min(pos, |buffer|);
      var hi := Min(pos + |d|, |buffer|);
      buffer := buffer[..lo] + d + buffer[hi..];
      pos := pos + |d|;
      o := Pass;
    }

    method Eof() returns (r: Result<bool>)
      ensures !isOpen ==> r == Err(OperationError)
      ensures isOpen ==> r == Ok(pos >= |buffer|)
    {
      if !isOpen {
        return Err(OperationError);
      }
      return Ok(pos >= |buffer|);
    }

    /** `seek(origin, offset)`. Positions below 0 are not modelled. */
    method Seek(origin: SeekDir, offset: int) returns (o: Outcome)
      requires SeekTarget(origin, offset, pos, |buffer|) >= 0
      modifies this
      ensures buffer == old(buffer) && endian == old(endian) && isOpen == old(isOpen)
      ensures !old(isOpen) ==> o == Fail(OperationError) && pos == old(pos)
      ensures old(isOpen) ==> o == Pass && pos == SeekTarget(origin, offset, old(pos), |old(buffer)|)
    {
      if !isOpen {
        return Fail(OperationError);
      }
      pos := SeekTarget(origin, offset, pos, |buffer|);
      o := Pass;
    }

    method Tell() returns (r: Result<nat>)
      ensures r == if isOpen then Ok(pos) else Err(OperationError)
    {
      if !isOpen {
        return Err(OperationError);
      }
      return Ok(pos);
    }

    method Length() returns (r: Result<nat>)
      ensures r == if isOpen then Ok(|buffer|) else Err(OperationError)
    {
      if !isOpen {
        return Err(OperationError);
      }
      return Ok(|buffer|);
    }

    /** `result()`: the built buffer. */
    method Contents() returns (r: Result<seq<Byte>>)
      ensures r == if isOpen then Ok(buffer) else Err(OperationError)
    {
      if !isOpen {
        return Err(OperationError);
      }
      return Ok(buffer);
    }

    /** `write_padding(size)` (streams.py:360-363). */
    method WritePadding(size: int) returns (o: Outcome)
      modifies this
      ensures endian == old(endian) && isOpen == old(isOpen)
      ensures size < 0 ==> o == Fail(ArgumentError) && buffer == old(buffer) && pos == old(pos)
      ensures size >= 0 && !old(isOpen) ==> o == Fail(OperationError) && buffer == old(buffer) && pos == old(pos)
      ensures size >= 0 && old(isOpen) ==> o == Pass && (buffer, pos) == WriteSpec(old(buffer), old(pos), Zeros(size))
    {
      if size < 0 {
        return Fail(ArgumentError);
      }
      o := Write(Zeros(size));
    }

    /** `align(alignment)` (streams.py:776-788): inside the buffer only the
        cursor moves; at or past the end the gap is written as zero bytes. */
    method Align(alignment: int) returns (o: Outcome)
      modifies this
      ensures endian == old(endian) && isOpen == old(isOpen)
      ensures alignment < 0 ==> o == Fail(ArgumentError) && buffer == old(buffer) && pos == old(pos)
      ensures alignment >= 0 && !old(isOpen) ==> o == Fail(OperationError) && buffer == old(buffer) && pos == old(pos)
      ensures alignment == 0 && old(isOpen) ==> o == Fail(ZeroDivisionError) && buffer == old(buffer) && pos == old(pos)
      ensures alignment > 0 && old(isOpen) ==>
                o == Pass && pos % alignment == 0 && old(pos) <= pos < old(pos) + alignment
                && pos == Utility.AlignInt(old(pos), alignment).value
      ensures alignment > 0 && old(isOpen) && old(pos) < |old(buffer)| ==> buffer == old(buffer)
      ensures alignment > 0 && old(isOpen) && old(pos) >= |old(buffer)| ==>
                buffer == old(buffer) + Zeros(pos - old(pos))
    {
      if alignment < 0 {
        return Fail(ArgumentError);
      }
      if !isOpen {
        return Fail(OperationError);
      }
      var aligned := Utility.AlignInt(pos, alignment);
      if aligned.Err? {
        return Fail(aligned.error);
      }
      var remain := aligned.value - pos;
      if remain == 0 {
        if pos >= |buffer| {
          assert Zeros(0) == [] && buffer + [] == buffer;
        }
        return Pass;
      }
      if pos < |buffer| {
        pos := pos + remain;
        o := Pass;
      } else {
        o := WritePadding(remain);
      }
    }

    /** `read_u8` ... `read_s32`: `size` bytes converted in this stream's order. */
    method ReadInt(size: nat, signed: bool) returns (r: Result<int>)
      modifies this
      ensures buffer == old(buffer) && endian == old(endian) && isOpen == old(isOpen)
      ensures !old(isOpen) ==> r == Err(OperationError) && pos == old(pos)
      ensures old(isOpen) ==> Follows(r, pos, ReadIntSpec(old(buffer), old(pos), size, endian, signed), old(pos))
    {
      var d := Read(size);
      if d.Err? {
        return Err(d.error);
      }
      r := Ok(BytesToInt(d.value, endian, signed));
    }

    /** `write_u8` ... `write_s32`: the conversion fails first for a value
        out of range, then the write fails on a closed stream. */
    method WriteInt(value: int, size: nat, signed: bool) returns (o: Outcome)
      modifies this
      ensures endian == old(endian) && isOpen == old(isOpen)
      ensures !Fits(value, size, signed) ==> o == Fail(OverflowError) && buffer == old(buffer) && pos == old(pos)
      ensures Fits(value, size, signed) && !old(isOpen) ==> o == Fail(OperationError) && buffer == old(buffer) && pos == old(pos)
      ensures Fits(value, size, signed) && old(isOpen) ==>
                o == Pass && (buffer, pos) == WriteSpec(old(buffer), old(pos), IntToBytes(value, size, endian, signed).value)
    {
      var bytes := IntToBytes(value, size, endian, signed);
      if bytes.Err? {
        return Fail(bytes.error);
      }
      o := Write(bytes.value);
    }

    /** `read_string(maxlen)`: one byte at a time until a NUL, the end of the
        buffer or `maxlen` characters. */
    method ReadString(maxlen: int) returns (r: Result<string>)
      modifies this
      ensures buffer == old(buffer) && endian == old(endian) && isOpen == old(isOpen)
      ensures !old(isOpen) && (maxlen > 0 || maxlen == -1) ==> r == Err(OperationError)
      ensures old(isOpen) || !(maxlen > 0 || maxlen == -1) ==>
                r == ValueOf(ReadStringSpec(old(buffer), old(pos), maxlen, 0))
      ensures ReadStringSpec(old(buffer), old(pos), maxlen, 0).Ok? && r.Ok? ==>
                pos == ReadStringSpec(old(buffer), old(pos), maxlen, 0).value.1
    {
      var s := "";
      var i: nat := 0;
      ghost var target := ReadStringSpec(buffer, pos, maxlen, 0);
      PrependEmpty(target);
      while i < maxlen || maxlen == -1
        invariant buffer == old(buffer) && endian == old(endian) && isOpen == old(isOpen)
        invariant old(pos) <= pos
        invariant i == 0 ==> pos == old(pos)
        invariant Prepend(s, ReadStringSpec(buffer, pos, maxlen, i)) == target
        invariant !isOpen ==> i == 0
        decreases if pos <= |buffer| then |buffer| - pos else 0
      {
        var atEnd := Eof();
        if atEnd.Err? {
          return Err(atEnd.error);
        }
        if atEnd.value {
          break;
        }
        ghost var p0 := pos;
        var d := Read(1);
        assert d == Ok(buffer[p0..p0 + 1]) && pos == p0 + 1;
        if d.value[0] == 0 {
          assert s + "" == s;
          return Ok(s);
        }
        var c := DecodeByte(d.value[0]);
        if c.Err? {
          return Err(c.error);
        }
        PrependPrepend(s, [c.value], ReadStringSpec(buffer, pos, maxlen, i + 1));
        s := s + [c.value];
        i := i + 1;
      }
      assert s + "" == s;
      r := Ok(s);
    }

    /** `write_string(string, maxlen, terminate)`. */
    method WriteString(s: string, maxlen: int, terminate: bool) returns (o: Outcome)
      modifies this
      ensures endian == old(endian) && isOpen == old(isOpen)
      ensures !old(isOpen) ==> o == Fail(OperationError) && buffer == old(buffer) && pos == old(pos)
      ensures old(isOpen) ==> o == Pass && (buffer, pos) == WriteSpec(old(buffer), old(pos), StringBytes(s, maxlen, terminate))
    {
      var kept := TruncateForWrite(s, maxlen, terminate);
      o := Write(Utf8Encode(kept));
      if o.Fail? {
        return;
      }
      if terminate {
        ghost var mid := (buffer, pos);
        o := WriteInt(0, 1, false);
        assert IntToBytes(0, 1, endian, false).value == [0] by {
          assert UBytes(0, 1, endian) == [0];
        }
        WriteSpecConcat(old(buffer), old(pos), Utf8Encode(kept), [0]);
      } else {
        assert Utf8Encode(kept) + [] == Utf8Encode(kept);
      }
    }
  }

  /** Two consecutive writes are one write of the concatenation. */
  lemma WriteSpecConcat(buf: seq<Byte>, pos: nat, a: seq<Byte>, b: seq<Byte>)
    ensures var (buf1, pos1) := WriteSpec(buf, pos, a);
            WriteSpec(buf1, pos1, b) == WriteSpec(buf, pos, a + b)
  {
    var (buf1, pos1) := WriteSpec(buf, pos, a);
    var (x, _) := WriteSpec(buf1, pos1, b);
    var (y, _) := WriteSpec(buf, pos, a + b);
    if pos <= |buf| {
      assert |x| == |y|;
      forall i | 0 <= i < |x| ensures x[i] == y[i] {
        if i < pos {
          assert x[i] == buf1[i] == buf[i];
        } else if i < pos + |a| {
          assert x[i] == buf1[i] == a[i - pos] == (a + b)[i - pos];
        } else if i < pos + |a| + |b| {
          assert x[i] == b[i - pos - |a|] == (a + b)[i - pos];
        } else {
          assert x[i] == buf1[i] == buf[i];
        }
      }
      assert x == y;
    } else {
      assert buf + a + b == buf + (a + b);
    }
  }
}

=== FILE: util.dfy ===
/** `align` of util.py, the revision archive.py imports. Unlike utility.py it
    always adds between 1 and `alignment` units, so an already aligned value
    still grows by a full `alignment`. The type dispatch, and the in-place
    extension of a `bytearray`, are in module Alignables. */
module Util {
  import opened Common
  import Utility

  /** `alignment - (n % alignment)` with Python's `%`. */
  function Gap(n: int, alignment: int): (r: int)
    requires alignment != 0
    ensures alignment > 0 ==> 0 < r <= alignment && (n + r) % alignment == 0
    ensures alignment < 0 ==> r < 0
  {
    var r := alignment - Utility.PyMod(n, alignment);
    if alignment > 0 then
      assert (n + r) % alignment == 0 by {
        Utility.DivModUnique(n + r, alignment, n / alignment + 1, 0);
      }
      r
    else r
  }

  /** The `int` branch: `thing + remain` (util.py:20-22). */
  function AlignInt(thing: int, alignment: int): (r: Result<int>)
    ensures r.Err? <==> alignment == 0
    ensures alignment > 0 ==> r.Ok? && r.value % alignment == 0 && thing < r.value <= thing + alignment
  {
    if alignment == 0 then Err(ZeroDivisionError) else Ok(thing + Gap(thing, alignment))
  }

  /** The `bytes`/`bytearray` branch, `thing += bytes([0x00] * remain)`, as the
      value the buffer holds afterwards (util.py:16-19). */
  function AlignBuffer(thing: seq<Byte>, alignment: int): (r: Result<seq<Byte>>)
    ensures r.Err? <==> alignment == 0
    ensures r.Ok? ==> |thing| <= |r.value| && r.value[..|thing|] == thing
    ensures r.Ok? ==> forall i :: |thing| <= i < |r.value| ==> r.value[i] == 0
    ensures alignment > 0 ==> r.Ok? && |r.value| % alignment == 0 && |thing| < |r.value| <= |thing| + alignment
  {
    if alignment == 0 then Err(ZeroDivisionError) else Ok(thing + Zeros(Gap(|thing|, alignment)))
  }

  /** Not idempotent: aligning an aligned value adds a whole `alignment`. */
  lemma AlignIntNotIdempotent(thing: int, alignment: int)
    requires alignment > 0
    ensures AlignInt(AlignInt(thing, alignment).value, alignment).value
            == AlignInt(thing, alignment).value + alignment
  {
    var r := AlignInt(thing, alignment).value;
    assert Utility.PyMod(r, alignment) == 0;
  }

  /** The same growth for buffers: re-aligning appends `alignment` more zero bytes. */
  lemma AlignBufferNotIdempotent(thing: seq<Byte>, alignment: int)
    requires alignment > 0
    ensures |AlignBuffer(AlignBuffer(thing, alignment).value, alignment).value|
            == |AlignBuffer(thing, alignment).value| + alignment
  {
    var r := AlignBuffer(thing, alignment).value;
    assert Utility.PyMod(|r|, alignment) == 0;
  }

  /** Agreement with utility.py on unaligned input, and the difference on aligned input. */
  lemma AlignIntVersusUtility(thing: int, alignment: int)
    requires alignment > 0
    ensures thing % alignment != 0 ==> AlignInt(thing, alignment) == Utility.AlignInt(thing, alignment)
    ensures thing % alignment == 0 ==> AlignInt(thing, alignment).value == Utility.AlignInt(thing, alignment).value + alignment
  {
    if thing % alignment != 0 {
      var u := Utility.AlignInt(thing, alignment).value;
      var v := AlignInt(thing, alignment).value;
      Utility.AlignIntIsLeast(thing, alignment, v);
      assert u <= v;
      assert v - thing < alignment;
      var du, dv := u / alignment, v / alignment;
      assert u == alignment * du && v == alignment * dv;
      assert alignment * (dv - du) == v - u;
      Utility.MulSign(alignment, dv - du);
    } else {
      assert Utility.Remain(thing, alignment) == 0;
    }
  }
}

=== FILE: utility.dfy ===
/** `Util.align` of utility.py: round an integer up to the next multiple of
    the alignment, or zero-pad a byte buffer to such a length. The branch that
    delegates to an object's own `align` method is in module Alignables. */
module Utility {
  import opened Common

  /** Python's `x % m`: the remainder takes the sign of the divisor
      (Dafny's `%` is Euclidean and never negative). */
  function PyMod(x: int, m: int): (r: int)
    requires m != 0
    ensures m > 0 ==> r == x % m
    ensures m < 0 ==> m < r <= 0
  {
    if m > 0 then x % m
    else
      var e := x % m;
      if e == 0 then 0 else e + m
  }

  /** Division and remainder by a positive divisor are unique. */
  lemma DivModUnique(x: int, a: int, q: int, r: int)
    requires a > 0 && 0 <= r < a && x == a * q + r
    ensures x % a == r && x / a == q
  {
    var q', r' := x / a, x % a;
    assert a * (q - q') == r' - r;
    MulSign(a, q - q');
  }

  /** Adding a multiple of the divisor shifts the quotient and keeps the remainder. */
  lemma DivModAddMultiple(a: int, q: int, m: int)
    requires m > 0
    ensures (m * q + a) % m == a % m && (m * q + a) / m == q + a / m
  {
    assert m * (q + a / m) == m * q + m * (a / m);
    DivModUnique(m * q + a, m, q + a / m, a % m);
  }

  /** A positive factor keeps a whole multiple at least one factor away
      from zero. */
  lemma MulSign(a: int, d: int)
    requires a > 0
    ensures d >= 1 ==> a * d >= a
    ensures d <= -1 ==> a * d <= -a
    ensures d == 0 ==> a * d == 0
  {
  }

  /** The padding both branches of `Util.align` compute:
      `(alignment - (n % alignment)) % alignment`. */
  function Remain(n: int, alignment: int): (r: int)
    requires alignment != 0
    ensures alignment > 0 ==> 0 <= r < alignment && (n + r) % alignment == 0
    ensures alignment > 0 && n % alignment == 0 ==> r == 0
  {
    var r := PyMod(alignment - PyMod(n, alignment), alignment);
    if alignment > 0 then
      assert r == (if n % alignment == 0 then 0 else alignment - n % alignment) by {
        if n % alignment == 0 {
          DivModUnique(alignment, alignment, 1, 0);
        } else {
          DivModUnique(alignment - n % alignment, alignment, 0, alignment - n % alignment);
        }
      }
      assert (n + r) % alignment == 0 by {
        if n % alignment == 0 {
          assert n + r == n;
        } else {
          DivModUnique(n + r, alignment, n / alignment + 1, 0);
        }
      }
      r
    else r
  }

  /** The `int` branch (utility.py:19-21). An alignment of 0 divides by zero. */
  function AlignInt(thing: int, alignment: int): (r: Result<int>)
    ensures r.Err? <==> alignment == 0
    ensures r.Err? ==> r.error == ZeroDivisionError
    ensures alignment > 0 ==> r.Ok? && r.value % alignment == 0
    ensures alignment > 0 ==> thing <= r.value < thing + alignment
  {
    if alignment == 0 then Err(ZeroDivisionError)
    else Ok(thing + Remain(thing, alignment))
  }

  /** The `bytes`/`bytearray` branch (utility.py:23-26), as the value the
      buffer holds afterwards; module Alignables says which object holds it. */
  function AlignBytes(thing: seq<Byte>, alignment: int): (r: Result<seq<Byte>>)
    ensures r.Err? <==> alignment == 0
    ensures r.Ok? ==> |thing| <= |r.value| && r.value[..|thing|] == thing
    ensures r.Ok? ==> forall i :: |thing| <= i < |r.value| ==> r.value[i] == 0
    ensures alignment > 0 ==> r.Ok? && |r.value| % alignment == 0 && |r.value| < |thing| + alignment
  {
    if alignment == 0 then Err(ZeroDivisionError)
    else Ok(thing + Zeros(Remain(|thing|, alignment)))
  }

  /** The rounded value is the least multiple of the alignment not below `thing`. */
  lemma AlignIntIsLeast(thing: int, alignment: int, m: int)
    requires alignment > 0 && m >= thing && m % alignment == 0
    ensures AlignInt(thing, alignment).value <= m
  {
    // m and r are both multiples of alignment and r - m < alignment
    var r := AlignInt(thing, alignment).value;
    var qr, qm := r / alignment, m / alignment;
    assert r == alignment * qr && m == alignment * qm;
    assert alignment * (qr - qm) == r - m;
    MulSign(alignment, qr - qm);
  }

  /** Rounding is idempotent: an aligned value is returned unchanged. */
  lemma AlignIntIdempotent(thing: int, alignment: int)
    requires alignment > 0
    ensures AlignInt(AlignInt(thing, alignment).value, alignment) == AlignInt(thing, alignment)
  {
    var r := AlignInt(thing, alignment).value;
    AlignIntIsLeast(r, alignment, r);
  }

  /** Padding an aligned buffer adds nothing. */
  lemma AlignBytesIdempotent(thing: seq<Byte>, alignment: int)
    requires alignment > 0 && |thing| % alignment == 0
    ensures AlignBytes(thing, alignment) == Ok(thing)
  {
    assert Zeros(Remain(|thing|, alignment)) == [];
    assert thing + [] == thing;
  }
}

=== FILE: xbformat.dfy ===
/** The entities of the XB archive of archive.py: the compression kinds, the
    packed file-system-table word, the 8-bit path hash and the `XBFile`
    record. The reader and the writer are in modules XbRead and XbWrite. */
module XbFormat {
  import opened Common
  import opened Bits
  import Utility
  import Paths

  /** `b'\x78\x65\x00\x01'` (archive.py:26). */
  const SIGNATURE: seq<Byte> := [0x78, 0x65, 0x00, 0x01]

  /** `XBCompression` (archive.py:11-18). */
  datatype Compression = HuffmanLz | HuffmanOnly | LzOnly | Uncompressed

  /** The integer value of each member: 0, 1, 2, 3 in declaration order. */
  function Code(c: Compression): (v: nat)
    ensures v < 4
  {
    match c
    case HuffmanLz => 0
    case HuffmanOnly => 1
    case LzOnly => 2
    case Uncompressed => 3
  }

  /** `compression not in XBCompression` for an integer, then the member it
      names (archive.py:41-42). */
  function CompressionOf(v: int): (r: Result<Compression>)
    ensures r.Ok? <==> 0 <= v < 4
    ensures r.Err? ==> r.error == ArgumentError
    ensures r.Ok? ==> Code(r.value) == v
  {
    if v == 0 then Ok(HuffmanLz)
    else if v == 1 then Ok(HuffmanOnly)
    else if v == 2 then Ok(LzOnly)
    else if v == 3 then Ok(Uncompressed)
    else Err(ArgumentError)
  }

  /** Each member is found again from its value. */
  lemma CompressionRoundTrip(c: Compression)
    ensures CompressionOf(Code(c)) == Ok(c)
  {
  }

  // ---------------------------------------------------------------------
  // File system table
  // ---------------------------------------------------------------------

  /** `FSTEntry` (archive.py:28-48). */
  datatype FstEntry = FstEntry(length: nat, offset: nat, compression: Compression)

  /** `FSTEntry.__init__`: an unknown compression or an unaligned offset is an
      `ArgumentError`. */
  function NewFstEntry(length: nat, offset: nat, compression: int): (r: Result<FstEntry>)
    ensures r.Ok? <==> 0 <= compression < 4 && offset % 4 == 0
    ensures r.Err? ==> r.error == ArgumentError
    ensures r.Ok? ==> r.value.length == length && r.value.offset == offset
                      && Code(r.value.compression) == compression
  {
    var c :- CompressionOf(compression);
    if offset % 4 != 0 then Err(ArgumentError) else Ok(FstEntry(length, offset, c))
  }

  /** The low 28 bits of the word hold the offset in units of 4 bytes. */
  const OFFSET_MASK: nat := 0xFFF_FFFF

  /** `(fst_offset // 4) | compression << 28` (archive.py:420): while the
      offset stays below bit 28 the or of the two fields is their sum. */
  function PackWord(offset: nat, code: nat): (r: nat)
    ensures offset / 4 < 0x1000_0000 ==> r == code * 0x1000_0000 + offset / 4
  {
    PackArith(offset, code);
    Or(offset / 4, Shl(code, 28))
  }

  /** `cmpoff >> 28` and `(cmpoff & 0xFFFFFFF) * 4` (archive.py:246-250): the
      compression code is the quotient by 2**28, the offset four times the
      remainder. */
  function UnpackWord(w: nat): (r: (nat, nat))
    ensures r == (w / 0x1000_0000, (w % 0x1000_0000) * 4)
  {
    Pow2Table();
    ShrIsDiv(w, 28);
    AndLow(w, 28);
    (Shr(w, 28), And(w, OFFSET_MASK) * 4)
  }

  lemma PackArith(offset: nat, code: nat)
    ensures offset / 4 < 0x1000_0000 ==> Or(offset / 4, Shl(code, 28)) == code * 0x1000_0000 + offset / 4
  {
    Pow2Table();
    if offset / 4 < 0x1000_0000 {
      OrDisjoint(code, offset / 4, 28);
    }
  }

  /** A word packed from an aligned offset below 2**30 and a 4-bit code fits
      in 32 bits and unpacks to the same two fields. */
  lemma UnpackPack(offset: nat, code: nat)
    requires offset % 4 == 0 && offset / 4 < 0x1000_0000 && code < 16
    ensures PackWord(offset, code) < 0x1_0000_0000
    ensures UnpackWord(PackWord(offset, code)) == (code, offset)
  {
    var w := PackWord(offset, code);
    Utility.DivModUnique(w, 0x1000_0000, code, offset / 4);
  }

  /** Every 32-bit word unpacks to a 4-bit code and an aligned offset below
      2**30, and packing those gives the word back. */
  lemma PackUnpack(w: nat)
    requires w < 0x1_0000_0000
    ensures UnpackWord(w).0 < 16 && UnpackWord(w).1 % 4 == 0 && UnpackWord(w).1 < 0x4000_0000
    ensures PackWord(UnpackWord(w).1, UnpackWord(w).0) == w
  {
    var q, r := w / 0x1000_0000, w % 0x1000_0000;
    assert (r * 4) / 4 == r;
  }

  // ---------------------------------------------------------------------
  // String table hash
  // ---------------------------------------------------------------------

  /** One round of `StringTableEntry.hash` (archive.py:66). */
  function HashStep(h: nat, c: char): nat
  {
    Xor(Or(Shl(And(h, 0x7F), 1), Shr(And(h, 0x80), 7)), c as nat)
  }

  /** The loop of archive.py:65-66, from the hash `h` so far. */
  function HashFrom(h: nat, s: string): nat
    decreases |s|
  {
    if s == [] then h else HashFrom(HashStep(h, s[0]), s[1..])
  }

  /** `StringTableEntry.hash` (archive.py:57-68): over 8-bit characters it
      is the rotate-then-xor hash `RotXor`. */
  function Hash(s: string): (r: Byte)
    ensures (forall i :: 0 <= i < |s| ==> s[i] as int < 256) ==> r == RotXor(0, s)
  {
    MaskedHash(s);
    And(HashFrom(0, s), 0xFF)
  }

  /** Reference definition: for each character, rotate the 8-bit hash left
      by one place and xor the character in. */
  function RotXor(h: nat, s: string): nat
    decreases |s|
  {
    if s == [] then h else RotXor(Xor(Rotl8(h), s[0] as nat), s[1..])
  }

  lemma {:induction false} HashFromIsRotXor(h: nat, s: string)
    requires h < 256 && forall i :: 0 <= i < |s| ==> s[i] as int < 256
    ensures HashFrom(h, s) == RotXor(h, s)
    decreases |s|
  {
    if s != [] {
      HashStepRotates(h, s[0]);
      Pow2Table();
      BitwiseBound(Rotl8(h), s[0] as nat, 8);
      HashFromIsRotXor(HashStep(h, s[0]), s[1..]);
    }
  }

  /** The final `& 0xFF` of an 8-bit hash changes nothing. */
  lemma MaskedHash(s: string)
    ensures (forall i :: 0 <= i < |s| ==> s[i] as int < 256) ==> And(HashFrom(0, s), 0xFF) == RotXor(0, s)
  {
    if forall i :: 0 <= i < |s| ==> s[i] as int < 256 {
      var h := HashFrom(0, s);
      HashFromBound(0, s);
      HashFromIsRotXor(0, s);
      Pow2Table();
      AndLow(h, 8);
      Utility.DivModUnique(h, 256, 0, h);
    }
  }

  /** An 8-bit rotation left by one place: the top bit comes round to bit 0. */
  function Rotl8(h: nat): nat
  {
    2 * (h % 128) + h / 128
  }

  /** `x & 2**k` keeps bit `k` of `x` alone. */
  lemma {:induction false} AndPow2(x: nat, k: nat)
    ensures And(x, Pow2(k)) == Pow2(k) * ((x / Pow2(k)) % 2)
    decreases k
  {
    if k == 0 {
      AndLow(x, 1);
    } else {
      var h := Pow2(k - 1);
      assert Pow2(k) == 2 * h && Pow2(k) / 2 == h;
      AndEvenMask(x, Pow2(k));
      AndPow2(x / 2, k - 1);
      DivModTwice(x, h);
      var b := ((x / 2) / h) % 2;
      assert x / Pow2(k) == (x / 2) / h;
      assert And(x, Pow2(k)) == 2 * (h * b);
      Twice(h, b);
    }
  }

  /** On an 8-bit hash, one round is a rotation left by one, then an xor
      with the character. */
  lemma HashStepRotates(h: nat, c: char)
    requires h < 256
    ensures HashStep(h, c) == Xor(Rotl8(h), c as nat)
  {
    Pow2Table();
    var lo, top := And(h, 0x7F), And(h, 0x80);
    AndLow(h, 7);
    assert lo == h % 128;
    AndPow2(h, 7);
    assert top == 128 * (h / 128);
    ShrIsDiv(top, 7);
    var hi := Shr(top, 7);
    assert hi == h / 128;
    assert hi < Pow2(1);
    OrDisjoint(lo, hi, 1);
    assert Shl(lo, 1) == lo * Pow2(1);
    assert Or(Shl(lo, 1), hi) == Rotl8(h);
    assert HashStep(h, c) == Xor(Or(Shl(lo, 1), hi), c as nat);
  }

  /** Over 8-bit characters the hash never leaves 8 bits, so the final
      `& 0xFF` changes nothing. */
  lemma {:induction false} HashFromBound(h: nat, s: string)
    requires h < 256 && forall i :: 0 <= i < |s| ==> s[i] as int < 256
    ensures HashFrom(h, s) < 256
    decreases |s|
  {
    if s != [] {
      HashStepRotates(h, s[0]);
      Pow2Table();
      BitwiseBound(Rotl8(h), s[0] as nat, 8);
      HashFromBound(HashStep(h, s[0]), s[1..]);
    }
  }

  lemma RotlExamples()
    ensures Rotl8(0) == 0 && Rotl8(97) == 194 && Rotl8(160) == 65
    ensures 'a' as nat == 97 && 'b' as nat == 98 && 'c' as nat == 99
  {
    assert 97 % 128 == 97 && 97 / 128 == 0;
    assert 160 % 128 == 32 && 160 / 128 == 1;
  }

  lemma XorExamples()
    ensures Xor(0, 97) == 97 && Xor(194, 98) == 160 && Xor(65, 99) == 0x22
  {
    assert Xor(3, 1) == 2 * Xor(1, 0) + 0 == 2;
    assert Xor(6, 3) == 2 * Xor(3, 1) + 1 == 5;
    assert Xor(12, 6) == 2 * Xor(6, 3) == 10;
    assert Xor(24, 12) == 2 * Xor(12, 6) == 20;
    assert Xor(48, 24) == 2 * Xor(24, 12) == 40;
    assert Xor(97, 49) == 2 * Xor(48, 24) == 80;
    assert Xor(194, 98) == 2 * Xor(97, 49) == 160;
    assert Xor(1, 1) == 2 * Xor(0, 0) == 0;
    assert Xor(2, 3) == 2 * Xor(1, 1) + 1 == 1;
    assert Xor(4, 6) == 2 * Xor(2, 3) == 2;
    assert Xor(8, 12) == 2 * Xor(4, 6) == 4;
    assert Xor(16, 24) == 2 * Xor(8, 12) == 8;
    assert Xor(32, 49) == 2 * Xor(16, 24) + 1 == 17;
    assert Xor(65, 99) == 2 * Xor(32, 49) == 34;
  }

  lemma HashStepExamples()
    ensures HashStep(0, 'a') == 97 && HashStep(97, 'b') == 160 && HashStep(160, 'c') == 0x22
  {
    HashStepRotates(0, 'a');
    HashStepRotates(97, 'b');
    HashStepRotates(160, 'c');
    RotlExamples();
    XorExamples();
  }

  lemma HashFromAbc()
    ensures HashFrom(0, "abc") == 0x22
  {
    var s := "abc";
    HashStepExamples();
    assert s[1..] == "bc" && s[1..][1..] == "c" && s[1..][1..][1..] == "";
    assert HashFrom(0, s) == HashFrom(97, "bc") == HashFrom(160, "c") == HashFrom(0x22, "");
  }

  /** The empty string hashes to 0; `"abc"` hashes to 0x22. */
  lemma HashExamples()
    ensures Hash("") == 0
    ensures Hash("abc") == 0x22
  {
    HashFromAbc();
    var s := "abc";
    assert forall i :: 0 <= i < |s| ==> s[i] as int < 256;
    HashFromIsRotXor(0, s);
  }

  // ---------------------------------------------------------------------
  // Files
  // ---------------------------------------------------------------------

  /** `XBFile` (archive.py:452-476). */
  datatype XbFile = XbFile(path: string, data: seq<Byte>, compression: Compression)

  /** `XBFile.__init__`: empty data is an `ArgumentError`; forward slashes in
      the path become backslashes. */
  function NewFile(path: string, data: seq<Byte>, compression: Compression): (r: Result<XbFile>)
    ensures r.Err? <==> data == []
    ensures r.Err? ==> r.error == ArgumentError
    ensures r.Ok? ==> r.value.data == data && r.value.compression == compression
    ensures r.Ok? ==> |r.value.path| == |path|
                      && forall i :: 0 <= i < |path| ==>
                           r.value.path[i] == if path[i] == '/' then '\\' else path[i]
  {
    if data == [] then Err(ArgumentError)
    else Ok(XbFile(Paths.Replace(path, "/", "\\"), data, compression))
  }

  /** The internal prefix archive.py puts in front of local paths. */
  const PREFIX: string := "..\\"

  /** `value.split("..\\")[-1]` (archive.py:339): what follows the last
      prefix, a suffix of the path; a path without one is kept whole. */
  function StripPrefix(value: string): (r: string)
    ensures Paths.IsSuffix(r, value)
    ensures Paths.Free(value, PREFIX) ==> r == value
  {
    Paths.LastPiece(value, PREFIX)
  }

  /** A path given the prefix by `add` loses it again on reading. */
  lemma StripAddedPrefix(path: string)
    ensures Paths.Free(path, PREFIX) ==> StripPrefix(PREFIX + path) == path
  {
    if Paths.Free(path, PREFIX) {
      var s := PREFIX + path;
      assert s[..3] == PREFIX;
      assert s[3..] == path;
      Paths.SplitFree(path, PREFIX, "");
      assert "" + path == path;
    }
  }

  // ---------------------------------------------------------------------
  // Adding a file
  // ---------------------------------------------------------------------

  /** The path a file is stored under: `xb_path` unless it is falsy (absent
      or empty), else the local path behind the internal prefix
      (archive.py:186-189). */
  function StoredPath(path: string, xbPath: Option<string>): (r: string)
    ensures (xbPath.None? || xbPath.value == "") && Paths.Free(path, PREFIX) ==> StripPrefix(r) == path
  {
    if xbPath.Some? && xbPath.value != "" then xbPath.value
    else
      StripAddedPrefix(path);
      PREFIX + path
  }

  /** The compression `add` settles on: a truthy value must be a member, and
      a falsy one (absent, or `HUFFMAN_LZ`, whose value is 0) becomes `LZ`
      (archive.py:172-177). */
  function AddCompression(compression: Option<int>): (r: Result<Compression>)
    ensures r.Err? <==> compression.Some? && compression.value != 0
                         && !(0 <= compression.value < 4)
    ensures r.Err? ==> r.error == ArgumentError
    ensures r.Ok? && (compression.None? || compression.value == 0) ==> r.value == LzOnly
    ensures r.Ok? && compression.Some? && compression.value != 0 ==>
              Code(r.value) == compression.value
  {
    if compression.None? || compression.value == 0 then Ok(LzOnly)
    else CompressionOf(compression.value)
  }

  /** The file `add` appends for a local file (not a directory): the
      compression is checked before the local file is read (`data` is
      `None` when it does not exist; reading an empty file ends in the
      stream's `EOFError`, which `add` does not catch), then `XBFile` checks
      the data and normalises the path (archive.py:172-190). */
  function AddedFile(path: string, xbPath: Option<string>, compression: Option<int>,
                     data: Option<seq<Byte>>): (r: Result<XbFile>)
    ensures AddCompression(compression).Err? ==> r == Err(ArgumentError)
    ensures AddCompression(compression).Ok? && data.None? ==> r == Err(ArchiveError)
    ensures AddCompression(compression).Ok? && data == Some([]) ==> r == Err(EndOfFile)
    ensures r.Ok? <==> AddCompression(compression).Ok? && data.Some? && data.value != []
    ensures r.Ok? ==> r.value.data == data.value
                      && r.value.compression == AddCompression(compression).value
                      && r.value.path == Paths.Substitute(StoredPath(path, xbPath), '/', '\\')
  {
    var c :- AddCompression(compression);
    if data.None? then Err(ArchiveError)
    else if data.value == [] then Err(EndOfFile)
    else NewFile(StoredPath(path, xbPath), data.value, c)
  }

  /** Asking for `HUFFMAN_LZ` explicitly gives an `LZ` file all the same,
      because its value 0 is falsy. */
  lemma AddHuffmanLzGivesLz(path: string, xbPath: Option<string>, data: seq<Byte>)
    requires data != []
    ensures AddedFile(path, xbPath, Some(Code(HuffmanLz)), Some(data)).Ok?
    ensures AddedFile(path, xbPath, Some(Code(HuffmanLz)), Some(data)).value.compression == LzOnly
  {
  }

  /** A file added without an archive path is read back under its local
      path with the slashes turned round: the reader strips the prefix `add`
      put in front of it. */
  lemma AddedPathReadBack(path: string, compression: Option<int>, data: seq<Byte>)
    requires AddCompression(compression).Ok? && data != []
    requires Paths.Free(Paths.Substitute(path, '/', '\\'), PREFIX)
    ensures AddedFile(path, None, compression, Some(data)).Ok?
    ensures StripPrefix(AddedFile(path, None, compression, Some(data)).value.path)
            == Paths.Substitute(path, '/', '\\')
  {
    var local := Paths.Substitute(path, '/', '\\');
    var stored := Paths.Substitute(PREFIX + path, '/', '\\');
    assert StoredPath(path, None) == PREFIX + path;
    assert stored == PREFIX + local by {
      forall i | 0 <= i < |stored|
        ensures stored[i] == (PREFIX + local)[i]
      {
        if i >= |PREFIX| {
          assert (PREFIX + path)[i] == path[i - |PREFIX|];
        }
      }
    }
    StripAddedPrefix(local);
  }
}

=== FILE: xbread.dfy ===
/** `XBArchive.__read` (archive.py:221-342). The archive file is the byte
    sequence `buf` read from position 0; `self._strm.length()` is `|buf|`.
    The read-mode file stream reads like a buffer: `EOFError` at the end,
    short reads just before it. */
module XbRead {
  import opened Common
  import Streams
  import Utility
  import Lzs
  import Huffman
  import opened XbFormat

  // ---------------------------------------------------------------------
  // Specification
  // ---------------------------------------------------------------------

  /** An `except DecompressionError` around a codec call turns its failure
      into `BadArchiveError`; any other outcome passes unchanged. */
  function Guarded<T>(r: Result<T>): (g: Result<T>)
    ensures r.Ok? ==> g == r
    ensures r.Err? && !r.error.DecompressionError? ==> g == r
    ensures r.Err? && r.error.DecompressionError? ==> g == Err(BadArchiveError)
  {
    if r.Err? && r.error.DecompressionError? then Err(BadArchiveError) else r
  }

  /** An `except EOFError` (archive.py:289-290). */
  function EofIsBad<T>(r: Result<T>): (g: Result<T>)
    ensures r.Ok? ==> g == r
    ensures r.Err? && r.error != EndOfFile ==> g == r
    ensures r.Err? && r.error == EndOfFile ==> g == Err(BadArchiveError)
  {
    if r.Err? && r.error == EndOfFile then Err(BadArchiveError) else r
  }

  /** One FST record (archive.py:242-257): the length and the packed word,
      the two bounds checks against the archive length, then `FSTEntry`. */
  function FstRecord(buf: seq<Byte>, pos: nat, e: Streams.Endian): (r: Result<(FstEntry, nat)>)
    ensures pos >= |buf| ==> r == Err(EndOfFile)
    ensures r.Err? ==> r.error in {EndOfFile, BadArchiveError, ArgumentError}
    ensures r.Ok? ==> pos < r.value.1 <= pos + 8
    ensures r.Ok? ==> r.value.0.length < |buf| && r.value.0.offset < |buf| && r.value.0.offset % 4 == 0
  {
    var (length, p1) :- Streams.ReadU32(buf, pos, e);
    var (word, p2) :- Streams.ReadU32(buf, p1, e);
    var (code, offset) := UnpackWord(word);
    PackUnpack(word);
    if length >= |buf| || offset >= |buf| then Err(BadArchiveError)
    else
      var entry :- NewFstEntry(length, offset, code);
      Ok((entry, p2))
  }

  /** The FST loop (archive.py:240-257): `count` records from `pos`. */
  function ReadFst(buf: seq<Byte>, pos: nat, e: Streams.Endian, count: nat): (r: Result<(seq<FstEntry>, nat)>)
    ensures r.Ok? ==> |r.value.0| == count && pos <= r.value.1 <= pos + 8 * count
    ensures r.Ok? ==> forall i :: 0 <= i < count ==>
              r.value.0[i].length < |buf| && r.value.0[i].offset < |buf| && r.value.0[i].offset % 4 == 0
    ensures r.Err? ==> r.error in {EndOfFile, BadArchiveError, ArgumentError}
    decreases count
  {
    if count == 0 then Ok(([], pos))
    else
      var (entry, p) :- FstRecord(buf, pos, e);
      var (rest, q) :- ReadFst(buf, p, e, count - 1);
      Ok(([entry] + rest, q))
  }

  /** The string-table loop (archive.py:277-288) from `pos`: a length byte, a
      hash byte and a NUL-terminated string per record until the end. */
  function ParseNames(t: seq<Byte>, pos: nat): (r: Result<seq<string>>)
    ensures r.Ok? ==> forall i :: 0 <= i < |r.value| ==> |r.value[i]| < 256
    ensures r.Err? ==> r.error in {BadArchiveError, UnicodeDecodeError}
    decreases |t| - pos
  {
    if pos >= |t| then Ok([])
    else
      // not at the end, so the length byte is there
      var length := t[pos];
      var (hash, p2) :- EofIsBad(Streams.ReadU8(t, pos + 1));
      var (value, p3) :- Streams.ReadStringSpec(t, p2, -1, 0);
      if length != |value| || hash != Hash(value) then Err(BadArchiveError)
      else
        var rest :- ParseNames(t, p3);
        Ok([value] + rest)
  }

  /** The codec calls inside the `try` of archive.py:314-335, from `p`, the
      position after the two size words. For `HUFFMAN_LZ` the Huffman output
      carries its own pair of size words in front of the LZ data. */
  function Unpacked(buf: seq<Byte>, p: nat, e: Streams.Endian, c: Compression, decompSize: nat): (r: Result<seq<Byte>>)
    requires c != Uncompressed
    ensures c != HuffmanLz && r.Ok? ==> |r.value| == decompSize
  {
    match c
    case LzOnly => Lzs.Decoded(buf, p, decompSize)
    case HuffmanOnly => Huffman.Decoded(buf, p, e, decompSize)
    case HuffmanLz =>
      var first :- Huffman.Decoded(buf, p, e, decompSize);
      var (innerSize, q1) :- Streams.ReadU32(first, 0, e);
      var (_, q2) :- Streams.ReadU32(first, q1, e);
      Lzs.Decoded(first, q2, innerSize)
  }

  /** The data of one entry (archive.py:300-335): raw bytes for `NONE`,
      otherwise two size words and a codec; a zero compressed size and any
      codec failure are a `BadArchiveError`. */
  function Payload(buf: seq<Byte>, e: Streams.Endian, entry: FstEntry): (r: Result<seq<Byte>>)
    ensures entry.compression == Uncompressed && entry.offset < |buf| ==>
              r == Ok(buf[entry.offset..Min(entry.offset + entry.length, |buf|)])
    ensures r.Err? ==> !r.error.DecompressionError?
  {
    if entry.compression == Uncompressed then
      var (data, _) :- Streams.ReadSpec(buf, entry.offset, entry.length);
      Ok(data)
    else
      var (decompSize, p1) :- Streams.ReadU32(buf, entry.offset, e);
      var (compressSize, p2) :- Streams.ReadU32(buf, p1, e);
      if compressSize == 0 then Err(BadArchiveError)
      else Guarded(Unpacked(buf, p2, e, entry.compression, decompSize))
  }

  /** The path `XBFile` receives: the text after the last `..\`, then slashes
      made backslashes. */
  function Restored(name: string): (r: string)
    ensures forall j :: 0 <= j < |r| ==> r[j] != '/'
  {
    Paths.Replace(StripPrefix(name), "/", "\\")
  }

  /** One iteration of the files loop (archive.py:299-342). */
  function ReadFile(buf: seq<Byte>, e: Streams.Endian, entry: FstEntry, name: string): (r: Result<XbFile>)
    ensures r.Ok? ==> r.value.path == Restored(name) && r.value.compression == entry.compression
    ensures r.Ok? ==> Payload(buf, e, entry).Ok? && r.value.data == Payload(buf, e, entry).value != []
  {
    var data :- Payload(buf, e, entry);
    NewFile(StripPrefix(name), data, entry.compression)
  }

  /** The files loop, entry by entry and name by name. */
  function ReadFiles(buf: seq<Byte>, e: Streams.Endian, fst: seq<FstEntry>, names: seq<string>): (r: Result<seq<XbFile>>)
    requires |fst| == |names|
    ensures r.Ok? ==> |r.value| == |fst|
    ensures r.Ok? ==> forall i :: 0 <= i < |fst| ==>
              ReadFile(buf, e, fst[i], names[i]).Ok? && r.value[i] == ReadFile(buf, e, fst[i], names[i]).value
    decreases |fst|
  {
    if fst == [] then Ok([])
    else
      var file :- ReadFile(buf, e, fst[0], names[0]);
      var rest :- ReadFiles(buf, e, fst[1..], names[1..]);
      Ok([file] + rest)
  }

  /** `__read`: signature, file count, FST, the string table behind the
      aligned position, then the files. */
  function Archive(buf: seq<Byte>, e: Streams.Endian): (r: Result<seq<XbFile>>)
    ensures buf == [] ==> r == Err(EndOfFile)
    ensures r.Ok? ==> |buf| > 4 && buf[..4] == SIGNATURE
  {
    var (signature, p0) :- Streams.ReadSpec(buf, 0, 4);
    if signature != SIGNATURE then Err(NotAnArchiveError)
    else
      var (count, p1) :- Streams.ReadU32(buf, p0, e);
      var (fst, p2) :- ReadFst(buf, p1, e, count);
      var p3 := Utility.AlignInt(p2, 4).value;
      var (decompSize, p4) :- Streams.ReadU32(buf, p3, e);
      var (_, p5) :- Streams.ReadU32(buf, p4, e);
      var table :- Guarded(Lzs.Decoded(buf, p5, decompSize));
      var names :- ParseNames(table, 0);
      if |names| != |fst| then Err(BadArchiveError)
      else ReadFiles(buf, e, fst, names)
  }

  // ---------------------------------------------------------------------
  // What the reader promises
  // ---------------------------------------------------------------------

  /** An empty file fails on the first read; any other file whose first
      bytes are not the signature is rejected before anything else is
      parsed. */
  lemma SignatureChecked(buf: seq<Byte>, e: Streams.Endian)
    ensures buf == [] ==> Archive(buf, e) == Err(EndOfFile)
    ensures buf != [] && buf[..Min(4, |buf|)] != SIGNATURE ==> Archive(buf, e) == Err(NotAnArchiveError)
  {
  }

  /** A successful read starts with the signature and yields as many files
      as the header announces, each with data and a path without `/`. */
  lemma ArchiveShape(buf: seq<Byte>, e: Streams.Endian)
    ensures Archive(buf, e).Ok? ==>
              |buf| > 4 && buf[..4] == SIGNATURE
              && |Archive(buf, e).value| == Streams.ReadU32(buf, 4, e).value.0
    ensures Archive(buf, e).Ok? ==>
              forall i :: 0 <= i < |Archive(buf, e).value| ==>
                Archive(buf, e).value[i].data != []
                && forall j :: 0 <= j < |Archive(buf, e).value[i].path| ==> Archive(buf, e).value[i].path[j] != '/'
  {
    var r := Archive(buf, e);
    if r.Ok? {
      var (signature, p0) := Streams.ReadSpec(buf, 0, 4).value;
      assert signature == SIGNATURE && p0 == 4;
      var (count, p1) := Streams.ReadU32(buf, p0, e).value;
      var (fst, p2) := ReadFst(buf, p1, e, count).value;
      var p3 := Utility.AlignInt(p2, 4).value;
      var (decompSize, p4) := Streams.ReadU32(buf, p3, e).value;
      var p5 := Streams.ReadU32(buf, p4, e).value.1;
      var table := Guarded(Lzs.Decoded(buf, p5, decompSize)).value;
      var names := ParseNames(table, 0).value;
      assert r == ReadFiles(buf, e, fst, names);
      forall i | 0 <= i < |r.value|
        ensures r.value[i].data != []
        ensures forall j :: 0 <= j < |r.value[i].path| ==> r.value[i].path[j] != '/'
      {
        assert r.value[i] == ReadFile(buf, e, fst[i], names[i]).value;
      }
    }
  }

  // ---------------------------------------------------------------------
  // The reader as it runs
  // ---------------------------------------------------------------------

  /** `target` is what the whole loop gives when the entries read so far
      are `done` and the rest of the loop gives `rest`. */
  predicate FstSoFar(target: Result<(seq<FstEntry>, nat)>, done: seq<FstEntry>, rest: Result<(seq<FstEntry>, nat)>)
  {
    target.Ok? == rest.Ok?
    && (rest.Ok? ==> target.value.0 == done + rest.value.0 && target.value.1 == rest.value.1)
    && (rest.Err? ==> target.error == rest.error)
  }

  /** One pass of the FST loop (archive.py:242-257) with the cursor at `p`:
      the length and the packed word, the bounds check against the archive
      length, then `FSTEntry`. */
  method ReadFstEntry(buf: seq<Byte>, p: nat, e: Streams.Endian) returns (r: Result<(FstEntry, nat)>)
    ensures r == FstRecord(buf, p, e)
  {
    var length := Streams.ReadU32(buf, p, e);
    if length.Err? {
      return Err(length.error);
    }
    var cmpoff := Streams.ReadU32(buf, length.value.1, e);
    if cmpoff.Err? {
      return Err(cmpoff.error);
    }
    var (compression, offset) := UnpackWord(cmpoff.value.0);
    if length.value.0 >= |buf| || offset >= |buf| {
      return Err(BadArchiveError);
    }
    var entry := NewFstEntry(length.value.0, offset, compression);
    if entry.Err? {
      return Err(entry.error);
    }
    return Ok((entry.value, cmpoff.value.1));
  }

  /** The FST loop with the entries read so far in `done`. */
  function FstAcc(buf: seq<Byte>, p: nat, e: Streams.Endian, k: nat, done: seq<FstEntry>): (r: Result<(seq<FstEntry>, nat)>)
    decreases k, 1
  {
    if k == 0 then Ok((done, p)) else FstAccNext(buf, p, e, k, done)
  }

  /** One more record, then the rest of the loop. */
  function FstAccNext(buf: seq<Byte>, p: nat, e: Streams.Endian, k: nat, done: seq<FstEntry>): (r: Result<(seq<FstEntry>, nat)>)
    requires k > 0
    decreases k, 0
  {
    var (x, q) :- FstRecord(buf, p, e);
    FstAcc(buf, q, e, k - 1, done + [x])
  }

  lemma FstAccStep(buf: seq<Byte>, p: nat, e: Streams.Endian, k: nat, done: seq<FstEntry>, x: FstEntry, q: nat)
    requires k > 0 && FstRecord(buf, p, e) == Ok((x, q))
    ensures FstAcc(buf, p, e, k, done) == FstAcc(buf, q, e, k - 1, done + [x])
  {
    assert FstAcc(buf, p, e, k, done) == FstAccNext(buf, p, e, k, done);
  }

  lemma FstAccFails(buf: seq<Byte>, p: nat, e: Streams.Endian, k: nat, done: seq<FstEntry>)
    requires k > 0 && FstRecord(buf, p, e).Err?
    ensures FstAcc(buf, p, e, k, done).Err? && FstAcc(buf, p, e, k, done).error == FstRecord(buf, p, e).error
  {
    assert FstAcc(buf, p, e, k, done) == FstAccNext(buf, p, e, k, done);
  }

  lemma {:induction false} FstAccIsReadFst(buf: seq<Byte>, p: nat, e: Streams.Endian, k: nat, done: seq<FstEntry>)
    ensures FstSoFar(FstAcc(buf, p, e, k, done), done, ReadFst(buf, p, e, k))
    decreases k
  {
    if k == 0 {
      assert done + [] == done;
    } else {
      ReadFstUnfold(buf, p, e, k);
      var rec := FstRecord(buf, p, e);
      if rec.Ok? {
        var (x, q) := rec.value;
        FstAccStep(buf, p, e, k, done, x, q);
        FstAccIsReadFst(buf, q, e, k - 1, done + [x]);
        var rest := ReadFst(buf, q, e, k - 1);
        if rest.Ok? {
          AppendAssoc(done, [x], rest.value.0);
        }
      } else {
        FstAccFails(buf, p, e, k, done);
      }
    }
  }

  /** One record, then the records after it. */
  lemma ReadFstUnfold(buf: seq<Byte>, p: nat, e: Streams.Endian, k: nat)
    requires k > 0
    ensures var rec := FstRecord(buf, p, e);
            rec.Err? ==> ReadFst(buf, p, e, k) == Err(rec.error)
    ensures var rec := FstRecord(buf, p, e);
            rec.Ok? ==>
              var rest := ReadFst(buf, rec.value.1, e, k - 1);
              ReadFst(buf, p, e, k) == if rest.Ok? then Ok(([rec.value.0] + rest.value.0, rest.value.1)) else Err(rest.error)
  {
  }

  /** The FST loop of archive.py:240-257 with the archive stream's cursor
      at `pos`: `count` entries, appended in order. */
  method ReadFstFrom(buf: seq<Byte>, pos: nat, e: Streams.Endian, count: nat) returns (r: Result<seq<FstEntry>>, end: nat)
    ensures r.Ok? == ReadFst(buf, pos, e, count).Ok?
    ensures r.Ok? ==> r.value == ReadFst(buf, pos, e, count).value.0 && end == ReadFst(buf, pos, e, count).value.1
    ensures r.Err? ==> r.error == ReadFst(buf, pos, e, count).error
  {
    FstAccIsReadFst(buf, pos, e, count, []);
    ghost var target := FstAcc(buf, pos, e, count, []);
    var fst: seq<FstEntry> := [];
    var p := pos;
    var left := count;
    while left > 0
      invariant FstAcc(buf, p, e, left, fst) == target
    {
      var entry := ReadFstEntry(buf, p, e);
      if entry.Err? {
        FstAccFails(buf, p, e, left, fst);
        return Err(entry.error), p;
      }
      var (found, q) := entry.value;
      FstAccStep(buf, p, e, left, fst, found, q);
      fst, p, left := fst + [found], q, left - 1;
    }
    return Ok(fst), p;
  }

  /** A one-byte read is the byte under the cursor, in either byte order. */
  lemma OneByteRead(t: seq<Byte>, p: nat, e: Streams.Endian)
    ensures Streams.ReadIntSpec(t, p, 1, e, false).Err? <==> p >= |t|
    ensures p < |t| ==> Streams.ReadIntSpec(t, p, 1, e, false).value == (t[p] as int, p + 1)
  {
    if p < |t| {
      var d := t[p..p + 1];
      assert d == [t[p]] && d[1..] == [] && d[..0] == [];
      assert Streams.UValue(d, e) == t[p];
    }
  }

  /** A record that stops after its length byte. */
  lemma NamesCut(t: seq<Byte>, p: nat, done: seq<string>)
    requires p < |t| <= p + 1
    ensures Cons(done, ParseNames(t, p)).Err? && Cons(done, ParseNames(t, p)).error == BadArchiveError
  {
  }

  /** A record whose string cannot be read. */
  lemma NamesBadString(t: seq<Byte>, p: nat, done: seq<string>)
    requires p + 1 < |t| && Streams.ReadStringSpec(t, p + 2, -1, 0).Err?
    ensures Cons(done, ParseNames(t, p)).Err?
    ensures Cons(done, ParseNames(t, p)).error == Streams.ReadStringSpec(t, p + 2, -1, 0).error
  {
  }

  /** A record whose length or hash byte does not match its string. */
  lemma NamesMismatch(t: seq<Byte>, p: nat, done: seq<string>, value: string, q: nat)
    requires p + 1 < |t| && Streams.ReadStringSpec(t, p + 2, -1, 0) == Ok((value, q))
    requires t[p] != |value| || t[p + 1] != Hash(value)
    ensures Cons(done, ParseNames(t, p)).Err? && Cons(done, ParseNames(t, p)).error == BadArchiveError
  {
  }

  /** A good record moves its string from the table to the names read. */
  lemma NamesStep(t: seq<Byte>, p: nat, done: seq<string>, value: string, q: nat)
    requires p + 1 < |t| && Streams.ReadStringSpec(t, p + 2, -1, 0) == Ok((value, q))
    requires t[p] == |value| && t[p + 1] == Hash(value)
    ensures Cons(done, ParseNames(t, p)) == Cons(done + [value], ParseNames(t, q))
  {
    var rest := ParseNames(t, q);
    if rest.Ok? {
      assert done + ([value] + rest.value) == done + [value] + rest.value;
    }
  }

  /** The string-table loop of archive.py:276-292 on a `BufferStream` over
      the decompressed table: records until the end of the stream, each
      checked against its length and hash bytes; running out of bytes in
      the middle of a record is a `BadArchiveError`. */
  method ParseTable(table: seq<Byte>, e: Streams.Endian) returns (r: Result<seq<string>>)
    ensures r == ParseNames(table, 0)
  {
    var strm := new Streams.BufferStream(e, table);
    var names: seq<string> := [];
    ConsNil(ParseNames(table, 0));
    while true
      invariant strm.buffer == table && strm.isOpen && strm.endian == e && strm.pos <= |table|
      invariant Cons(names, ParseNames(table, strm.pos)) == ParseNames(table, 0)
      decreases |table| - strm.pos
    {
      var atEnd := strm.Eof();
      if atEnd.value {
        break;
      }
      ghost var p := strm.pos;
      OneByteRead(table, p, e);
      OneByteRead(table, p + 1, e);
      var length := strm.ReadInt(1, false);
      var hash := strm.ReadInt(1, false);
      if hash.Err? {
        // the `except EOFError` around the loop
        NamesCut(table, p, names);
        return Err(BadArchiveError);
      }
      var value := strm.ReadString(-1);
      if value.Err? {
        NamesBadString(table, p, names);
        return Err(value.error);
      }
      if length.value != |value.value| || hash.value != Hash(value.value) {
        NamesMismatch(table, p, names, value.value, strm.pos);
        return Err(BadArchiveError);
      }
      NamesStep(table, p, names, value.value, strm.pos);
      names := names + [value.value];
    }
    assert names + [] == names;
    return Ok(names);
  }

  /** The codec calls of archive.py:314-335; the `HUFFMAN_LZ` inner size
      words are read from a `BufferStream` over the Huffman output. */
  method Unpack(buf: seq<Byte>, p: nat, e: Streams.Endian, c: Compression, decompSize: nat) returns (r: Result<seq<Byte>>)
    requires c != Uncompressed
    ensures r == Unpacked(buf, p, e, c, decompSize)
  {
    match c
    case LzOnly =>
      r := Lzs.Decode(buf, p, decompSize);
    case HuffmanOnly =>
      r := Huffman.Decode(buf, p, e, decompSize);
    case HuffmanLz =>
      var first := Huffman.Decode(buf, p, e, decompSize);
      if first.Err? {
        return Err(first.error);
      }
      var lz := new Streams.BufferStream(e, first.value);
      var innerSize := lz.ReadInt(4, false);
      if innerSize.Err? {
        return Err(innerSize.error);
      }
      var outerSize := lz.ReadInt(4, false);
      if outerSize.Err? {
        return Err(outerSize.error);
      }
      r := Lzs.Decode(first.value, lz.pos, innerSize.value as nat);
  }

  /** The data of one entry (archive.py:300-335) after the seek to its
      offset. */
  method ReadPayload(buf: seq<Byte>, e: Streams.Endian, entry: FstEntry) returns (r: Result<seq<Byte>>)
    ensures r == Payload(buf, e, entry)
  {
    var p := entry.offset;
    if entry.compression == Uncompressed {
      var d := Streams.ReadSpec(buf, p, entry.length);
      if d.Err? {
        return Err(d.error);
      }
      return Ok(d.value.0);
    }
    var decompSize := Streams.ReadU32(buf, p, e);
    if decompSize.Err? {
      return Err(decompSize.error);
    }
    var compressSize := Streams.ReadU32(buf, decompSize.value.1, e);
    if compressSize.Err? {
      return Err(compressSize.error);
    }
    if compressSize.value.0 == 0 {
      return Err(BadArchiveError);
    }
    var data := Unpack(buf, compressSize.value.1, e, entry.compression, decompSize.value.0);
    r := Guarded(data);
  }

  lemma FilesStep(buf: seq<Byte>, e: Streams.Endian, fst: seq<FstEntry>, names: seq<string>, i: nat, done: seq<XbFile>, file: XbFile)
    requires |fst| == |names| && i < |fst|
    requires ReadFile(buf, e, fst[i], names[i]) == Ok(file)
    ensures Cons(done, ReadFiles(buf, e, fst[i..], names[i..])) == Cons(done + [file], ReadFiles(buf, e, fst[i + 1..], names[i + 1..]))
  {
    assert fst[i..][1..] == fst[i + 1..] && names[i..][1..] == names[i + 1..];
    var rest := ReadFiles(buf, e, fst[i + 1..], names[i + 1..]);
    if rest.Ok? {
      assert done + ([file] + rest.value) == done + [file] + rest.value;
    }
  }

  /** The files loop of archive.py:299-342: each entry's data, its path
      with the internal prefix removed, then `XBFile`. */
  method ReadFilesFrom(buf: seq<Byte>, e: Streams.Endian, fst: seq<FstEntry>, names: seq<string>) returns (r: Result<seq<XbFile>>)
    requires |fst| == |names|
    ensures r == ReadFiles(buf, e, fst, names)
  {
    var files: seq<XbFile> := [];
    ConsNil(ReadFiles(buf, e, fst, names));
    assert fst[0..] == fst && names[0..] == names;
    for i := 0 to |fst|
      invariant Cons(files, ReadFiles(buf, e, fst[i..], names[i..])) == ReadFiles(buf, e, fst, names)
    {
      var data := ReadPayload(buf, e, fst[i]);
      if data.Err? {
        return Err(data.error);
      }
      var file := NewFile(StripPrefix(names[i]), data.value, fst[i].compression);
      if file.Err? {
        return Err(file.error);
      }
      FilesStep(buf, e, fst, names, i, files, file.value);
      files := files + [file.value];
    }
    assert fst[|fst|..] == [] && names[|names|..] == [] && files + [] == files;
    return Ok(files);
  }

  /** `__read` on an archive file opened for reading, its cursor at 0. */
  method Read(buf: seq<Byte>, e: Streams.Endian) returns (r: Result<seq<XbFile>>)
    ensures r == Archive(buf, e)
  {
    var signature := Streams.ReadSpec(buf, 0, 4);
    if signature.Err? {
      return Err(signature.error);
    }
    if signature.value.0 != SIGNATURE {
      return Err(NotAnArchiveError);
    }
    var count := Streams.ReadU32(buf, signature.value.1, e);
    if count.Err? {
      return Err(count.error);
    }
    var fst, p := ReadFstFrom(buf, count.value.1, e, count.value.0);
    if fst.Err? {
      return Err(fst.error);
    }
    // the read-mode stream aligns by seeking
    p := Utility.AlignInt(p, 4).value;
    var decompSize := Streams.ReadU32(buf, p, e);
    if decompSize.Err? {
      return Err(decompSize.error);
    }
    var compressSize := Streams.ReadU32(buf, decompSize.value.1, e);
    if compressSize.Err? {
      return Err(compressSize.error);
    }
    var decoded := Lzs.Decode(buf, compressSize.value.1, decompSize.value.0);
    var table := Guarded(decoded);
    if table.Err? {
      return Err(table.error);
    }
    var names := ParseTable(table.value, e);
    if names.Err? {
      return Err(names.error);
    }
    if |names.value| != |fst.value| {
      return Err(BadArchiveError);
    }
    r := ReadFilesFrom(buf, e, fst.value, names.value);
  }
}

=== FILE: xbwrite.dfy ===
/** `XBArchive.__write` (archive.py:343-440) as the bytes it produces: the
    string table, the file-data section and the FST built side by side, then
    the header and the sections in file order.

    Every payload goes through util.py's `align(compress_data, 4)` at
    archive.py:403, whose result is dropped. A `bytearray` is padded in
    place anyway; a `bytes` object is not. `grows[i]` says which of the two
    the payload of file `i` is. `WrittenAs` is the code as it stands;
    `Written` is the evidently intended writer, with every payload padded. */
module XbWrite {
  import opened Common
  import Streams
  import Util
  import Utility
  import Lzs
  import opened XbFormat

  // ---------------------------------------------------------------------
  // The string table
  // ---------------------------------------------------------------------

  /** One string-table record (archive.py:351-356): the length byte, the
      hash byte, then the path as NUL-terminated UTF-8. `write_u8` of a
      path of 256 characters or more overflows. */
  function NameRecord(path: string, e: Streams.Endian): (r: Result<seq<Byte>>)
    ensures r.Ok? <==> |path| < 256
    ensures r.Err? ==> r.error == OverflowError
    ensures r.Ok? ==> r.value == [|path|, Hash(path)] + Streams.StringBytes(path, -1, true)
  {
    var length :- Streams.IntToBytes(|path|, 1, e, false);
    Streams.OneByte(|path|, e);
    Streams.OneByte(Hash(path), e);
    // a hash is one byte, so this write cannot overflow
    var hash := Streams.IntToBytes(Hash(path), 1, e, false).value;
    Ok(length + hash + Streams.StringBytes(path, -1, true))
  }

  /** The uncompressed string table: the records of all files in order. */
  function NameTable(files: seq<XbFile>, e: Streams.Endian): (r: Result<seq<Byte>>)
    ensures r.Ok? <==> forall i :: 0 <= i < |files| ==> |files[i].path| < 256
    ensures r.Err? ==> r.error == OverflowError
    decreases |files|
  {
    if files == [] then Ok([])
    else
      assert forall i :: 1 <= i < |files| ==> files[1..][i - 1] == files[i];
      var head :- NameRecord(files[0].path, e);
      var rest :- NameTable(files[1..], e);
      Ok(head + rest)
  }

  // ---------------------------------------------------------------------
  // The file-data section and the FST
  // ---------------------------------------------------------------------

  /** The kinds the writer implements. */
  predicate Writable(f: XbFile)
    ensures Writable(f) <==> Code(f.compression) >= 2
  {
    f.compression == Uncompressed || f.compression == LzOnly
  }

  /** `compress_data` (archive.py:384-400): the data itself for `NONE`,
      literal chunks for `LZ`; both Huffman kinds raise `NotImplementedError`. */
  function Packed(f: XbFile): (r: Result<seq<Byte>>)
    ensures r.Ok? <==> Writable(f)
    ensures r.Err? ==> r.error == NotImplementedError
    ensures r.Ok? ==> (r.value == [] <==> f.data == [])
  {
    match f.compression
    case Uncompressed => Ok(f.data)
    case LzOnly => Ok(Lzs.Chunks(f.data))
    case _ => Err(NotImplementedError)
  }

  /** What `compress_data` holds after archive.py:403: padded to a multiple
      of 4 when the buffer grows in place, untouched otherwise. */
  function Aligned(packed: seq<Byte>, grows: bool): (r: seq<Byte>)
    ensures |packed| <= |r| && r[..|packed|] == packed
    ensures forall i :: |packed| <= i < |r| ==> r[i] == 0
    ensures grows ==> |r| % 4 == 0 && |packed| < |r|
    ensures !grows ==> r == packed
  {
    if grows then Util.AlignBuffer(packed, 4).value else packed
  }

  /** The decompressed and compressed sizes in front of a compressed payload
      (archive.py:405-407). */
  function SizeWords(decompSize: nat, compressSize: nat, e: Streams.Endian): (r: Result<seq<Byte>>)
    ensures r.Ok? <==> decompSize < 0x1_0000_0000 && compressSize < 0x1_0000_0000
    ensures r.Err? ==> r.error == OverflowError
    ensures r.Ok? ==> |r.value| == 8
  {
    var d :- Streams.IntToBytes(decompSize, 4, e, false);
    var c :- Streams.IntToBytes(compressSize, 4, e, false);
    Ok(d + c)
  }

  /** The FST half of one pass (archive.py:412-421): the capacity check on
      the offset, the length word, the alignment assertion, the packed word. */
  function FstRecordBytes(length: nat, offset: nat, c: Compression, payloadSize: nat, e: Streams.Endian): (r: Result<seq<Byte>>)
    ensures r.Err? ==> r.error in {OverflowError, ArchiveError, AssertionError}
    ensures r == Err(ArchiveError) <==> offset / 4 >= OFFSET_MASK - payloadSize
    ensures r == Err(OverflowError) <==>
              offset / 4 < OFFSET_MASK - payloadSize && length >= 0x1_0000_0000
    ensures r == Err(AssertionError) <==>
              offset / 4 < OFFSET_MASK - payloadSize && length < 0x1_0000_0000 && offset % 4 != 0
    ensures r.Ok? ==> offset % 4 == 0 && offset / 4 + payloadSize < OFFSET_MASK && |r.value| == 8
  {
    if offset / 4 >= OFFSET_MASK - payloadSize then Err(ArchiveError)
    else
      Streams.U32Fits(length, e);
      var lengthWord :- Streams.IntToBytes(length, 4, e, false);
      if offset % 4 != 0 then Err(AssertionError)
      else
        UnpackPack(offset, Code(c));
        Streams.U32Fits(PackWord(offset, Code(c)), e);
        var word := Streams.IntToBytes(PackWord(offset, Code(c)), 4, e, false).value;
        Ok(lengthWord + word)
  }

  /** One pass of the loop of archive.py:381-428 with `fst_offset == offset`:
      the bytes it appends to the file-data stream and to the FST stream,
      and the next offset. The checks come in the source's order. */
  function FileRecord(f: XbFile, e: Streams.Endian, offset: nat, grows: bool): (r: Result<(seq<Byte>, seq<Byte>, nat)>)
    ensures r.Err? ==> r.error in {NotImplementedError, OverflowError, ArchiveError, AssertionError}
    ensures r == Err(AssertionError) ==> offset % 4 != 0
    ensures r.Ok? ==> Writable(f) && offset % 4 == 0
    ensures r.Ok? ==> offset / 4 + |Aligned(Packed(f).value, grows)| < OFFSET_MASK
    ensures r.Ok? ==> |r.value.1| == 8 && r.value.2 == offset + |r.value.0|
    ensures r.Ok? ==> |r.value.0| == (if f.compression == Uncompressed then 0 else 8) + |Aligned(Packed(f).value, grows)|
  {
    var packed :- Packed(f);
    var payload := Aligned(packed, grows);
    var sizes :- if f.compression == Uncompressed then Ok([]) else SizeWords(|f.data|, |packed|, e);
    var entry :- FstRecordBytes(|f.data|, offset, f.compression, |payload|, e);
    var data := sizes + payload;
    Ok((data, entry, offset + |data|))
  }

  /** The whole loop from `offset`: the file-data bytes and the FST bytes. */
  function FileSection(files: seq<XbFile>, e: Streams.Endian, offset: nat, grows: seq<bool>): (r: Result<(seq<Byte>, seq<Byte>)>)
    requires |grows| == |files|
    ensures r.Ok? ==> |r.value.1| == 8 * |files|
    ensures r.Ok? ==> forall i :: 0 <= i < |files| ==> Writable(files[i])
    ensures r.Err? ==> r.error in {NotImplementedError, OverflowError, ArchiveError, AssertionError}
    decreases |files|
  {
    if files == [] then Ok(([], []))
    else
      var (data, entry, next) :- FileRecord(files[0], e, offset, grows[0]);
      var (restData, restEntries) :- FileSection(files[1..], e, next, grows[1..]);
      assert forall i :: 1 <= i < |files| ==> files[1..][i - 1] == files[i];
      Ok((data + restData, entry + restEntries))
  }

  // ---------------------------------------------------------------------
  // The archive
  // ---------------------------------------------------------------------

  /** The header words written last (archive.py:430-437): the file count
      and the two sizes of the string table. */
  function HeaderWords(count: nat, decompSize: nat, compressSize: nat, e: Streams.Endian): (r: Result<(seq<Byte>, seq<Byte>, seq<Byte>)>)
    ensures r.Ok? <==> count < 0x1_0000_0000 && decompSize < 0x1_0000_0000 && compressSize < 0x1_0000_0000
    ensures r.Err? ==> r.error == OverflowError
  {
    var c :- Streams.IntToBytes(count, 4, e, false);
    var d :- Streams.IntToBytes(decompSize, 4, e, false);
    var s :- Streams.IntToBytes(compressSize, 4, e, false);
    Ok((c, d, s))
  }

  /** `strtab_data` (archive.py:358-366): the chunked table, padded by
      `strtab_data = align(strtab_data, 4)`, which keeps the padding. */
  function TableData(table: seq<Byte>): (r: seq<Byte>)
    ensures |r| % 4 == 0
    ensures Lzs.At(r, 0, Lzs.Chunks(table))
  {
    var packed := Lzs.Chunks(table);
    var r := Util.AlignBuffer(packed, 4).value;
    assert r[0..|packed|] == packed;
    r
  }

  /** `fst_offset` before the loop (archive.py:371-375): header, FST, the
      two sizes and the string table. */
  function FirstOffset(count: nat, table: seq<Byte>): (r: nat)
    ensures r % 4 == 0 && r == 16 + 8 * count + |TableData(table)|
  {
    var n := |TableData(table)|;
    Utility.DivModAddMultiple(n, 4 + 2 * count, 4);
    16 + 8 * count + n
  }

  /** `__write` as it stands: the string table, the files and the FST, then
      the header words; the output is all sections in order. */
  function WrittenAs(files: seq<XbFile>, e: Streams.Endian, grows: seq<bool>): (r: Result<seq<Byte>>)
    requires |grows| == |files|
    ensures r.Err? ==> r.error in {NotImplementedError, OverflowError, ArchiveError, AssertionError}
  {
    var table :- NameTable(files, e);
    var (filesData, fstData) :- FileSection(files, e, FirstOffset(|files|, table), grows);
    var (count, decompSize, compressSize) :- HeaderWords(|files|, |table|, |Lzs.Chunks(table)|, e);
    Ok(SIGNATURE + count + fstData + decompSize + compressSize + TableData(table) + filesData)
  }

  /** Every payload padded, as `compress_data = align(compress_data, 4)` would do. */
  function AllGrow(n: nat): (g: seq<bool>)
    ensures |g| == n && forall i :: 0 <= i < n ==> g[i]
  {
    seq(n, _ => true)
  }

  /** The writer with the padding kept for every payload. */
  function Written(files: seq<XbFile>, e: Streams.Endian): (r: Result<seq<Byte>>)
    ensures r.Err? ==> r.error in {NotImplementedError, OverflowError, ArchiveError, AssertionError}
  {
    WrittenAs(files, e, AllGrow(|files|))
  }

  // ---------------------------------------------------------------------
  // Layout and alignment
  // ---------------------------------------------------------------------

  /** The bytes the intended writer spends on one file: the size words of a
      compressed payload, then the padded payload. */
  function RecordSize(f: XbFile): (n: nat)
    requires Writable(f)
    ensures n % 4 == 0 && n > 0
  {
    (if f.compression == Uncompressed then 0 else 8) + |Aligned(Packed(f).value, true)|
  }

  /** The FST the intended writer produces from `offset` on: each file's
      length, the position of its record, its compression. */
  function Layout(files: seq<XbFile>, offset: nat): (r: seq<FstEntry>)
    requires forall i :: 0 <= i < |files| ==> Writable(files[i])
    ensures |r| == |files|
    ensures forall i :: 0 <= i < |files| ==>
              r[i].length == |files[i].data| && r[i].compression == files[i].compression
    decreases |files|
  {
    if files == [] then []
    else
      var rest := Layout(files[1..], offset + RecordSize(files[0]));
      assert forall i :: 1 <= i < |files| ==> files[1..][i - 1] == files[i];
      [FstEntry(|files[0].data|, offset, files[0].compression)] + rest
  }

  /** The FST half of a pass succeeds once the checks before it pass. */
  lemma FstRecordBytesOk(length: nat, offset: nat, c: Compression, payloadSize: nat, e: Streams.Endian)
    requires offset % 4 == 0 && offset / 4 + payloadSize < OFFSET_MASK && length < 0x1_0000_0000
    ensures Streams.IntToBytes(length, 4, e, false).Ok?
    ensures Streams.IntToBytes(PackWord(offset, Code(c)), 4, e, false).Ok?
    ensures FstRecordBytes(length, offset, c, payloadSize, e)
            == Ok(Streams.IntToBytes(length, 4, e, false).value
                  + Streams.IntToBytes(PackWord(offset, Code(c)), 4, e, false).value)
  {
    UnpackPack(offset, Code(c));
    Streams.U32Fits(length, e);
    Streams.U32Fits(PackWord(offset, Code(c)), e);
  }

  /** A padded record leaves an aligned offset aligned. */
  lemma PaddedStep(f: XbFile, e: Streams.Endian, offset: nat)
    requires offset % 4 == 0
    ensures FileRecord(f, e, offset, true).Ok? ==>
              FileRecord(f, e, offset, true).value.2 == offset + RecordSize(f)
              && FileRecord(f, e, offset, true).value.2 % 4 == 0
  {
    if FileRecord(f, e, offset, true).Ok? {
      var n := RecordSize(f);
      Utility.DivModAddMultiple(offset, n / 4, 4);
    }
  }

  /** With every payload padded, an aligned first offset keeps every
      offset aligned, so the assertion of archive.py:419 never fires. */
  lemma {:induction false} PaddedSectionNeverAsserts(files: seq<XbFile>, e: Streams.Endian, offset: nat, grows: seq<bool>)
    requires |grows| == |files| && forall i :: 0 <= i < |grows| ==> grows[i]
    requires offset % 4 == 0
    ensures FileSection(files, e, offset, grows) != Err(AssertionError)
    decreases |files|
  {
    if files != [] {
      var rec := FileRecord(files[0], e, offset, grows[0]);
      if rec.Ok? {
        PaddedStep(files[0], e, offset);
        var next := rec.value.2;
        assert next % 4 == 0;
        PaddedSectionNeverAsserts(files[1..], e, next, grows[1..]);
      }
    }
  }

  /** The intended writer never fails the alignment assertion. */
  lemma WrittenNeverAsserts(files: seq<XbFile>, e: Streams.Endian)
    ensures Written(files, e) != Err(AssertionError)
  {
    var table := NameTable(files, e);
    if table.Ok? {
      PaddedSectionNeverAsserts(files, e, FirstOffset(|files|, table.value), AllGrow(|files|));
    }
  }

  /** A pass that reaches the assertion with an unaligned offset stops there. */
  lemma UnalignedOffsetAsserts(f: XbFile, e: Streams.Endian, offset: nat, grows: bool)
    requires Writable(f) && |f.data| < 0x1_0000_0000 && |Packed(f).value| < 0x1_0000_0000
    requires offset % 4 != 0 && offset / 4 + |Aligned(Packed(f).value, grows)| < OFFSET_MASK
    ensures FileRecord(f, e, offset, grows) == Err(AssertionError)
  {
    Streams.U32Fits(|f.data|, e);
    Streams.U32Fits(|Packed(f).value|, e);
  }

  /** Two uncompressed one-byte files, the first one's data a `bytes`
      object: `align` leaves it at one byte, the second offset is odd, and
      the writer as it stands stops at the assertion. */
  lemma BytesPayloadMisaligns(e: Streams.Endian)
    ensures WrittenAs([XbFile("a", [1], Uncompressed), XbFile("b", [2], Uncompressed)], e, [false, true])
            == Err(AssertionError)
  {
    var files := [XbFile("a", [1], Uncompressed), XbFile("b", [2], Uncompressed)];
    var table := FirstOffsetOfTwo(files, e);
    FstRecordBytesOk(1, 44, Uncompressed, 1, e);
    var rec := FileRecord(files[0], e, 44, false);
    assert rec.Ok? && rec.value.2 == 45;
    UnalignedOffsetAsserts(files[1], e, 45, true);
    assert FileSection(files, e, 44, [false, true]) == Err(AssertionError) by {
      assert files[1..] == [files[1]] && [false, true][1..] == [true];
    }
  }

  /** The string table of two one-letter paths takes 12 bytes once chunked
      and padded, so the files start at byte 44. */
  lemma FirstOffsetOfTwo(files: seq<XbFile>, e: Streams.Endian) returns (table: seq<Byte>)
    requires |files| == 2 && |files[0].path| == 1 && |files[1].path| == 1
    requires files[0].path[0] as int < 0x80 && files[1].path[0] as int < 0x80
    ensures NameTable(files, e) == Ok(table)
    ensures FirstOffset(2, table) == 44
  {
    OneLetterRecord(files[0].path, e);
    OneLetterRecord(files[1].path, e);
    table := NameTable(files, e).value;
    assert |table| == 8 by {
      assert NameTable(files[1..], e).value == NameRecord(files[1].path, e).value;
    }
    Lzs.ChunksUnfold(table);
    assert |Lzs.Chunks(table)| == 9;
  }

  /** The record of a one-letter ASCII path is four bytes. */
  lemma OneLetterRecord(path: string, e: Streams.Endian)
    requires |path| == 1 && path[0] as int < 0x80
    ensures NameRecord(path, e).Ok? && |NameRecord(path, e).value| == 4
  {
    Streams.Utf8EncodeAscii(path);
    assert |Streams.StringBytes(path, -1, true)| == 2;
  }

  // ---------------------------------------------------------------------
  // The writer as it runs
  // ---------------------------------------------------------------------

  /** A stream that has only been appended to: open, cursor at the end. */
  predicate Appending(s: Streams.BufferStream, e: Streams.Endian)
    reads s
  {
    s.isOpen && s.endian == e && s.pos == |s.buffer|
  }

  /** `write(d)` on an appending stream. */
  method AppendBytes(s: Streams.BufferStream, d: seq<Byte>)
    requires Appending(s, s.endian)
    modifies s
    ensures Appending(s, old(s.endian)) && s.buffer == old(s.buffer) + d
  {
    var o := s.Write(d);
  }

  /** `write_u8`/`write_u32` on an appending stream: an unsigned value of
      `size` bytes, or an `OverflowError` with nothing written. */
  method AppendUInt(s: Streams.BufferStream, v: nat, size: nat) returns (o: Outcome)
    requires Appending(s, s.endian)
    modifies s
    ensures Appending(s, old(s.endian))
    ensures o.Pass? == Streams.IntToBytes(v, size, s.endian, false).Ok?
    ensures o.Fail? ==> o.error == OverflowError && s.buffer == old(s.buffer)
    ensures o.Pass? ==> s.buffer == old(s.buffer) + Streams.IntToBytes(v, size, s.endian, false).value
  {
    o := s.WriteInt(v, size, false);
  }

  /** The record of `files[i]`, then the records after it. */
  lemma NameTableStep(files: seq<XbFile>, i: nat, e: Streams.Endian, done: seq<Byte>)
    requires i < |files|
    ensures |files[i].path| >= 256 ==> Cons(done, NameTable(files[i..], e)) == Err(OverflowError)
    ensures |files[i].path| < 256 ==>
              Cons(done, NameTable(files[i..], e))
              == Cons(done + NameRecord(files[i].path, e).value, NameTable(files[i + 1..], e))
  {
    assert files[i..][0] == files[i] && files[i..][1..] == files[i + 1..];
    var rest := NameTable(files[i + 1..], e);
    if |files[i].path| < 256 && rest.Ok? {
      var rec := NameRecord(files[i].path, e).value;
      assert done + (rec + rest.value) == done + rec + rest.value;
    }
  }

  /** One pass of the string-table loop (archive.py:352-356): the length
      byte, the hash byte, the NUL-terminated path. */
  method WriteName(strm: Streams.BufferStream, path: string) returns (o: Outcome)
    requires Appending(strm, strm.endian)
    modifies strm
    ensures Appending(strm, old(strm.endian))
    ensures o.Pass? == NameRecord(path, strm.endian).Ok?
    ensures o.Fail? ==> o.error == OverflowError
    ensures o.Pass? ==> strm.buffer == old(strm.buffer) + NameRecord(path, strm.endian).value
  {
    o := AppendUInt(strm, |path|, 1);
    if o.Fail? {
      return;
    }
    Streams.OneByte(|path|, strm.endian);
    Streams.OneByte(Hash(path), strm.endian);
    o := AppendUInt(strm, Hash(path), 1);
    AppendBytes(strm, Streams.StringBytes(path, -1, true));
    AppendAssoc(old(strm.buffer), [|path|] + [Hash(path)], Streams.StringBytes(path, -1, true));
  }

  /** The string-table loop of archive.py:350-356 on a new `BufferStream`:
      per file the length byte, the hash byte and the NUL-terminated path. */
  method WriteNames(files: seq<XbFile>, e: Streams.Endian) returns (r: Result<seq<Byte>>)
    ensures r == NameTable(files, e)
  {
    var strm := new Streams.BufferStream(e, []);
    ConsNil(NameTable(files, e));
    for i := 0 to |files|
      invariant Appending(strm, e)
      invariant Cons(strm.buffer, NameTable(files[i..], e)) == NameTable(files, e)
    {
      NameTableStep(files, i, e, strm.buffer);
      var o := WriteName(strm, files[i].path);
      if o.Fail? {
        return Err(o.error);
      }
    }
    assert files[|files|..] == [];
    assert strm.buffer + [] == strm.buffer;
    return Ok(strm.buffer);
  }

  /** The `match` of archive.py:384-400: the data itself, its literal
      chunks, or `NotImplementedError` for both Huffman kinds. */
  method PackPayload(f: XbFile, e: Streams.Endian) returns (r: Result<seq<Byte>>)
    ensures r == Packed(f)
  {
    match f.compression {
      case Uncompressed =>
        r := Ok(f.data);
      case LzOnly =>
        var src := new Streams.BufferStream(e, f.data);
        var packed := new Streams.BufferStream(e, []);
        Lzs.WriteChunks(src, packed);
        assert packed.buffer == Lzs.Chunks(f.data);
        r := Ok(packed.buffer);
      case HuffmanOnly =>
        r := Err(NotImplementedError);
      case HuffmanLz =>
        r := Err(NotImplementedError);
    }
  }

  /** One pass of the loop of archive.py:381-428 with `fst_offset ==
      offset`, appending to the file-data stream and the FST stream;
      `grows` says whether `align(compress_data, 4)` pads the payload in
      place. Gives the next `fst_offset`. */
  method WriteRecord(f: XbFile, e: Streams.Endian, offset: nat, grows: bool,
                     dataOut: Streams.BufferStream, fstOut: Streams.BufferStream) returns (o: Outcome, next: nat)
    requires dataOut != fstOut && Appending(dataOut, e) && Appending(fstOut, e)
    modifies dataOut, fstOut
    ensures Appending(dataOut, e) && Appending(fstOut, e)
    ensures o.Pass? == FileRecord(f, e, offset, grows).Ok?
    ensures o.Fail? ==> o.error == FileRecord(f, e, offset, grows).error
    ensures o.Pass? ==> dataOut.buffer == old(dataOut.buffer) + FileRecord(f, e, offset, grows).value.0
    ensures o.Pass? ==> fstOut.buffer == old(fstOut.buffer) + FileRecord(f, e, offset, grows).value.1
    ensures o.Pass? ==> next == FileRecord(f, e, offset, grows).value.2
  {
    next := offset;
    var packed := PackPayload(f, e);
    if packed.Err? {
      return Fail(packed.error), next;
    }
    var payload := Aligned(packed.value, grows);
    o := WritePayload(dataOut, f.compression, |f.data|, |packed.value|, payload);
    if o.Fail? {
      return;
    }
    o := WriteFstRecord(fstOut, |f.data|, offset, f.compression, |payload|);
    if o.Fail? {
      return;
    }
    FileRecordParts(f, e, offset, grows);
    ghost var sizes := if f.compression == Uncompressed then [] else SizeWords(|f.data|, |packed.value|, e).value;
    AppendAssoc(old(dataOut.buffer), sizes, payload);
    next := offset + (if f.compression == Uncompressed then 0 else 4 * 2) + |payload|;
  }

  /** archive.py:405-409: the two size words in front of a compressed
      payload, then the payload. */
  method WritePayload(dataOut: Streams.BufferStream, c: Compression, decompSize: nat, compressSize: nat,
                      payload: seq<Byte>) returns (o: Outcome)
    requires Appending(dataOut, dataOut.endian)
    modifies dataOut
    ensures Appending(dataOut, old(dataOut.endian))
    ensures var sizes := if c == Uncompressed then Ok([]) else SizeWords(decompSize, compressSize, dataOut.endian);
            (o.Pass? == sizes.Ok?)
            && (o.Fail? ==> o.error == OverflowError)
            && (o.Pass? ==> dataOut.buffer == old(dataOut.buffer) + sizes.value + payload)
  {
    if c != Uncompressed {
      o := AppendUInt(dataOut, decompSize, 4);
      if o.Fail? {
        return;
      }
      o := AppendUInt(dataOut, compressSize, 4);
      if o.Fail? {
        return;
      }
      AppendBytes(dataOut, payload);
    } else {
      AppendBytes(dataOut, payload);
      o := Pass;
    }
  }

  /** The FST half of a pass (archive.py:412-421): the capacity check, the
      length word, the alignment assertion, the packed word. */
  method WriteFstRecord(fstOut: Streams.BufferStream, length: nat, offset: nat, c: Compression,
                        payloadSize: nat) returns (o: Outcome)
    requires Appending(fstOut, fstOut.endian)
    modifies fstOut
    ensures Appending(fstOut, old(fstOut.endian))
    ensures o.Pass? == FstRecordBytes(length, offset, c, payloadSize, fstOut.endian).Ok?
    ensures o.Fail? ==> o.error == FstRecordBytes(length, offset, c, payloadSize, fstOut.endian).error
    ensures o.Pass? ==> fstOut.buffer == old(fstOut.buffer) + FstRecordBytes(length, offset, c, payloadSize, fstOut.endian).value
  {
    if offset / 4 >= OFFSET_MASK - payloadSize {
      return Fail(ArchiveError);
    }
    o := AppendUInt(fstOut, length, 4);
    if o.Fail? {
      return;
    }
    if offset % 4 != 0 {
      return Fail(AssertionError);
    }
    ghost var lengthWord := Streams.IntToBytes(length, 4, fstOut.endian, false).value;
    FstRecordBytesOk(length, offset, c, payloadSize, fstOut.endian);
    o := AppendUInt(fstOut, PackWord(offset, Code(c)), 4);
    AppendAssoc(old(fstOut.buffer), lengthWord, Streams.IntToBytes(PackWord(offset, Code(c)), 4, fstOut.endian, false).value);
  }

  /** A pass that succeeds: the size words and the padded payload on one
      side, the FST record on the other. */
  lemma FileRecordParts(f: XbFile, e: Streams.Endian, offset: nat, grows: bool)
    requires FileRecord(f, e, offset, grows).Ok?
    ensures Packed(f).Ok?
    ensures f.compression != Uncompressed ==> SizeWords(|f.data|, |Packed(f).value|, e).Ok?
    ensures FileRecord(f, e, offset, grows).value.0
            == (if f.compression == Uncompressed then [] else SizeWords(|f.data|, |Packed(f).value|, e).value)
               + Aligned(Packed(f).value, grows)
    ensures FileRecord(f, e, offset, grows).value.1
            == FstRecordBytes(|f.data|, offset, f.compression, |Aligned(Packed(f).value, grows)|, e).value
  {
  }

  /** `target` is what the whole loop gives when `data` and `fst` are
      written so far and the rest of the loop gives `rest`. */
  predicate SectionSoFar(target: Result<(seq<Byte>, seq<Byte>)>, data: seq<Byte>, fst: seq<Byte>,
                         rest: Result<(seq<Byte>, seq<Byte>)>)
  {
    target.Ok? == rest.Ok?
    && (rest.Ok? ==> target.value.0 == data + rest.value.0 && target.value.1 == fst + rest.value.1)
    && (rest.Err? ==> target.error == rest.error)
  }

  /** The pass for `files[i]`, then the passes after it. */
  lemma SectionStep(files: seq<XbFile>, i: nat, e: Streams.Endian, offset: nat, grows: seq<bool>,
                    target: Result<(seq<Byte>, seq<Byte>)>, data: seq<Byte>, fst: seq<Byte>)
    requires |grows| == |files| && i < |files|
    requires SectionSoFar(target, data, fst, FileSection(files[i..], e, offset, grows[i..]))
    ensures FileRecord(files[i], e, offset, grows[i]).Err? ==>
              target.Err? && target.error == FileRecord(files[i], e, offset, grows[i]).error
    ensures FileRecord(files[i], e, offset, grows[i]).Ok? ==>
              var (d, entry, next) := FileRecord(files[i], e, offset, grows[i]).value;
              SectionSoFar(target, data + d, fst + entry, FileSection(files[i + 1..], e, next, grows[i + 1..]))
  {
    assert files[i..][0] == files[i] && files[i..][1..] == files[i + 1..];
    assert grows[i..][0] == grows[i] && grows[i..][1..] == grows[i + 1..];
    SectionUnfold(files[i..], e, offset, grows[i..]);
    var rec := FileRecord(files[i], e, offset, grows[i]);
    if rec.Ok? {
      var (d, entry, next) := rec.value;
      var rest := FileSection(files[i + 1..], e, next, grows[i + 1..]);
      if rest.Ok? {
        AppendAssoc(data, d, rest.value.0);
        AppendAssoc(fst, entry, rest.value.1);
      }
    }
  }

  /** One pass of the loop, then the passes after it. */
  lemma SectionUnfold(fs: seq<XbFile>, e: Streams.Endian, offset: nat, gs: seq<bool>)
    requires |gs| == |fs| && fs != []
    ensures var rec := FileRecord(fs[0], e, offset, gs[0]);
            rec.Err? ==> FileSection(fs, e, offset, gs) == Err(rec.error)
    ensures var rec := FileRecord(fs[0], e, offset, gs[0]);
            rec.Ok? ==>
              var rest := FileSection(fs[1..], e, rec.value.2, gs[1..]);
              FileSection(fs, e, offset, gs)
              == if rest.Ok? then Ok((rec.value.0 + rest.value.0, rec.value.1 + rest.value.1)) else Err(rest.error)
  {
  }

  /** The loop of archive.py:378-431: two new streams and the running
      `fst_offset` from `start`. */
  method WriteSections(files: seq<XbFile>, e: Streams.Endian, start: nat, grows: seq<bool>)
    returns (r: Result<(seq<Byte>, seq<Byte>)>)
    requires |grows| == |files|
    ensures r.Ok? == FileSection(files, e, start, grows).Ok?
    ensures r.Ok? ==> r.value.0 == FileSection(files, e, start, grows).value.0
    ensures r.Ok? ==> r.value.1 == FileSection(files, e, start, grows).value.1
    ensures r.Err? ==> r.error == FileSection(files, e, start, grows).error
  {
    ghost var target := FileSection(files, e, start, grows);
    var dataOut := new Streams.BufferStream(e, []);
    var fstOut := new Streams.BufferStream(e, []);
    var offset := start;
    if target.Ok? {
      assert [] + target.value.0 == target.value.0 && [] + target.value.1 == target.value.1;
    }
    assert files[0..] == files && grows[0..] == grows;
    for i := 0 to |files|
      invariant Appending(dataOut, e) && Appending(fstOut, e)
      invariant SectionSoFar(target, dataOut.buffer, fstOut.buffer, FileSection(files[i..], e, offset, grows[i..]))
    {
      SectionStep(files, i, e, offset, grows, target, dataOut.buffer, fstOut.buffer);
      var o;
      o, offset := WriteRecord(files[i], e, offset, grows[i], dataOut, fstOut);
      if o.Fail? {
        return Err(o.error);
      }
    }
    assert files[|files|..] == [] && grows[|files|..] == [];
    assert dataOut.buffer + [] == dataOut.buffer && fstOut.buffer + [] == fstOut.buffer;
    return Ok((dataOut.buffer, fstOut.buffer));
  }

  /** archive.py:358-367: the string table compressed from its start, its
      compressed size, then padded to 4 bytes. */
  method PackTable(table: seq<Byte>, e: Streams.Endian) returns (tableData: seq<Byte>, compressSize: nat)
    ensures tableData == TableData(table) && compressSize == |Lzs.Chunks(table)|
  {
    var tableIn := new Streams.BufferStream(e, table);
    var packed := new Streams.BufferStream(e, []);
    Lzs.WriteChunks(tableIn, packed);
    assert packed.buffer == Lzs.Chunks(table);
    compressSize := |packed.buffer|;
    tableData := Util.AlignBuffer(packed.buffer, 4).value;
  }

  /** archive.py:436-449: the header, the FST, the sizes and data of the
      string table and the file data, into a new output stream. */
  method WriteSectionsOut(count: nat, fstData: seq<Byte>, decompSize: nat, compressSize: nat,
                          tableData: seq<Byte>, filesData: seq<Byte>, e: Streams.Endian) returns (r: Result<seq<Byte>>)
    ensures r.Ok? == HeaderWords(count, decompSize, compressSize, e).Ok?
    ensures r.Err? ==> r.error == OverflowError
    ensures r.Ok? ==>
              var (c, d, s) := HeaderWords(count, decompSize, compressSize, e).value;
              r.value == SIGNATURE + c + fstData + d + s + tableData + filesData
  {
    var out := new Streams.BufferStream(e, []);
    AppendBytes(out, SIGNATURE);
    var o := AppendUInt(out, count, 4);
    if o.Fail? {
      return Err(o.error);
    }
    AppendBytes(out, fstData);
    o := AppendUInt(out, decompSize, 4);
    if o.Fail? {
      return Err(o.error);
    }
    o := AppendUInt(out, compressSize, 4);
    if o.Fail? {
      return Err(o.error);
    }
    AppendBytes(out, tableData);
    AppendBytes(out, filesData);
    return Ok(out.buffer);
  }

  /** `__write` (archive.py:344-449) into a new output stream, `grows` as in
      `WriteRecord`. */
  method Write(files: seq<XbFile>, e: Streams.Endian, grows: seq<bool>) returns (r: Result<seq<Byte>>)
    requires |grows| == |files|
    ensures r.Ok? == WrittenAs(files, e, grows).Ok?
    ensures r.Ok? ==> r.value == WrittenAs(files, e, grows).value
    ensures r.Err? ==> r.error == WrittenAs(files, e, grows).error
  {
    var table := WriteNames(files, e);
    if table.Err? {
      return Err(table.error);
    }
    var tableData, compressSize := PackTable(table.value, e);
    var start := 4 * 2 + 4 * 2 * |files| + 4 * 2 + |tableData|;
    assert start == FirstOffset(|files|, table.value);
    var sections := WriteSections(files, e, start, grows);
    if sections.Err? {
      return Err(sections.error);
    }
    var (filesData, fstData) := sections.value;
    r := WriteSectionsOut(|files|, fstData, |table.value|, compressSize, tableData, filesData, e);
  }
}
